=== FILE: README.md ===
# coinkeeper: a Dafny model of the finance tracker's core

The application is a React/Redux personal finance tracker. A signed-in user
keeps a list of income and expense transactions, each with an amount, a
category name, a date and an optional comment. They also keep a list of
categories, each with a name, an icon and a colour. This project models the
logic beneath the screens as pure Dafny functions over immutable data, and
proves what that logic promises.

- **Store slices.** `TransactionsReducer` and `CategoriesSlice` cover fetch,
  add, edit and delete bookkeeping over an ordered list with `loading` and
  `error` flags. `AuthSlice` is the live auth slice. `LegacyAuth` is the older,
  unwired hand-written auth reducer.
- **Thunks.** `TransactionsActions` and the thunk functions of the slices
  model each thunk as the service call it makes plus the actions it
  dispatches, in order. The service's answer is a parameter: a `Failure` is
  the error it throws.
- **The mock authentication service.** `AuthService` covers password
  equality, the `mock-jwt-token-<id>` token and its parser. `MockServer` gives
  the answers json-server would give for a table of users.
- **Derived page values.**
  - `PeriodFilter`: the period filter.
  - `Spending`, on top of the generic `Grouping`: spending by category.
  - `DailySeries`: the per-day income and expense series.
  - `MonthOptions`: the month selector.
  - `Dashboard`: balance, totals, the newest-first list, the modal, and
    submit/delete routing.
  - `Calendar`: the calendar helpers.
- **Forms.** `TransactionForm` models the add/edit modal with its
  effects, inline category creation and validation. `CategoryForm` models the
  category form and the categories page handlers.
- **`Scenarios`.** End-to-end runs across the modules.

Conventions:

- Amounts are `real`.
- Dates are wall-clock `(year, month, day, ms)` values with 0-based months,
  as in JavaScript.
- "Now" is a parameter.
- `localStorage` is a plain `Option<string>` beside the slice state.
- Alerts become `Failure` or `None` results.
- `window.confirm` is a boolean parameter.

## Model

| member | source | states |
|---|---|---|
| Entities.FindByName | src/pages/StatisticsPage.tsx:121 | absent exactly when no category has the name; otherwise the first category with that name |
| Entities.ResponseMessageOr | src/store/authSlice.ts:43 | the response's message if non-empty, else the error's message if non-empty, else the fallback |
| Text.Trim | src/pages/CategoriesPage.tsx:64-68 | the result is the slice of the input that starts after its leading white space and is followed only by white space; it neither starts nor ends with white space |
| Text.BlankIffAllSpace | src/pages/StatisticsPage.tsx:116 | a string is blank after trimming exactly when every character is white space |
| Text.TrimNotBlank | src/pages/CategoriesPage.tsx:64-68 | trimming a non-blank string yields a non-empty, non-blank string |
| Text.SplitSecond | src/services/authService.ts:83 | `split(sep)[1]` exists exactly when the separator occurs; it is the text that starts right after the first separator and runs up to the next separator or the end of the string, with no separator inside |
| Text.BeforeFirst | src/pages/StatisticsPage.tsx:179 | `split(c)[0]` is a prefix without `c` that is either the whole string or stops at the first `c` |
| Grouping.Group | src/pages/StatisticsPage.tsx:128-135 | buckets have distinct keys; each bucket holds exactly the kept elements with its key, in input order, with its opening element first; every kept element has a bucket |
| Grouping.BucketsHaveWitnesses | src/pages/StatisticsPage.tsx:128-134 | every bucket was opened by a kept element of the input carrying its key |
| Grouping.GroupSum | src/pages/StatisticsPage.tsx:135 | summing per bucket and then over buckets equals summing over the kept elements |
| Calendar.DaysInMonth | src/utils/dateUtils.ts:11-13 | 28 to 31 days; February has 29 exactly in Gregorian leap years |
| Calendar.JsYear | src/utils/dateUtils.ts:7-9 | the `Date(year, month, …)` constructor reads years 0..99 as 1900..1999 and keeps the others |
| Calendar.StartOfMonth | src/utils/dateUtils.ts:7-9 | a valid date on day 1 at midnight, in the month the (possibly out-of-range) month index normalises to |
| Calendar.EndOfMonth | src/utils/dateUtils.ts:11-13 | a valid date in the same month as the start, on its last day, at 23:59:59.999 |
| Calendar.InMonthRange | src/utils/dateUtils.ts:7-13 | a valid date lies between the start and the end of a month exactly when it is in that month |
| Calendar.DecemberEnd | src/pages/StatisticsPage.tsx:73-74 | December ends on the 31st of the same year at 23:59:59.999 |
| Calendar.FebruaryEnd | src/utils/dateUtils.ts:11-13 | February ends on the 29th in leap years and on the 28th otherwise |
| Calendar.MonthYear | src/utils/dateUtils.ts:3-5 | `getMonthYear` of a date with a non-negative year reads back, split at the dash, as its year and 1-based month |
| Calendar.MonthYearChronological | src/utils/dateUtils.ts:3-5 | for four-digit years the code-unit order of the labels is the calendar order of the months |
| Calendar.FormatDateForAxis | src/utils/dateUtils.ts:15-18 | `DD.MM`: two digits of the day, a dot, two digits of the 1-based month; `NaN.NaN` for an invalid date |
| Calendar.ZeroPad | src/utils/dateUtils.ts:4 | `padStart` keeps the number's value and pads with zeros to at least the width |
| Calendar.ParseDate | src/pages/StatisticsPage.tsx:88-93 | a string read as a date gives a valid calendar day, at midnight, with a four-digit year |
| Calendar.DateOfFields | src/pages/StatisticsPage.tsx:88-93 | digit fields that name an existing day give exactly that day; a day it gives is valid, at midnight, with the fields' values |
| Calendar.ParseParts | src/pages/StatisticsPage.tsx:88 | a `YYYY-MM-DD` layout is read field by field |
| Calendar.ParseIsoDate | src/components/TransactionFormModal/TransactionFormModal.tsx:74 | the ISO date string of a day with a four-digit year reads back as that day |
| Calendar.IsoDate | src/components/TransactionFormModal/TransactionFormModal.tsx:74 | for a four-digit year, ten characters with dashes at 4 and 7 whose digit fields are the year, the 1-based month and the day |
| Calendar.ParseMonthYear | src/pages/StatisticsPage.tsx:61 | the year and month it reads are non-negative numbers |
| PeriodFilter.PeriodWindow | src/pages/StatisticsPage.tsx:59-79 | all time exactly for periods other than the three known ones; an empty range exactly for an unreadable month; otherwise an ordered range of valid dates |
| PeriodFilter.FilterByPeriod | src/pages/StatisticsPage.tsx:50-97 | empty input gives empty output; the result keeps exactly the input transactions that lie in the period's window |
| PeriodFilter.OtherPeriodsKeepAll | src/pages/StatisticsPage.tsx:76-78 | `'all'` and unknown periods return the list unchanged |
| PeriodFilter.UnreadableMonthKeepsNothing | src/pages/StatisticsPage.tsx:60-65 | a month string that does not read as numbers selects nothing |
| PeriodFilter.SelectedMonthKeepsThatMonth | src/pages/StatisticsPage.tsx:60-65 | choosing a month keeps exactly the transactions dated in it, in order |
| PeriodFilter.MonthRangeMeansMonth | src/pages/StatisticsPage.tsx:83-95 | filtering by a month's range is filtering by "dated in that month" |
| PeriodFilter.LastMonthKeepsPreviousMonth | src/pages/StatisticsPage.tsx:66-71 | "last month" keeps exactly the previous calendar month, December of the year before in January |
| PeriodFilter.CurrentYearKeepsThisYear | src/pages/StatisticsPage.tsx:72-75 | "current year" keeps exactly the transactions dated in the current year |
| Spending.ValueGeTotal | src/pages/StatisticsPage.tsx:143 | the descending-by-value order is total |
| Spending.SpendingByCategory | src/pages/StatisticsPage.tsx:105-150 | empty when there are no transactions or no categories; sorted by non-increasing value |
| Spending.MembersAreContributors | src/pages/StatisticsPage.tsx:112-135 | a group's members are exactly the counted expenses shown under its name |
| Spending.BucketsHoldContributors | src/pages/StatisticsPage.tsx:112-135 | every group holds exactly its name's contributors, opening transaction first |
| Spending.SliceFromBucket | src/pages/StatisticsPage.tsx:138-143 | every slice of the sorted result is one group's slice |
| Spending.BucketToSlice | src/pages/StatisticsPage.tsx:138-143 | every group's slice appears in the sorted result |
| Spending.SliceNamesDistinct | src/pages/StatisticsPage.tsx:128-138 | no two slices share a name |
| Spending.SliceValueIsSum | src/pages/StatisticsPage.tsx:135 | each slice's value is the sum of its contributors' amounts |
| Spending.SliceNamesAreDisplayNames | src/pages/StatisticsPage.tsx:112-138 | with categories loaded, a name has a slice exactly when some counted expense is shown under it |
| Spending.ContributorHasBucket | src/pages/StatisticsPage.tsx:128-134 | a name with contributors has a group |
| Spending.UnknownCategorySlice | src/pages/StatisticsPage.tsx:121-126 | a slice not named after a category has no colour or icon and carries the "Без категории (" prefix |
| Spending.FirstIsShownUnderKey | src/pages/StatisticsPage.tsx:128-134 | a group is opened by a counted expense of the list shown under the group's name |
| Spending.KnownCategoriesColourSlices | src/pages/StatisticsPage.tsx:121-133 | when every counted expense names a category, each slice is named after a category and has its colour and icon |
| Spending.SlicesSum | src/pages/StatisticsPage.tsx:138-142 | turning groups into slices keeps the total |
| Spending.TotalExpenses | src/pages/StatisticsPage.tsx:159-162 | `totalExpenses` is the sum of the expenses with a non-blank category, or 0 with no categories |
| Spending.SlicesAddUpCountedExpenses | src/pages/StatisticsPage.tsx:128-143 | the slices' values add up to the counted expenses' amounts, or to 0 with no categories |
| Spending.SpendingAsWritten | src/pages/StatisticsPage.tsx:128-143 | the written code's breakdown is also empty on empty input and sorted by value (see Findings) |
| Spending.AsWrittenAgreesOffPrototypeKeys | src/pages/StatisticsPage.tsx:128-143 | when no expense is shown under a prototype member name, the written breakdown equals the intended one |
| Spending.PrototypeNamedCategoryIsLost | src/pages/StatisticsPage.tsx:128-138 | a category named `toString` with an expense of 10 gets no slice as written and one slice of 10 as intended |
| DailySeries.DayLeTotal | src/pages/StatisticsPage.tsx:191 | the ascending-by-date order is total |
| DailySeries.DayKey | src/pages/StatisticsPage.tsx:179 | `split('T')[0]`: a prefix of the date without `T` that is the whole date or stops at its first `T` |
| DailySeries.DailyChartData | src/pages/StatisticsPage.tsx:164-198 | empty on empty input; sorted by ascending date |
| DailySeries.TotalIncome | src/pages/StatisticsPage.tsx:152-157 | `totalIncome` adds every transaction's income amount, 0 for expenses; 0 on empty input |
| DailySeries.DayFromBucket | src/pages/StatisticsPage.tsx:191 | every bar is one day group's totals |
| DailySeries.BucketToDay | src/pages/StatisticsPage.tsx:191 | every day group appears as a bar |
| DailySeries.DatesDistinct | src/pages/StatisticsPage.tsx:179-182 | no date appears on two bars |
| DailySeries.IncomeSum | src/pages/StatisticsPage.tsx:184-185 | adding only income amounts is summing the income transactions |
| DailySeries.ExpenseSum | src/pages/StatisticsPage.tsx:186-187 | adding only expense amounts is summing the expense transactions |
| DailySeries.DayTotalsAreSums | src/pages/StatisticsPage.tsx:174-189 | each bar holds its day's income sum and expense sum, separately |
| DailySeries.DatesAreDayKeys | src/pages/StatisticsPage.tsx:174-182 | a day has a bar exactly when some transaction with a non-blank date falls on it |
| DailySeries.BarsAddUpToTotals | src/pages/StatisticsPage.tsx:152-189 | the income bars add up to the income of the dated transactions and the expense bars to their expenses; when every transaction is dated, the income bars add up to `totalIncome` |
| DailySeries.DayKeyKeepsDate | src/pages/StatisticsPage.tsx:179 | cutting a readable date at `T` reads as the same day |
| DailySeries.RangedBarsAreDates | src/pages/StatisticsPage.tsx:83-95 | for every period except "all", every bar's key is a real date |
| DailySeries.DailyAsWritten | src/pages/StatisticsPage.tsx:172-191 | the written code's series, whose map loses days named after `Object.prototype` members, is also empty on empty input and sorted by date (see Findings) |
| DailySeries.PrototypeNamedDateIsLost | src/pages/StatisticsPage.tsx:172-191 | one income of 10 dated `toString` gets no bar as written and one bar of 10 as intended |
| DailySeries.AsWrittenAgreesOffPrototypeKeys | src/pages/StatisticsPage.tsx:172-191 | when no dated transaction's day is a prototype member name, the written series equals the intended one |
| DailySeries.DatesAreNotPrototypeKeys | src/pages/StatisticsPage.tsx:88-93 | a string that reads as a date is not a prototype member name |
| DailySeries.RangedPeriodsAgree | src/pages/StatisticsPage.tsx:50-191 | for every period except "all", the written series equals the intended one |
| MonthOptions.MonthLabels | src/pages/StatisticsPage.tsx:205-216 | every label comes from a dated transaction, and every dated transaction's label is present |
| MonthOptions.LexLeIsTotal | src/pages/StatisticsPage.tsx:218 | the string order `sort()` uses is total |
| MonthOptions.MonthOptions | src/pages/StatisticsPage.tsx:201-223 | the current month is always offered; the list is in non-increasing string order |
| MonthOptions.OptionsAreMonths | src/pages/StatisticsPage.tsx:203-217 | a label is offered exactly when it is the current month or some transaction's month |
| MonthOptions.OptionsDistinct | src/pages/StatisticsPage.tsx:204 | no month is offered twice |
| MonthOptions.OptionsNewestFirst | src/pages/StatisticsPage.tsx:218 | with four-digit years the options run strictly from the latest month to the earliest |
| MonthOptions.LaterLabel | src/utils/dateUtils.ts:3-5 | of two different four-digit-year labels, the larger string is the later month |
| MonthOptions.OptionMonth | src/pages/StatisticsPage.tsx:205-217 | every option is the label of a month with a four-digit year |
| Dashboard.Balance | src/pages/DashboardPage.tsx:57-73 | the balance equals the income total minus the expense total |
| Dashboard.IncomeTotal | src/pages/DashboardPage.tsx:63-67 | the income total is every amount minus the expense amounts |
| Dashboard.ExpenseTotal | src/pages/DashboardPage.tsx:69-73 | the expense total is every amount minus the income amounts |
| Dashboard.TotalsCoverEveryAmount | src/pages/DashboardPage.tsx:63-73 | the two totals together account for every amount exactly once |
| Dashboard.BalanceAfterAdd | src/pages/DashboardPage.tsx:57-61 | appending a transaction moves the balance by its signed amount |
| Dashboard.NewerOrSameTotal | src/pages/DashboardPage.tsx:76 | the newest-first order is total |
| Dashboard.NewerOrSameTransitive | src/pages/DashboardPage.tsx:76 | the newest-first order is transitive |
| Dashboard.SortedTransactions | src/pages/DashboardPage.tsx:75-77 | a permutation of the list in which every earlier transaction is no older than every later one |
| Dashboard.SortedNewestFirst | src/pages/DashboardPage.tsx:75-77 | dated transactions precede undated ones and run from the latest date to the earliest |
| Dashboard.SortingKeepsTotals | src/pages/DashboardPage.tsx:75-77 | sorting keeps the sum of amounts |
| Dashboard.OpenModal | src/pages/DashboardPage.tsx:32-35 | opening shows the modal with the given transaction or none |
| Dashboard.CloseModal | src/pages/DashboardPage.tsx:37-40 | closing hides the modal and forgets the transaction |
| Dashboard.CloseUndoesOpen | src/pages/DashboardPage.tsx:32-40 | closing after any open returns to the initial modal state; closing is idempotent |
| Dashboard.RouteOf | src/pages/DashboardPage.tsx:43 | the form goes to edit exactly when its id is present and non-empty |
| Dashboard.SubmitTransaction | src/pages/DashboardPage.tsx:42-49 | the modal closes; edit is dispatched with the form's id when it is truthy, add with the draft otherwise |
| Dashboard.SubmitOutcome | src/pages/DashboardPage.tsx:42-49 | an edit replaces the records with the returned id; a signed-in add appends the returned record; a failure keeps the list and records an error |
| Dashboard.DeleteTransaction | src/pages/DashboardPage.tsx:51-55 | the delete thunk runs exactly when confirmed, for that id |
| Dashboard.DeleteOutcome | src/pages/DashboardPage.tsx:51-55 | declining changes nothing; a confirmed successful delete removes exactly that id's transactions |
| TransactionForm.ResetNewCategory | src/components/TransactionFormModal/TransactionFormModal.tsx:44-53 | on open the new-category input is hidden and cleared and nothing else changes; when closed nothing changes |
| TransactionForm.CategoryIdFor | src/components/TransactionFormModal/TransactionFormModal.tsx:65-66 | the id of the first category with the transaction's category name, or empty when there is none |
| TransactionForm.DefaultSelection | src/components/TransactionFormModal/TransactionFormModal.tsx:78-87 | a valid selection stays; otherwise the first category, or empty without categories |
| TransactionForm.InitFields | src/components/TransactionFormModal/TransactionFormModal.tsx:56-90 | edit mode copies type, amount, date cut at `T`, comment and category; new mode resets to an expense dated today and keeps or repairs the selection |
| TransactionForm.InitFieldsSettles | src/components/TransactionFormModal/TransactionFormModal.tsx:56-90 | a second run of the effect changes nothing, so the re-render loop stops |
| TransactionForm.OpenedIsStable | src/components/TransactionFormModal/TransactionFormModal.tsx:44-90 | the effects' re-run ends in the same form as running the reset first, and that form is stable |
| TransactionForm.NewFormDatedToday | src/components/TransactionFormModal/TransactionFormModal.tsx:74 | a new transaction's proposed date reads back as today |
| TransactionForm.AddNewCategory | src/components/TransactionFormModal/TransactionFormModal.tsx:92-111 | a blank name is refused with nothing sent; otherwise the trimmed name is posted; the form changes only on success, selecting the new id and closing the input |
| TransactionForm.AddedCategoryStaysSelected | src/components/TransactionFormModal/TransactionFormModal.tsx:98-103 | after a successful add the store ends with the new category, and the effect keeps it selected |
| TransactionForm.CategoryName | src/components/TransactionFormModal/TransactionFormModal.tsx:128 | the name of the first category with the id, or empty when no category has it |
| TransactionForm.HandleSubmit | src/components/TransactionFormModal/TransactionFormModal.tsx:113-143 | succeeds exactly with a positive amount, a category or the open input, and a date; checks in that order and reports the first that fails; carries the edited id only in edit mode |
| TransactionForm.OpenInputSubmitsNoCategory | src/components/TransactionFormModal/TransactionFormModal.tsx:119-128 | with the new-category input open and nothing selected, the form submits an empty category |
| TransactionForm.SubmittedCategoryIsSelected | src/components/TransactionFormModal/TransactionFormModal.tsx:128 | with distinct ids the submitted category is the selected category's name |
| TransactionForm.UnchangedEditResubmits | src/components/TransactionFormModal/TransactionFormModal.tsx:60-70 | opening an edit and submitting it untouched sends the transaction's own fields back and the dashboard routes it to edit |
| TransactionForm.OrphanEditNeedsCategory | src/components/TransactionFormModal/TransactionFormModal.tsx:119-122 | an edited transaction whose category is gone is refused for lack of a category |
| TransactionForm.NewTransactionIsAdded | src/components/TransactionFormModal/TransactionFormModal.tsx:140-142 | a new transaction is always routed to the add thunk |
| CategoryForm.EditData | src/pages/CategoriesPage.tsx:163-166 | the edit form's initial data is the edited category |
| CategoryForm.InitFields | src/pages/CategoriesPage.tsx:51-60 | each field is the given value when truthy, else `''`, `''` and `#cccccc` |
| CategoryForm.Submit | src/pages/CategoriesPage.tsx:62-75 | refused exactly for a blank name; sends trimmed name and icon and the colour as is; clears the fields only for a form without an id |
| CategoryForm.AddFormResets | src/pages/CategoriesPage.tsx:69-74 | after an add the form equals a fresh add form |
| CategoryForm.UnchangedEditResubmits | src/pages/CategoriesPage.tsx:51-75 | submitting an untouched edit form sends the category's own values back and keeps the form |
| CategoryForm.HandleEdit | src/pages/CategoriesPage.tsx:135-140 | edits only while a category is being edited, for its id; always clears the editing state |
| CategoryForm.HandleDelete | src/pages/CategoriesPage.tsx:142-146 | the delete thunk runs exactly when confirmed |
| CategoryForm.HandlersOutcome | src/pages/CategoriesPage.tsx:135-146 | no-op edit and declined delete change nothing; a successful edit updates every copy under distinct ids; a confirmed delete removes exactly that id |
| CategoryForm.AddFormOutcome | src/pages/CategoriesPage.tsx:131-133 | the add form posts the trimmed fields with the user's id and the store gains the returned category at the end |
| TransactionsReducer.ReplaceById | src/store/transactions/transactions.reducer.ts:53-60 | same length; every item with the id becomes the payload, the others stay |
| TransactionsReducer.RemoveId | src/store/transactions/transactions.reducer.ts:62-67 | a record survives a delete exactly when it was present and has another id; with `RemoveIdAppend` and `RemoveIdOne` the survivors keep their order and multiplicity |
| TransactionsReducer.RemoveIdAppend | src/store/transactions/transactions.reducer.ts:65 | deleting from a concatenation deletes from each part, so the survivors stay in order |
| TransactionsReducer.RemoveIdOne | src/store/transactions/transactions.reducer.ts:65 | a single record survives exactly when its id differs |
| TransactionsReducer.Reduce | src/store/transactions/transactions.reducer.ts:24-82 | requests set loading and clear the error, failures stop loading and record the message, and neither touches the list; successes stop loading and keep the error; an add appends, an edit replaces every record with the id, a delete keeps exactly the other ids; unknown actions change nothing |
| TransactionsReducer.Run | src/store/transactions/transactions.reducer.ts:24-82 | after a sequence the spinner is on exactly when the last own action was a request, and without a success the list is untouched |
| TransactionsReducer.RequestStartsLoading | src/store/transactions/transactions.reducer.ts:29-37 | every request sets loading, clears the error and keeps the list |
| TransactionsReducer.FailureRecordsError | src/store/transactions/transactions.reducer.ts:69-77 | every failure stops loading, records its message and keeps the list |
| TransactionsReducer.SuccessStopsLoading | src/store/transactions/transactions.reducer.ts:39-67 | every success stops loading and leaves the error as it was |
| TransactionsReducer.UnrelatedIsNoOp | src/store/transactions/transactions.reducer.ts:79-80 | unknown actions return the state unchanged |
| TransactionsReducer.FetchReplacesList | src/store/transactions/transactions.reducer.ts:39-44 | a fetch installs the payload whatever was there |
| TransactionsReducer.AddAppends | src/store/transactions/transactions.reducer.ts:46-51 | an add grows the list by one, with the old items as a prefix and the payload last |
| TransactionsReducer.EditKeepsIds | src/store/transactions/transactions.reducer.ts:53-60 | an edit keeps the length and every position's id, and is idempotent |
| TransactionsReducer.EditOfUnknownIdIsNoOp | src/store/transactions/transactions.reducer.ts:53-60 | an edit whose id matches nothing changes nothing |
| TransactionsReducer.DeleteRemovesExactly | src/store/transactions/transactions.reducer.ts:62-67 | after a delete a record is present exactly when it was present and has another id |
| TransactionsReducer.DeleteIdempotent | src/store/transactions/transactions.reducer.ts:62-67 | deleting twice is deleting once |
| TransactionsReducer.LoadingFollowsLastAction | src/store/transactions/transactions.reducer.ts:29-77 | after any sequence the spinner is on exactly when the last own action was a request |
| TransactionsReducer.ListChangesOnlyOnSuccess | src/store/transactions/transactions.reducer.ts:29-77 | without a success action the list is untouched |
| TransactionsReducer.FetchRaceLastAnswerWins | src/store/transactions/transactions.reducer.ts:39-44 | of two fetches in flight the answer that arrives last wins |
| Seqs.RunAppend | src/store/transactions/transactions.reducer.ts:24-27 | dispatching two action sequences is dispatching their concatenation |
| TransactionsActions.FetchTransactions | src/store/transactions/transactions.actions.ts:20-32 | the request is dispatched first, then one outcome; the service is called exactly when there is a user id |
| TransactionsActions.AddTransaction | src/store/transactions/transactions.actions.ts:34-51 | posts the draft with the user's id exactly when there is one; without a user only the failure is dispatched |
| TransactionsActions.EditTransaction | src/store/transactions/transactions.actions.ts:53-61 | puts the changes for the id with no user check, request first |
| TransactionsActions.DeleteTransaction | src/store/transactions/transactions.actions.ts:63-71 | removes the id with no user check, request first |
| TransactionsActions.FetchOutcome | src/store/transactions/transactions.actions.ts:20-32 | installs the list, or keeps it with the failure message or `User not authenticated` |
| TransactionsActions.AddOutcome | src/store/transactions/transactions.actions.ts:34-51 | appends the returned record, or keeps the list with the message |
| TransactionsActions.EditOutcome | src/store/transactions/transactions.actions.ts:53-61 | replaces the returned id's records, or keeps the list with the message |
| TransactionsActions.DeleteOutcome | src/store/transactions/transactions.actions.ts:63-71 | removes exactly that id, or keeps the list with the message |
| Seqs.FirstIndex | src/store/categories/categoriesSlice.ts:120 | absent exactly when no element has the key; otherwise the first position with it |
| CategoriesSlice.ReplaceFirst | src/store/categories/categoriesSlice.ts:119-125 | without a match the list is unchanged; otherwise the first match, and only it, becomes the payload |
| CategoriesSlice.RemoveId | src/store/categories/categoriesSlice.ts:135-138 | a category survives a delete exactly when it was present and has another id; with `RemoveIdAppend` and `RemoveIdOne` the survivors keep their order and multiplicity |
| CategoriesSlice.RemoveIdAppend | src/store/categories/categoriesSlice.ts:136 | deleting from a concatenation deletes from each part, so the survivors stay in order |
| CategoriesSlice.RemoveIdOne | src/store/categories/categoriesSlice.ts:136 | a single category survives exactly when its id differs |
| CategoriesSlice.Reduce | src/store/categories/categoriesSlice.ts:86-143 | pending sets loading and clears the error; rejected stops loading and records the message; fulfilled stops loading and keeps the error; fetch replaces, add appends, edit changes only slots with the id to the payload, delete keeps exactly the other ids |
| CategoriesSlice.LifecycleCases | src/store/categories/categoriesSlice.ts:89-142 | pending sets loading and clears the error; rejected stops loading and records the message; neither touches the list; fulfilled keeps the error |
| CategoriesSlice.FulfilledLists | src/store/categories/categoriesSlice.ts:93-138 | fetch replaces, add appends, edit keeps the length, delete keeps exactly the other ids |
| CategoriesSlice.ReplaceFirstUpdatesEverywhere | src/store/categories/categoriesSlice.ts:119-125 | with distinct ids, replacing the first match is replacing every match |
| CategoriesSlice.ReplaceFirstChangesOneSlot | src/store/categories/categoriesSlice.ts:119-125 | the edit keeps the length and changes at most one position |
| CategoriesSlice.DuplicateIdsOnlyFirstReplaced | src/store/categories/categoriesSlice.ts:119-125 | with a duplicated id only the first copy is replaced |
| CategoriesSlice.FetchCategories | src/store/categories/categoriesSlice.ts:7-22 | pending first; the service is asked exactly when there is a user id |
| CategoriesSlice.AddCategory | src/store/categories/categoriesSlice.ts:24-43 | pending first; posts the draft with the user's id exactly when there is one |
| CategoriesSlice.EditCategory | src/store/categories/categoriesSlice.ts:45-57 | puts the changes for the id with no user check |
| CategoriesSlice.DeleteCategory | src/store/categories/categoriesSlice.ts:59-71 | removes the id with no user check |
| CategoriesSlice.FetchOutcome | src/store/categories/categoriesSlice.ts:7-22 | installs the list, or keeps it with the failure message or `User not authenticated` |
| CategoriesSlice.AddOutcome | src/store/categories/categoriesSlice.ts:24-43 | appends the returned category, or keeps the list with the message |
| CategoriesSlice.EditOutcome | src/store/categories/categoriesSlice.ts:45-57 | replaces the first match, and every match under distinct ids; or keeps the list with the message |
| CategoriesSlice.DeleteOutcome | src/store/categories/categoriesSlice.ts:59-71 | removes exactly that id, or keeps the list with the message |
| AuthService.MakeToken | src/services/authService.ts:45 | the token is the prefix followed by the id |
| AuthService.Login | src/services/authService.ts:20-50 | succeeds exactly when the first user found carries the typed password; the session has that user's id and its token; an empty lookup fails with `User not found`, a wrong password with `Invalid password`, a failed lookup with its own error |
| AuthService.Register | src/services/authService.ts:52-73 | posts the credentials exactly when the email is free; a taken email fails with `User with this email already exists`; a failed lookup or post fails with its error; otherwise the new user and its token |
| AuthService.TokenUserId | src/services/authService.ts:79-86 | a token without the prefix is refused with `Invalid or missing mock token`; for a prefixed token the id is exactly `split(prefix)[1]`, and an empty piece is refused with `Invalid mock token format: User ID missing` |
| AuthService.RepeatedPrefixMissesId | src/services/authService.ts:83-86 | `mock-jwt-token-mock-jwt-token-x` splits into an empty second piece and is refused with `User ID missing` |
| AuthService.SecondPieceFollowsPrefix | src/services/authService.ts:83 | in a prefixed token the second split piece begins right after the prefix |
| AuthService.TokenRoundTrip | src/services/authService.ts:45-86 | an id comes back from its token exactly when it is non-empty and does not contain the prefix |
| AuthService.FetchMe | src/services/authService.ts:75-100 | succeeds exactly when the token yields an id and the lookup succeeds, with that user without password; a bad token fails with its error; a 404 gives `User associated with token not found`, any other failure `Failed to fetch user details` |
| AuthService.LogoutUserServer | src/services/authService.ts:102-107 | never fails |
| MockServer.UsersWithEmail | src/services/authService.ts:22 | the rows with that email; empty exactly when no row has it |
| MockServer.UserById | src/services/authService.ts:90 | found exactly when some row has the id; otherwise a 404 |
| MockServer.RegisterThenLogin | src/services/authService.ts:20-73 | after registering a free email, logging in gives the same session and registering again is refused |
| MockServer.LookupAfterCreate | src/services/authService.ts:54-64 | before the post the email finds nothing; after it exactly the new row |
| MockServer.SameIdSameRow | src/services/authService.ts:90 | with distinct ids, two rows with the same id are the same row |
| MockServer.WrongPasswordRefused | src/services/authService.ts:37-40 | a password other than the stored one fails with `Invalid password` |
| MockServer.LoginTokenFindsUser | src/services/authService.ts:45-93 | the login token finds the logged-in user again |
| AuthSlice.Initial | src/store/authSlice.ts:22-30 | nobody signed in; the spinner is on exactly when a non-empty token is saved |
| AuthSlice.LoginUser | src/store/authSlice.ts:33-46 | pending, then fulfilled with the login's session exactly when it succeeds, saving its token; otherwise rejected with the response message, the error message or `Failed to login`, storage unchanged |
| AuthSlice.RegisterUser | src/store/authSlice.ts:48-61 | pending, then fulfilled with the registration's session exactly when it succeeds, saving its token; otherwise rejected with the response message, the error message or `Failed to register` |
| AuthSlice.CheckAuthStatus | src/store/authSlice.ts:63-86 | without a saved token rejects with `No token found`; with one, fulfilled with the user `fetchMe` finds and that token, or rejected with its message or `Session invalid` and the token removed |
| AuthSlice.Reduce | src/store/authSlice.ts:88-169 | only `logout` touches storage, and it signs out; a success signs in with its session; a rejection signs out and shows its op's message; every action keeps "signed in iff a user, and then a token" |
| AuthSlice.RunKeepsShape | src/store/authSlice.ts:88-169 | any action sequence keeps "signed in iff a user, and then a token", with no condition on the actions |
| AuthSlice.Apply | src/store/authSlice.ts:33-169 | after a thunk storage holds what the thunk wrote, and the session keeps its shape |
| AuthSlice.InitialConsistent | src/store/authSlice.ts:22-30 | the initial client is consistent |
| AuthSlice.ReduceKeepsConsistent | src/store/authSlice.ts:92-167 | every case keeps "signed in iff a user, and then the token is saved" when a success's token was saved first |
| AuthSlice.ThunksKeepConsistent | src/store/authSlice.ts:33-167 | each thunk run to completion keeps the client consistent |
| AuthSlice.PendingAndFulfilled | src/store/authSlice.ts:104-154 | pending sets loading and clears the error, keeping the session; fulfilled installs the session and signs in |
| AuthSlice.LogoutIdempotent | src/store/authSlice.ts:92-99 | logout signs out, removes the saved token, and is idempotent |
| AuthSlice.CheckWithoutTokenIsQuiet | src/store/authSlice.ts:71-74 | with no saved token the check ends signed out with no error, and rerunning it changes nothing |
| AuthSlice.RejectionShowsError | src/store/authSlice.ts:115-167 | a rejection other than `No token found` shows its message and signs out |
| LegacyAuth.Initial | src/store/auth/auth.reducer.ts:13-19 | the saved token is read; not loading, not signed in, no user and no error |
| LegacyAuth.LoginUser | src/store/auth/auth.actions.ts:22-33 | request, then success with the login's session exactly when it succeeds, otherwise failure with the response message, the error message or `Failed to login` |
| LegacyAuth.RegisterUser | src/store/auth/auth.actions.ts:35-57 | request, then `LOGIN_SUCCESS` with the registration's session exactly when it succeeds, otherwise `REGISTER_FAILURE` with the message or `Failed to register`; `REGISTER_SUCCESS` is never dispatched |
| LegacyAuth.LogoutAction | src/store/auth/auth.actions.ts:60-70 | dispatches `LOGOUT` and notifies the server exactly when a token was held |
| LegacyAuth.CheckAuthStatus | src/store/auth/auth.actions.ts:72-96 | the state's token or else the saved one; with it, request then success with the user found and that token, or failure with the message or `Session expired or token invalid`; without it, `LOGOUT` only if signed in |
| LegacyAuth.Reduce | src/store/auth/auth.reducer.ts:26-80 | every action keeps the client consistent; login success signs in and saves its token; failures and logout sign out and clear the saved token, failures recording the message; the other actions keep the session and storage |
| LegacyAuth.RunKeepsConsistent | src/store/auth/auth.reducer.ts:26-80 | every action sequence keeps "signed in iff a user, and then the token is saved" |
| LegacyAuth.OneActionEffects | src/store/auth/auth.reducer.ts:28-78 | requests only set loading; login success signs in and saves; register success keeps the session; unknown actions change nothing |
| LegacyAuth.FailureForgetsToken | src/store/auth/auth.reducer.ts:45-55 | both failures clear the session and the saved token and record the message |
| LegacyAuth.LogoutResets | src/store/auth/auth.reducer.ts:69-76 | logout gives the initial state without a token and is idempotent |
| Scenarios.SessionSurvivesReload | src/store/authSlice.ts:22-86 | log in, reload from the saved token, check the session: the same signed-in state |
| Scenarios.ConcreteLogin | src/services/authService.ts:20-50 | the right password gives `mock-jwt-token-u1`; a wrong one `Invalid password` |
| Scenarios.AddMovesBalance | src/pages/DashboardPage.tsx:42-61 | a successful signed-in add moves the balance by the new record's signed amount |

## Left out

- Time zones: `new Date("YYYY-MM-DD")` is read as UTC while `getStartOfMonth` is local time. Every date here is a wall-clock date in one zone.
- Time of day: `Calendar.ParseDate` reads `YYYY-MM-DD` optionally followed by `T…`, and drops the time. Every period bound is a whole-day boundary, so the filter's answers do not depend on it. Other formats that `Date` accepts are read as invalid.
- `Calendar.ParseDate` and `Calendar.IsoDate` cover years 0..9999 only. The period lemmas exclude years below 100, which `new Date(year, …)` reads as 1900 + year.
- Floating point: amounts are exact `real`s. Nothing is claimed about rounding, `NaN` from `parseFloat`/`Number`, or currency formatting.
- The transaction form's amount is modelled as already parsed (`None` for `''`). The `parseFloat` of the input (src/components/TransactionFormModal/TransactionFormModal.tsx:167) is not modelled.
- Comparators that return `NaN`: an invalid date makes the browser's order unspecified. The model places such dates last on the dashboard (`Dashboard.NewerOrSame`) and first in the daily series (`DailySeries.DayLe`).
- The tie order of `sort` and the integer-key reordering of `Object.entries`: groups are kept in first-appearance order. Only sortedness and the group contents are stated.
- White space: `Text.IsSpace` covers space, tab, newline, carriage return, form feed, vertical tab, U+00A0, U+FEFF, U+2028 and U+2029. It leaves out the other Unicode space separators that `trim` also removes: U+1680, U+2000 to U+200A, U+202F, U+205F and U+3000.
- Concurrency: interleaved thunks are modelled only as arbitrary action sequences (`TransactionsReducer.LoadingFollowsLastAction`, `FetchRaceLastAnswerWins`).
- The transaction form's effects are modelled at the state they settle in (`TransactionForm.Opened`), not render by render.
- `toISOString()` is modelled as the date part of "now" (`Calendar.IsoDate`), with no shift from local time to UTC.
- HTTP: `transactionService.ts` and `categoryService.ts` are not part of this model. Each call is an answer parameter. `MockServer` assumes json-server's lookup-by-email, lookup-by-id and append semantics.
- The page-load effects that dispatch the fetches, all rendering, charts, `console` output and alert texts are left out.
- `useTheme.ts`, the login and registration pages, `App.tsx`, `main.tsx` and the store wiring are not part of this model. The registration page's password confirmation would only be a precondition here.
- Dashboard.SortedTransactions: the order compares calendar days only, because `Calendar.ParseDate` drops the time of day. Two date-times on the same day keep their input order here, while the source orders them by `getTime()`.
- Calendar.ParseDate accepts any text after a `T` (for example `2024-05-01Tjunk`), which `new Date` rejects. A ranged period therefore keeps such a transaction in the model and drops it in the program.
- Prototype pollution: in the written code an amount added to a prototype member's name also mutates that inherited member. Only the lost entry is modelled (`Spending.SpendingAsWritten`, `DailySeries.DailyAsWritten`).
- Dashboard.SubmitTransaction: a form id of `''` routes to add, as the `data.id` truthiness test does. The model claims nothing beyond that test.

## Where the code and its design notes differ

The model follows the code.

- The design describes the statistics total as the sum of all expenses. The code sums the slices instead, so:
  - expenses with a blank category are not counted;
  - the total is 0 while no categories are loaded (`Spending.TotalExpenses`).
- Edits replace every transaction with the returned id, but only the first category with it (`CategoriesSlice.DuplicateIdsOnlyFirstReplaced`).

## Findings

| source | as written | input that shows it | evidently intended | confidence | as-written member | corrected member |
|---|---|---|---|---|---|---|
| src/pages/StatisticsPage.tsx:128-138 | the spending map is a plain object, so for a category named after an `Object.prototype` member `!spendingMap[name]` is false: no own entry is created, the amount goes to the inherited member, and `Object.entries` never lists it | one category `toString` and one expense of 10 in it: no slice and a total of 0 | one slice `toString` worth 10 (a `Map` or `Object.create(null)`) | not executed | Spending.SpendingAsWritten, Spending.PrototypeNamedCategoryIsLost | Spending.SpendingByCategory, Spending.SlicesAddUpCountedExpenses |
| src/pages/StatisticsPage.tsx:172-191 | `dataMap` is a plain object, so for a day key that names an `Object.prototype` member `!dataMap[dateKey]` is false: no own entry is created and `Object.values` never lists the day | with period "all", one income of 10 dated `toString`: no bar | one bar `toString` with income 10 (a `Map` or `Object.create(null)`) | not executed | DailySeries.DailyAsWritten, DailySeries.PrototypeNamedDateIsLost | DailySeries.DailyChartData, DailySeries.DatesAreDayKeys |

=== FILE: auth_service.dfy ===
/** The mock authentication service (`authService.ts`) against the
    json-server backend: log in by looking a user up by email, register by
    posting a new user, and turn a `mock-jwt-token-<id>` token back into a
    user. Each HTTP answer is a parameter (`Failure` for a thrown axios
    error); `MockServer` below gives the answers json-server would give for a
    table of users, for the round-trip lemmas. */
module AuthService {
  import opened Wrappers
  import opened Text
  import opened Entities
  import Seqs

  datatype Credentials = Credentials(email: string, password: string)

  const TokenPrefix := "mock-jwt-token-"

  /** `` `mock-jwt-token-${id}` ``. */
  function MakeToken(id: string): (t: string)
    ensures StartsWith(t, TokenPrefix) && t[|TokenPrefix|..] == id
  {
    TokenPrefix + id
  }

  /** `login(credentials)`, given the answer to `GET /users?email=…`: the
      first user listed must carry exactly the typed password (a record with
      no password never matches). */
  function Login(creds: Credentials, found: Result<seq<UserRecord>, Thrown>): (r: Result<Session, Thrown>)
    ensures r.Success? <==>
      found.Success? && |found.value| > 0 && found.value[0].password == Some(creds.password)
    ensures r.Success? ==> r.value.user.id == found.value[0].id && r.value.token == MakeToken(r.value.user.id)
    ensures found.Success? && found.value == [] ==> r == Failure(Raise("User not found"))
    ensures found.Success? && found.value != [] && found.value[0].password != Some(creds.password) ==>
      r == Failure(Raise("Invalid password"))
    ensures found.Failure? ==> r == Failure(found.error)
  {
    match found
    case Failure(e) => Failure(e)
    case Success(users) =>
      if |users| == 0 then Failure(Raise("User not found"))
      else
        var u := users[0];
        if u.password != Some(creds.password) then Failure(Raise("Invalid password"))
        else Success(Session(WithoutPassword(u), MakeToken(u.id)))
  }

  /** What `register` did: the body it posted to `/users`, if it got that
      far, and its result. */
  datatype Registration = Registration(posted: Option<Credentials>, result: Result<Session, Thrown>)

  /** `register(userData)`, given the answers to the email lookup and to the
      `POST /users` of `{ email, password }`. Nothing is posted when the email
      is taken or the lookup fails. */
  function Register(data: Credentials, found: Result<seq<UserRecord>, Thrown>, created: Result<UserRecord, Thrown>): (r: Registration)
    ensures r.posted.Some? <==> found.Success? && found.value == []
    ensures r.posted.Some? ==> r.posted.value == data
    ensures r.result.Success? <==> r.posted.Some? && created.Success?
    ensures r.result.Success? ==>
      r.result.value == Session(WithoutPassword(created.value), MakeToken(created.value.id))
    ensures found.Success? && found.value != [] ==> r.result == Failure(Raise("User with this email already exists"))
    ensures found.Failure? ==> r.result == Failure(found.error)
    ensures r.posted.Some? && created.Failure? ==> r.result == Failure(created.error)
  {
    match found
    case Failure(e) => Registration(None, Failure(e))
    case Success(users) =>
      if |users| > 0 then Registration(None, Failure(Raise("User with this email already exists")))
      else
        var payload := Credentials(data.email, data.password);
        match created
        case Failure(e) => Registration(Some(payload), Failure(e))
        case Success(u) => Registration(Some(payload), Success(Session(WithoutPassword(u), MakeToken(u.id))))
  }

  /** The validation half of `fetchMe(token)`: the user id it extracts with
      `token.split('mock-jwt-token-')[1]`, or the error it throws first. */
  function TokenUserId(token: string): (r: Result<string, Thrown>)
    ensures r.Success? ==> r.value != "" && !Contains(r.value, TokenPrefix)
    ensures r.Success? ==> StartsWith(token, MakeToken(r.value))
    ensures !StartsWith(token, TokenPrefix) ==> r == Failure(Raise("Invalid or missing mock token"))
    ensures r.Success? ==> SplitSecond(token, TokenPrefix) == Some(r.value)
    ensures StartsWith(token, TokenPrefix) && SplitSecond(token, TokenPrefix).Some? ==>
      r == if SplitSecond(token, TokenPrefix).value == "" then Failure(Raise("Invalid mock token format: User ID missing"))
           else Success(SplitSecond(token, TokenPrefix).value)
  {
    if token == "" || !StartsWith(token, TokenPrefix) then Failure(Raise("Invalid or missing mock token"))
    else
      match SplitSecond(token, TokenPrefix)
      case None => Failure(Raise("Invalid mock token format: User ID missing"))
      case Some(id) =>
        if id == "" then Failure(Raise("Invalid mock token format: User ID missing"))
        else
          SecondPieceFollowsPrefix(token);
          Success(id)
  }

  /** A token that repeats the prefix straight away has an empty second
      piece, so no id is read from it. */
  lemma RepeatedPrefixMissesId()
    ensures TokenUserId(TokenPrefix + TokenPrefix + "x") == Failure(Raise("Invalid mock token format: User ID missing"))
  {
  }

  /** In a token that starts with the prefix, the second piece of the split
      begins right after it. */
  lemma SecondPieceFollowsPrefix(token: string)
    requires StartsWith(token, TokenPrefix)
    ensures SplitSecond(token, TokenPrefix).Some?
    ensures StartsWith(token, TokenPrefix + SplitSecond(token, TokenPrefix).value)
  {
    assert FindFrom(token, TokenPrefix, 0) == Some(0);
    var id := SplitSecond(token, TokenPrefix).value;
    var n := |TokenPrefix|;
    assert token[n..n + |id|] == id;
    assert (TokenPrefix + id) == token[..n + |id|];
  }

  /** Reading a token back: the id comes out unchanged exactly when it is
      non-empty and does not itself contain the prefix. */
  lemma {:induction false} TokenRoundTrip(id: string)
    ensures TokenUserId(MakeToken(id)) == Success(id) <==> id != "" && !Contains(id, TokenPrefix)
  {
    if id != "" && !Contains(id, TokenPrefix) {
      var t := MakeToken(id);
      var n := |TokenPrefix|;
      assert FindFrom(t, TokenPrefix, 0) == Some(0);
      forall j | n <= j ensures !OccursAt(t, TokenPrefix, j) {
        assert !OccursAt(id, TokenPrefix, j - n);
        if j + n <= |t| {
          assert t[j..j + n] == id[j - n..j - n + n];
        }
      }
      assert FindFrom(t, TokenPrefix, n).None?;
      assert t[n..] == id;
    }
  }

  /** `fetchMe(token)`: validate the token, then `GET /users/<id>` through
      `getById`; a 404 and any other failure are reported differently. */
  function FetchMe(token: string, getById: string -> Result<UserRecord, Thrown>): (r: Result<User, Thrown>)
    ensures r.Success? <==> TokenUserId(token).Success? && getById(TokenUserId(token).value).Success?
    ensures r.Success? ==> r.value == WithoutPassword(getById(TokenUserId(token).value).value)
    ensures TokenUserId(token).Failure? ==> r == Failure(TokenUserId(token).error)
    ensures TokenUserId(token).Success? && getById(TokenUserId(token).value).Failure? ==>
      r == Failure(Raise(if getById(TokenUserId(token).value).error.status == Some(404)
                         then "User associated with token not found"
                         else "Failed to fetch user details"))
  {
    match TokenUserId(token)
    case Failure(e) => Failure(e)
    case Success(id) =>
      match getById(id)
      case Success(u) => Success(WithoutPassword(u))
      case Failure(e) =>
        if e.status == Some(404) then Failure(Raise("User associated with token not found"))
        else Failure(Raise("Failed to fetch user details"))
  }

  /** `logoutUserServer(token)` does nothing and cannot fail. */
  function LogoutUserServer(token: string): (r: Result<(), Thrown>)
    ensures r.Success?
  {
    Success(())
  }
}

/** json-server's answers for a table of users, and the round trips the
    service promises on top of it: a registered user can log in, and the
    token of a logged-in user finds that user again. */
module MockServer {
  import opened Wrappers
  import opened Text
  import opened Entities
  import opened AuthService
  import Seqs

  /** `GET /users?email=…`: the rows with that email, in table order. */
  function UsersWithEmail(db: seq<UserRecord>, email: string): (r: seq<UserRecord>)
    ensures forall i :: 0 <= i < |r| ==> r[i] in db && r[i].email == email
    ensures r == [] <==> forall i :: 0 <= i < |db| ==> db[i].email != email
  {
    var p := (u: UserRecord) => u.email == email;
    var r := Seqs.Filter(p, db);
    assert forall i :: 0 <= i < |db| && p(db[i]) ==> db[i] in r;
    assert |r| > 0 ==> r[0] in db && p(r[0]);
    r
  }

  /** `GET /users/<id>`: the row, or a 404. */
  function UserById(db: seq<UserRecord>, id: string): (r: Result<UserRecord, Thrown>)
    ensures r.Success? <==> exists i :: 0 <= i < |db| && db[i].id == id
    ensures r.Success? ==> r.value in db && r.value.id == id
    ensures r.Failure? ==> r.error.status == Some(404)
  {
    match Seqs.FirstIndex(RecordId, db, id)
    case None => Failure(Thrown(Some(404), "", "Request failed with status code 404"))
    case Some(k) => Success(db[k])
  }

  predicate IdsDistinct(db: seq<UserRecord>) {
    Seqs.KeysDistinct(RecordId, db)
  }

  /** `POST /users`: the new row goes to the end under a fresh id. */
  function Create(db: seq<UserRecord>, data: Credentials, freshId: string): (r: seq<UserRecord>)
    ensures r == db + [UserRecord(freshId, data.email, Some(data.password))]
  {
    db + [UserRecord(freshId, data.email, Some(data.password))]
  }

  /** Registering a new email, then logging in with the same credentials,
      yields the session registration returned; registering again is refused. */
  lemma RegisterThenLogin(db: seq<UserRecord>, data: Credentials, freshId: string)
    requires forall i :: 0 <= i < |db| ==> db[i].email != data.email
    ensures var reg := Register(data, Success(UsersWithEmail(db, data.email)),
                                Success(UserRecord(freshId, data.email, Some(data.password))));
            var db' := Create(db, data, freshId);
            reg.result.Success? &&
            Login(data, Success(UsersWithEmail(db', data.email))) == reg.result &&
            Register(data, Success(UsersWithEmail(db', data.email)), Success(UserRecord(freshId, data.email, Some(data.password))))
              == Registration(None, Failure(Raise("User with this email already exists")))
  {
    LookupAfterCreate(db, data, freshId);
  }

  /** Before the POST the email finds nothing; after it, exactly the new row. */
  lemma LookupAfterCreate(db: seq<UserRecord>, data: Credentials, freshId: string)
    requires forall i :: 0 <= i < |db| ==> db[i].email != data.email
    ensures UsersWithEmail(db, data.email) == []
    ensures UsersWithEmail(Create(db, data, freshId), data.email)
         == [UserRecord(freshId, data.email, Some(data.password))]
  {
    var p := (u: UserRecord) => u.email == data.email;
    var row := UserRecord(freshId, data.email, Some(data.password));
    Seqs.FilterAppend(p, db, [row]);
    Seqs.FilterSingleton(p, row);
  }

  lemma SameIdSameRow(db: seq<UserRecord>, i: nat, k: nat)
    requires IdsDistinct(db)
    requires i < |db| && k < |db| && db[i].id == db[k].id
    ensures i == k
  {
  }

  /** Logging in with a password other than the stored one is refused. */
  lemma WrongPasswordRefused(db: seq<UserRecord>, creds: Credentials)
    requires UsersWithEmail(db, creds.email) != []
    requires UsersWithEmail(db, creds.email)[0].password != Some(creds.password)
    ensures Login(creds, Success(UsersWithEmail(db, creds.email))) == Failure(Raise("Invalid password"))
  {
  }

  /** The token handed out at login finds the same user again, as long as ids
      are distinct and do not contain the token prefix. */
  lemma LoginTokenFindsUser(db: seq<UserRecord>, creds: Credentials)
    requires IdsDistinct(db)
    requires Login(creds, Success(UsersWithEmail(db, creds.email))).Success?
    ensures var s := Login(creds, Success(UsersWithEmail(db, creds.email))).value;
            s.user.id != "" && !Contains(s.user.id, TokenPrefix) ==>
              FetchMe(s.token, id => UserById(db, id)) == Success(s.user)
  {
    var s := Login(creds, Success(UsersWithEmail(db, creds.email))).value;
    var row := UsersWithEmail(db, creds.email)[0];
    if s.user.id != "" && !Contains(s.user.id, TokenPrefix) {
      TokenRoundTrip(s.user.id);
      assert row in db;
      var i :| 0 <= i < |db| && db[i] == row;
      var k := Seqs.FirstIndex(RecordId, db, row.id).value;
      SameIdSameRow(db, i, k);
    }
  }
}

=== FILE: auth_slice.dfy ===
/** The auth slice the store actually uses (`authSlice.ts`): three async
    thunks, the `logout` reducer, and the browser's saved token
    (`localStorage['authToken']`), which both the thunks and the reducer write. */
module AuthSlice {
  import opened Wrappers
  import opened Entities
  import AuthService
  import Seqs

  datatype AuthState = AuthState(
    user: Option<User>,
    token: Option<string>,
    isLoading: bool,
    error: Option<string>,
    isAuthenticated: bool)

  /** The slice plus the saved token. */
  datatype Client = Client(auth: AuthState, saved: Option<string>)

  /** The initial state, read from storage once at start-up: a saved token
      means a session check is about to run, so the spinner starts on. */
  function Initial(saved: Option<string>): (c: Client)
    ensures c.saved == saved && c.auth.token == saved
    ensures c.auth.isLoading <==> Truthy(saved)
    ensures !c.auth.isAuthenticated && c.auth.user.None? && c.auth.error.None?
  {
    Client(AuthState(None, saved, Truthy(saved), None, false), saved)
  }

  datatype Op = LoginOp | RegisterOp | CheckOp

  datatype Action =
    | Pending(op: Op)
    | Fulfilled(op: Op, session: Session)
    | Rejected(op: Op, payload: Option<string>)
    | Logout
    | Unrelated(actionType: string)

  const NoTokenFound := "No token found"

  /** The message a rejection shows; the check's "no token" rejection shows none. */
  function RejectionError(op: Op, payload: Option<string>): Option<string> {
    match op
    case LoginOp => Some(payload.GetOr("Failed to login"))
    case RegisterOp => Some(payload.GetOr("Failed to register"))
    case CheckOp => if payload == Some(NoTokenFound) then None else Some(payload.GetOr("Session invalid"))
  }

  const SignedOut := AuthState(None, None, false, None, false)

  /** Signed in exactly when there is a user, and then there is a token. */
  predicate SessionShape(s: AuthState) {
    (s.isAuthenticated <==> s.user.Some?) && (s.isAuthenticated ==> s.token.Some?)
  }

  /** The slice reducer; `logout` also removes the saved token. Only `logout`
      touches storage, and every action keeps the session's shape. */
  function Reduce(c: Client, a: Action): (r: Client)
    ensures r.saved == if a.Logout? then None else c.saved
    ensures SessionShape(c.auth) ==> SessionShape(r.auth)
    ensures a.Logout? ==> !r.auth.isAuthenticated && r.auth.token.None? && r.auth.user.None?
    ensures a.Fulfilled? ==> r.auth.isAuthenticated && r.auth.user == Some(a.session.user) && r.auth.token == Some(a.session.token)
    ensures a.Rejected? ==> !r.auth.isAuthenticated && r.auth.token.None? && r.auth.error == RejectionError(a.op, a.payload)
  {
    match a
    case Pending(_) => c.(auth := c.auth.(isLoading := true, error := None))
    case Fulfilled(_, s) => c.(auth := AuthState(Some(s.user), Some(s.token), false, None, true))
    case Rejected(op, p) => c.(auth := AuthState(None, None, false, RejectionError(op, p), false))
    case Logout => Client(SignedOut, None)
    case Unrelated(_) => c
  }

  function Run(c: Client, acts: seq<Action>): Client {
    Seqs.Run(Reduce, c, acts)
  }

  /** Any sequence of actions keeps the session's shape. */
  lemma {:induction false} RunKeepsShape(c: Client, acts: seq<Action>)
    requires SessionShape(c.auth)
    ensures SessionShape(Run(c, acts).auth)
  {
    if |acts| > 0 {
      RunKeepsShape(c, Seqs.Init(acts));
    }
  }

  // ---------------------------------------------------------------------------
  // Thunks: the actions dispatched, and the saved token afterwards
  // ---------------------------------------------------------------------------

  datatype Effect = Effect(actions: seq<Action>, saved: Option<string>)

  /** `loginUser(credentials)`; on success the token is saved before `fulfilled`. */
  function LoginUser(saved: Option<string>, creds: AuthService.Credentials, found: Result<seq<UserRecord>, Thrown>): (r: Effect)
    ensures |r.actions| == 2 && r.actions[0] == Pending(LoginOp)
    ensures r.actions[1].Fulfilled? <==> AuthService.Login(creds, found).Success?
    ensures r.actions[1].Fulfilled? ==> r.saved == Some(r.actions[1].session.token)
    ensures r.actions[1].Rejected? ==> r.saved == saved && r.actions[1].payload.Some?
    ensures var l := AuthService.Login(creds, found);
      (l.Success? ==> r.actions[1] == Fulfilled(LoginOp, l.value)) &&
      (l.Failure? ==> r.actions[1] == Rejected(LoginOp, Some(ResponseMessageOr(l.error, "Failed to login"))))
  {
    match AuthService.Login(creds, found)
    case Success(s) => Effect([Pending(LoginOp), Fulfilled(LoginOp, s)], Some(s.token))
    case Failure(e) => Effect([Pending(LoginOp), Rejected(LoginOp, Some(ResponseMessageOr(e, "Failed to login")))], saved)
  }

  /** `registerUser(userData)`; success logs the new user in. */
  function RegisterUser(saved: Option<string>, data: AuthService.Credentials,
                        found: Result<seq<UserRecord>, Thrown>, created: Result<UserRecord, Thrown>): (r: Effect)
    ensures |r.actions| == 2 && r.actions[0] == Pending(RegisterOp)
    ensures r.actions[1].Fulfilled? <==> AuthService.Register(data, found, created).result.Success?
    ensures r.actions[1].Fulfilled? ==> r.saved == Some(r.actions[1].session.token)
    ensures r.actions[1].Rejected? ==> r.saved == saved && r.actions[1].payload.Some?
    ensures var g := AuthService.Register(data, found, created).result;
      (g.Success? ==> r.actions[1] == Fulfilled(RegisterOp, g.value)) &&
      (g.Failure? ==> r.actions[1] == Rejected(RegisterOp, Some(ResponseMessageOr(g.error, "Failed to register"))))
  {
    match AuthService.Register(data, found, created).result
    case Success(s) => Effect([Pending(RegisterOp), Fulfilled(RegisterOp, s)], Some(s.token))
    case Failure(e) => Effect([Pending(RegisterOp), Rejected(RegisterOp, Some(ResponseMessageOr(e, "Failed to register")))], saved)
  }

  /** `checkAuthStatus()`: with a saved token, ask `fetchMe` who it belongs
      to; a token it rejects is removed from storage. */
  function CheckAuthStatus(saved: Option<string>, getById: string -> Result<UserRecord, Thrown>): (r: Effect)
    ensures |r.actions| == 2 && r.actions[0] == Pending(CheckOp)
    ensures !Truthy(saved) ==> r == Effect([Pending(CheckOp), Rejected(CheckOp, Some(NoTokenFound))], saved)
    ensures r.actions[1].Fulfilled? <==>
      Truthy(saved) && AuthService.FetchMe(saved.value, getById).Success?
    ensures r.actions[1].Fulfilled? ==> r.saved == saved && r.actions[1].session.token == saved.value
    ensures Truthy(saved) && r.actions[1].Rejected? ==> r.saved.None?
    ensures Truthy(saved) ==>
      var m := AuthService.FetchMe(saved.value, getById);
      (m.Success? ==> r.actions[1] == Fulfilled(CheckOp, Session(m.value, saved.value))) &&
      (m.Failure? ==> r.actions[1] == Rejected(CheckOp, Some(ResponseMessageOr(m.error, "Session invalid"))))
  {
    if !Truthy(saved) then Effect([Pending(CheckOp), Rejected(CheckOp, Some(NoTokenFound))], saved)
    else
      match AuthService.FetchMe(saved.value, getById)
      case Success(u) => Effect([Pending(CheckOp), Fulfilled(CheckOp, Session(u, saved.value))], saved)
      case Failure(e) => Effect([Pending(CheckOp), Rejected(CheckOp, Some(ResponseMessageOr(e, "Session invalid")))], None)
  }

  /** The client after a thunk: its actions reduced, then the storage it wrote. */
  function Apply(c: Client, e: Effect): (r: Client)
    ensures r.saved == e.saved
    ensures SessionShape(c.auth) ==> SessionShape(r.auth)
  {
    if SessionShape(c.auth) then RunKeepsShape(c, e.actions); Run(c, e.actions).(saved := e.saved)
    else Run(c, e.actions).(saved := e.saved)
  }

  // ---------------------------------------------------------------------------
  // Invariants
  // ---------------------------------------------------------------------------

  /** Signed in exactly when there is a user, and then there is a token and
      storage holds that same token. */
  ghost predicate Consistent(c: Client) {
    (c.auth.isAuthenticated <==> c.auth.user.Some?) &&
    (c.auth.isAuthenticated ==> c.auth.token.Some? && c.saved == c.auth.token)
  }

  lemma InitialConsistent(saved: Option<string>)
    ensures Consistent(Initial(saved))
  {
  }

  /** Every action except a success keeps the client consistent; a success
      leaves the slice signed in with the token it carries. */
  lemma ReduceKeepsConsistent(c: Client, a: Action)
    requires Consistent(c)
    requires a.Fulfilled? ==> c.saved == Some(a.session.token)
    ensures Consistent(Reduce(c, a))
  {
  }

  /** Each thunk, run to completion, keeps the client consistent: whenever the
      slice says "signed in", storage holds the same token. */
  lemma ThunksKeepConsistent(c: Client, creds: AuthService.Credentials,
                             found: Result<seq<UserRecord>, Thrown>, created: Result<UserRecord, Thrown>,
                             getById: string -> Result<UserRecord, Thrown>)
    requires Consistent(c)
    ensures Consistent(Apply(c, LoginUser(c.saved, creds, found)))
    ensures Consistent(Apply(c, RegisterUser(c.saved, creds, found, created)))
    ensures Consistent(Apply(c, CheckAuthStatus(c.saved, getById)))
  {
    var e1 := LoginUser(c.saved, creds, found);
    Seqs.RunPair(Reduce, c, e1.actions[0], e1.actions[1]);
    assert e1.actions == [e1.actions[0], e1.actions[1]];
    var e2 := RegisterUser(c.saved, creds, found, created);
    Seqs.RunPair(Reduce, c, e2.actions[0], e2.actions[1]);
    assert e2.actions == [e2.actions[0], e2.actions[1]];
    var e3 := CheckAuthStatus(c.saved, getById);
    Seqs.RunPair(Reduce, c, e3.actions[0], e3.actions[1]);
    assert e3.actions == [e3.actions[0], e3.actions[1]];
  }

  /** `pending` starts the spinner and clears the error, keeping the session
      as it was; `fulfilled` installs the session it carries and signs in. */
  lemma PendingAndFulfilled(c: Client, op: Op, s: Session)
    ensures var r := Reduce(c, Pending(op));
      r.auth.isLoading && r.auth.error.None? && r.auth.user == c.auth.user &&
      r.auth.token == c.auth.token && r.auth.isAuthenticated == c.auth.isAuthenticated && r.saved == c.saved
    ensures var r := Reduce(c, Fulfilled(op, s));
      r.auth == AuthState(Some(s.user), Some(s.token), false, None, true) && r.saved == c.saved
  {
  }

  /** Logging out twice is logging out once, and it always signs out. */
  lemma LogoutIdempotent(c: Client)
    ensures Reduce(Reduce(c, Logout), Logout) == Reduce(c, Logout)
    ensures Reduce(c, Logout) == Client(SignedOut, None) && Consistent(Reduce(c, Logout))
  {
  }

  /** With no saved token the check settles quietly: not loading, not signed
      in, and no error shown; running it again changes nothing. */
  lemma CheckWithoutTokenIsQuiet(c: Client, getById: string -> Result<UserRecord, Thrown>)
    requires !Truthy(c.saved)
    ensures var c1 := Apply(c, CheckAuthStatus(c.saved, getById));
      !c1.auth.isLoading && !c1.auth.isAuthenticated && c1.auth.error.None? && c1.saved == c.saved &&
      Apply(c1, CheckAuthStatus(c1.saved, getById)) == c1
  {
    var e := CheckAuthStatus(c.saved, getById);
    Seqs.RunPair(Reduce, c, e.actions[0], e.actions[1]);
    var c1 := Apply(c, e);
    Seqs.RunPair(Reduce, c1, e.actions[0], e.actions[1]);
  }

  /** A rejected login or registration shows its message and signs out; a
      rejected session check with a real problem shows it too. */
  lemma RejectionShowsError(c: Client, op: Op, message: string)
    requires op != CheckOp || message != NoTokenFound
    ensures var r := Reduce(c, Rejected(op, Some(message)));
      r.auth.error == Some(message) && !r.auth.isAuthenticated && r.auth.user.None? && r.auth.token.None?
  {
  }
}

=== FILE: calendar.dfy ===
/** Calendar arithmetic behind `src/utils/dateUtils.ts` and the JavaScript
    `Date` operations the pages use, on an explicit (year, month, day,
    millisecond-of-day) value instead of a time stamp. Months are 0-based, as
    in `Date.prototype.getMonth`. Time zones are not modelled: every date is
    a wall-clock date in one zone. */
module Calendar {
  import opened Wrappers
  import opened Text

  /** 23:59:59.999 as a millisecond of the day. */
  const LastMs: int := 86399999

  datatype DateTime = DateTime(year: int, month: int, day: int, ms: int)

  /** Gregorian leap years (the proleptic calendar of JavaScript `Date`). */
  predicate IsLeap(y: int) {
    (y % 4 == 0 && y % 100 != 0) || y % 400 == 0
  }

  function DaysInMonth(y: int, m: int): (n: int)
    requires 0 <= m < 12
    ensures 28 <= n <= 31
    ensures m == 1 ==> (n == 29 <==> IsLeap(y))
  {
    if m == 1 then (if IsLeap(y) then 29 else 28)
    else if m == 3 || m == 5 || m == 8 || m == 10 then 30
    else 31
  }

  predicate Valid(d: DateTime) {
    0 <= d.month < 12 && 1 <= d.day <= DaysInMonth(d.year, d.month) && 0 <= d.ms <= LastMs
  }

  /** Chronological order (`a.getTime() <= b.getTime()` for valid dates). */
  predicate Le(a: DateTime, b: DateTime) {
    a.year < b.year || (a.year == b.year &&
      (a.month < b.month || (a.month == b.month &&
        (a.day < b.day || (a.day == b.day && a.ms <= b.ms)))))
  }

  lemma LeTotal(a: DateTime, b: DateTime)
    ensures Le(a, b) || Le(b, a)
  {
  }

  /** The year the `Date(year, month, ...)` constructor uses: 0..99 mean 1900..1999. */
  function JsYear(y: int): (r: int)
    ensures 0 <= y <= 99 ==> r == 1900 + y
    ensures !(0 <= y <= 99) ==> r == y
  {
    if 0 <= y <= 99 then 1900 + y else y
  }

  /** `getStartOfMonth(year, month)`, i.e. `new Date(year, month, 1)`; a month
      outside 0..11 rolls over into neighbouring years. */
  function StartOfMonth(year: int, month: int): (r: DateTime)
    ensures Valid(r)
    ensures r.day == 1 && r.ms == 0
    ensures r.year * 12 + r.month == JsYear(year) * 12 + month
  {
    DateTime(JsYear(year) + month / 12, month % 12, 1, 0)
  }

  /** `getEndOfMonth(year, month)`, i.e. `new Date(year, month + 1, 0, 23, 59, 59, 999)`:
      day 0 of the next month is the last day of this one. */
  function EndOfMonth(year: int, month: int): (r: DateTime)
    ensures Valid(r)
    ensures r.year == StartOfMonth(year, month).year && r.month == StartOfMonth(year, month).month
    ensures r.day == DaysInMonth(r.year, r.month) && r.ms == LastMs
  {
    var y := JsYear(year) + month / 12;
    var m := month % 12;
    DateTime(y, m, DaysInMonth(y, m), LastMs)
  }

  /** A valid date lies between the start and the end of a month exactly when
      it is in that month. */
  lemma InMonthRange(year: int, month: int, d: DateTime)
    requires Valid(d)
    ensures Le(StartOfMonth(year, month), d) && Le(d, EndOfMonth(year, month))
        <==> d.year == StartOfMonth(year, month).year && d.month == StartOfMonth(year, month).month
  {
  }

  /** December ends on the 31st of the same year. */
  lemma DecemberEnd(year: int)
    ensures EndOfMonth(year, 11) == DateTime(JsYear(year), 11, 31, LastMs)
  {
  }

  /** February has 29 days exactly in leap years. */
  lemma FebruaryEnd(year: int)
    requires !(0 <= year <= 99)
    ensures EndOfMonth(year, 1).day == (if IsLeap(year) then 29 else 28)
  {
  }

  // ---------------------------------------------------------------------------
  // Formatting
  // ---------------------------------------------------------------------------

  /** `getMonthYear(date)`: `"<year>-<MM>"`, with the month 1-based and
      zero-padded, so that splitting at the dash reads back the year and
      the month. */
  function MonthYear(d: DateTime): (r: string)
    ensures 0 <= d.month < 12 && d.year >= 0 ==> ParseMonthYear(r) == Some((d.year, d.month + 1))
  {
    var y, m := IntToString(d.year), Pad2(d.month + 1);
    if 0 <= d.month < 12 && d.year >= 0 then
      LabelReadsBack(y, m);
      y + "-" + m
    else y + "-" + m
  }

  /** For four-digit years the code-unit order of `getMonthYear` strings is
      chronological order, which the descending month list relies on. */
  lemma MonthYearChronological(a: DateTime, b: DateTime)
    requires 1000 <= a.year <= 9999 && 1000 <= b.year <= 9999
    requires 0 <= a.month < 12 && 0 <= b.month < 12
    ensures LexLe(MonthYear(a), MonthYear(b))
        <==> a.year < b.year || (a.year == b.year && a.month <= b.month)
  {
    var ya, yb := NatToString(a.year), NatToString(b.year);
    var ma, mb := Pad2(a.month + 1), Pad2(b.month + 1);
    FourDigits(a.year);
    FourDigits(b.year);
    MonthYearSplit(a);
    MonthYearSplit(b);
    LexLeConcat(ya, "-" + ma, yb, "-" + mb);
    LexLeSameHead('-', ma, mb);
    LexLeIsNumeric(ya, yb);
    LexLeIsNumeric(ma, mb);
    var sameYear := ya == yb;
    assert sameYear <==> a.year == b.year;
  }

  lemma MonthYearSplit(d: DateTime)
    requires d.year >= 0
    ensures MonthYear(d) == NatToString(d.year) + ("-" + Pad2(d.month + 1))
    ensures MonthYear(d) == NatToString(d.year) + ['-'] + Pad2(d.month + 1)
  {
    var y, m := IntToString(d.year), Pad2(d.month + 1);
    assert y == NatToString(d.year);
    assert y + "-" + m == y + ("-" + m);
  }

  lemma LexLeSameHead(c: char, x: string, y: string)
    ensures LexLe([c] + x, [c] + y) <==> LexLe(x, y)
  {
    assert ([c] + x)[1..] == x;
    assert ([c] + y)[1..] == y;
  }

  lemma DigitsHaveNoDash(s: string)
    requires IsDigits(s)
    ensures '-' !in s
  {
  }

  /** Comparing two concatenations whose first parts have equal length. */
  lemma {:induction false} LexLeConcat(x: string, y: string, u: string, v: string)
    requires |x| == |u|
    ensures LexLe(x + y, u + v) <==> (x == u && LexLe(y, v)) || (x != u && LexLe(x, u))
  {
    if |x| == 0 {
      assert x + y == y;
      assert u + v == v;
    } else {
      assert (x + y)[1..] == x[1..] + y;
      assert (u + v)[1..] == u[1..] + v;
      LexLeConcat(x[1..], y, u[1..], v);
      assert x == [x[0]] + x[1..];
      assert u == [u[0]] + u[1..];
    }
  }

  /** `formatDateForAxis(s)`: `"DD.MM"`, or `"NaN.NaN"` when `s` is not a date. */
  function FormatDateForAxis(s: string): (r: string)
    ensures ParseDate(s).None? ==> r == "NaN.NaN"
    ensures ParseDate(s).Some? ==>
      |r| == 5 && r[2] == '.' && IsDigits(r[..2]) && IsDigits(r[3..])
      && ValueOf(r[..2]) == ParseDate(s).value.day && ValueOf(r[3..]) == ParseDate(s).value.month + 1
  {
    match ParseDate(s)
    case None => "NaN.NaN"
    case Some(d) =>
      var r := Pad2(d.day) + "." + Pad2(d.month + 1);
      assert r[..2] == Pad2(d.day) && r[3..] == Pad2(d.month + 1);
      r
  }

  /** `String(n).padStart(width, '0')` for a non-negative `n`. */
  function ZeroPad(n: nat, width: nat): (r: string)
    ensures IsDigits(r) && ValueOf(r) == n
    ensures |r| == if |NatToString(n)| < width then width else |NatToString(n)|
  {
    var s := NatToString(n);
    if |s| < width then
      var zeros := seq(width - |s|, _ => '0');
      ValueOfAppend(zeros, s);
      ZerosAreZero(zeros);
      zeros + s
    else s
  }

  lemma {:induction false} ZerosAreZero(z: string)
    requires forall i :: 0 <= i < |z| ==> z[i] == '0'
    ensures IsDigits(z) && ValueOf(z) == 0
  {
    if |z| > 0 {
      ZerosAreZero(z[..|z| - 1]);
    }
  }

  /** The date part of `date.toISOString()`, `"YYYY-MM-DD"` (years beyond
      0..9999 are written with a sign and six digits). */
  function IsoDate(d: DateTime): (r: string)
    ensures 0 <= d.year <= 9999 && 0 <= d.month < 12 && 0 <= d.day < 100 ==>
      |r| == 10 && r[4] == '-' && r[7] == '-'
      && IsDigits(r[..4]) && ValueOf(r[..4]) == d.year
      && IsDigits(r[5..7]) && ValueOf(r[5..7]) == d.month + 1
      && IsDigits(r[8..10]) && ValueOf(r[8..10]) == d.day
  {
    var y :=
      if 0 <= d.year <= 9999 then ZeroPad(d.year, 4)
      else (if d.year < 0 then "-" else "+") + ZeroPad(if d.year < 0 then -d.year else d.year, 6);
    var m, dd := Pad2(d.month + 1), Pad2(d.day);
    if 0 <= d.year <= 9999 && 0 <= d.month < 12 && 0 <= d.day < 100 then
      assert Pow10(4) == 10000;
      NatToStringLength(d.year, 4);
      DateLayout(y, m, dd);
      y + "-" + m + "-" + dd
    else y + "-" + m + "-" + dd
  }

  /** Where the fields of `YYYY-MM-DD` sit. */
  lemma DateLayout(y: string, m: string, dd: string)
    requires |y| == 4 && |m| == 2 && |dd| == 2
    ensures var s := y + "-" + m + "-" + dd;
      |s| == 10 && s[..4] == y && s[4] == '-' && s[5..7] == m && s[7] == '-' && s[8..10] == dd
  {
    var s := y + "-" + m + "-" + dd;
    assert s[5] == m[0] && s[6] == m[1];
    assert s[8] == dd[0] && s[9] == dd[1];
  }

  // ---------------------------------------------------------------------------
  // Parsing
  // ---------------------------------------------------------------------------

  /** `new Date(s)` for the strings the application stores: `"YYYY-MM-DD"`,
      optionally followed by `"T"` and a time of day, which is not read
      (every period bound is a whole-day boundary). `None` stands for an
      Invalid Date. */
  function ParseDate(s: string): (r: Option<DateTime>)
    ensures r.Some? ==> Valid(r.value) && r.value.ms == 0 && 0 <= r.value.year <= 9999
  {
    if |s| >= 10 && IsDigits(s[..4]) && s[4] == '-' && IsDigits(s[5..7]) && s[7] == '-'
       && IsDigits(s[8..10]) && (|s| == 10 || s[10] == 'T')
    then DateOfFields(s[..4], s[5..7], s[8..10])
    else None
  }

  /** The day named by four year digits, two month digits and two day
      digits, if there is such a day. */
  function DateOfFields(ys: string, ms: string, ds: string): (r: Option<DateTime>)
    requires |ys| == 4 && IsDigits(ys) && IsDigits(ms) && IsDigits(ds)
    ensures r.Some? ==> Valid(r.value) && r.value.ms == 0 && 0 <= r.value.year <= 9999
    ensures r.Some? ==>
      r.value.year == ValueOf(ys) && r.value.month == ValueOf(ms) - 1 && r.value.day == ValueOf(ds)
    ensures var d := DateTime(ValueOf(ys), ValueOf(ms) - 1, ValueOf(ds), 0);
      Valid(d) ==> r == Some(d)
  {
    ValueBelowPow10(ys);
    var y, mo, d := ValueOf(ys), ValueOf(ms), ValueOf(ds);
    if 1 <= mo <= 12 && 1 <= d <= DaysInMonth(y, mo - 1) then Some(DateTime(y, mo - 1, d, 0))
    else None
  }

  /** The date string the transaction form proposes parses back to that day. */
  lemma ParseIsoDate(d: DateTime)
    requires Valid(d) && 0 <= d.year <= 9999
    ensures ParseDate(IsoDate(d)) == Some(d.(ms := 0))
  {
    var y := ZeroPad(d.year, 4);
    assert Pow10(4) == 10000;
    NatToStringLength(d.year, 4);
    assert |y| == 4 && ValueOf(y) == d.year;
    var m, dd := Pad2(d.month + 1), Pad2(d.day);
    assert ValueOf(m) == d.month + 1 && ValueOf(dd) == d.day;
    assert IsoDate(d) == y + "-" + m + "-" + dd;
    ParseParts(y, m, dd);
  }

  /** A string laid out as `YYYY-MM-DD` is read field by field. */
  lemma ParseParts(y: string, m: string, dd: string)
    requires |y| == 4 && |m| == 2 && |dd| == 2
    requires IsDigits(y) && IsDigits(m) && IsDigits(dd)
    ensures ParseDate(y + "-" + m + "-" + dd) == DateOfFields(y, m, dd)
  {
    DateLayout(y, m, dd);
  }

  lemma {:induction false} NatToStringLength(n: nat, k: nat)
    requires k >= 1 && n < Pow10(k)
    ensures |NatToString(n)| <= k
  {
    if n >= 10 {
      NatToStringLength(n / 10, k - 1);
    }
  }

  /** `monthYear.split('-').map(Number)` taken as `[year, month]`, for the
      digit strings the month selector offers; `None` when either part is not
      a run of digits or the month is missing (`NaN` in JavaScript). */
  function ParseMonthYear(s: string): (r: Option<(int, int)>)
    ensures r.Some? ==> r.value.0 >= 0 && r.value.1 >= 0
  {
    var y := BeforeFirst(s, '-');
    if |y| == |s| then None
    else
      var mo := BeforeFirst(s[|y| + 1..], '-');
      if IsDigits(y) && IsDigits(mo) then Some((ValueOf(y), ValueOf(mo))) else None
  }

  lemma {:induction false} BeforeFirstStops(a: string, c: char, b: string)
    requires c !in a
    ensures BeforeFirst(a + [c] + b, c) == a
  {
    if |a| > 0 {
      assert (a + [c] + b)[1..] == a[1..] + [c] + b;
      BeforeFirstStops(a[1..], c, b);
    } else {
      assert (a + [c] + b)[0] == c;
    }
  }

  /** A label of two digit runs joined by a dash reads back as their values. */
  lemma LabelReadsBack(y: string, m: string)
    requires IsDigits(y) && IsDigits(m)
    ensures ParseMonthYear(y + "-" + m) == Some((ValueOf(y), ValueOf(m)))
  {
    var s := y + "-" + m;
    DigitsHaveNoDash(y);
    DigitsHaveNoDash(m);
    assert s == y + ['-'] + m;
    BeforeFirstStops(y, '-', m);
    assert s[|y| + 1..] == m;
    assert BeforeFirst(m, '-') == m;
  }
}

=== FILE: categories_slice.dfy ===
/** The categories slice (`categoriesSlice.ts`): four async thunks and the
    reducer cases for their pending / fulfilled / rejected actions. */
module CategoriesSlice {
  import opened Wrappers
  import opened Entities
  import Seqs

  datatype State = State(items: seq<Category>, loading: bool, error: Option<string>)

  const Initial := State([], false, None)

  datatype Op = FetchOp | AddOp | EditOp | DeleteOp

  /** The lifecycle actions `createAsyncThunk` generates for the four thunks. */
  datatype Action =
    | Pending(op: Op)
    | FetchFulfilled(list: seq<Category>)
    | AddFulfilled(added: Category)
    | EditFulfilled(edited: Category)
    | DeleteFulfilled(deletedId: string)
    | Rejected(op: Op, message: string)
    | Unrelated(actionType: string)

  /** The fulfilled edit: only the FIRST category with the id is replaced. */
  function ReplaceFirst(items: seq<Category>, c: Category): (r: seq<Category>)
    ensures (forall i :: 0 <= i < |items| ==> items[i].id != c.id) ==> r == items
    ensures forall k ::
      (0 <= k < |items| && items[k].id == c.id && forall j :: 0 <= j < k ==> items[j].id != c.id)
      ==> r == items[k := c]
  {
    match Seqs.FirstIndex(CategoryId, items, c.id) {
      case None => items
      case Some(k) => items[k := c]
    }
  }

  function RemoveId(items: seq<Category>, id: string): (r: seq<Category>)
    ensures |r| <= |items|
    ensures forall c :: c in r <==> c in items && c.id != id
  {
    Seqs.Filter((c: Category) => c.id != id, items)
  }

  /** A delete works element by element and keeps the survivors in order,
      duplicates included. */
  lemma RemoveIdAppend(a: seq<Category>, b: seq<Category>, id: string)
    ensures RemoveId(a + b, id) == RemoveId(a, id) + RemoveId(b, id)
  {
    Seqs.FilterAppend((c: Category) => c.id != id, a, b);
  }

  lemma RemoveIdOne(x: Category, id: string)
    ensures RemoveId([x], id) == if x.id != id then [x] else []
  {
    Seqs.FilterSingleton((c: Category) => c.id != id, x);
  }

  /** The slice reducer. */
  function Reduce(s: State, a: Action): (r: State)
    ensures a.Pending? ==> r == State(s.items, true, None)
    ensures a.Rejected? ==> r == State(s.items, false, Some(a.message))
    ensures a.Unrelated? ==> r == s
    ensures !a.Pending? && !a.Rejected? && !a.Unrelated? ==> !r.loading && r.error == s.error
    ensures a.FetchFulfilled? ==> r.items == a.list
    ensures a.AddFulfilled? ==> r.items == s.items + [a.added]
    ensures a.EditFulfilled? ==> (|r.items| == |s.items| &&
      forall i :: 0 <= i < |s.items| && r.items[i] != s.items[i] ==> r.items[i] == a.edited && s.items[i].id == a.edited.id)
    ensures a.DeleteFulfilled? ==> forall c :: c in r.items <==> c in s.items && c.id != a.deletedId
  {
    match a
    case Pending(_) => s.(loading := true, error := None)
    case FetchFulfilled(list) => s.(items := list, loading := false)
    case AddFulfilled(c) => s.(items := s.items + [c], loading := false)
    case EditFulfilled(c) => s.(items := ReplaceFirst(s.items, c), loading := false)
    case DeleteFulfilled(id) => s.(items := RemoveId(s.items, id), loading := false)
    case Rejected(_, m) => s.(loading := false, error := Some(m))
    case Unrelated(_) => s
  }

  function Run(s: State, acts: seq<Action>): State {
    Seqs.Run(Reduce, s, acts)
  }

  /** The lifecycle cases: `pending` starts loading and clears the error,
      `rejected` stops it and records the message, and neither touches the
      list; a fulfilled case stops loading and keeps the recorded error;
      other slices' actions change nothing. */
  lemma LifecycleCases(s: State, a: Action)
    ensures a.Pending? ==> Reduce(s, a) == State(s.items, true, None)
    ensures a.Rejected? ==> Reduce(s, a) == State(s.items, false, Some(a.message))
    ensures a.FetchFulfilled? || a.AddFulfilled? || a.EditFulfilled? || a.DeleteFulfilled? ==>
              !Reduce(s, a).loading && Reduce(s, a).error == s.error
    ensures a.Unrelated? ==> Reduce(s, a) == s
  {
  }

  /** The fulfilled list cases: a fetch replaces the list, an add appends,
      an edit keeps the length, a delete keeps exactly the other ids. */
  lemma FulfilledLists(s: State, list: seq<Category>, c: Category, id: string)
    ensures Reduce(s, FetchFulfilled(list)).items == list
    ensures Reduce(s, AddFulfilled(c)).items == s.items + [c]
    ensures |Reduce(s, EditFulfilled(c)).items| == |s.items|
    ensures forall x :: x in Reduce(s, DeleteFulfilled(id)).items <==> x in s.items && x.id != id
  {
  }

  // ---------------------------------------------------------------------------
  // Edit: first match versus every match
  // ---------------------------------------------------------------------------

  /** The reference meaning of "update the category with this id": every
      category carrying the id becomes `c`, the others stay. */
  ghost predicate UpdatedEverywhere(items: seq<Category>, c: Category, r: seq<Category>) {
    |r| == |items| &&
    forall i :: 0 <= i < |items| ==> r[i] == if items[i].id == c.id then c else items[i]
  }

  predicate IdsDistinct(items: seq<Category>) {
    Seqs.KeysDistinct(CategoryId, items)
  }

  /** With distinct ids (as the server hands out), replacing the first match
      is replacing every match. */
  lemma ReplaceFirstUpdatesEverywhere(items: seq<Category>, c: Category)
    requires IdsDistinct(items)
    ensures UpdatedEverywhere(items, c, ReplaceFirst(items, c))
  {
    match Seqs.FirstIndex(CategoryId, items, c.id) {
      case None =>
      case Some(k) =>
        forall i | 0 <= i < |items| && i != k
          ensures items[i].id != c.id
        {
          if i < k {
          } else {
            assert k < i;
            assert items[k].id != items[i].id;
          }
        }
    }
  }

  /** The edit changes at most one slot and never the length or the other slots. */
  lemma ReplaceFirstChangesOneSlot(items: seq<Category>, c: Category)
    ensures |ReplaceFirst(items, c)| == |items|
    ensures forall i, j :: 0 <= i < j < |items| && ReplaceFirst(items, c)[i] != items[i] ==>
              ReplaceFirst(items, c)[j] == items[j]
  {
  }

  /** With a duplicated id the first match and every match differ. */
  lemma DuplicateIdsOnlyFirstReplaced()
    ensures var a := Category("c1", "u1", "Food", None, None);
            var b := Category("c1", "u1", "Groceries", None, None);
            var c := Category("c1", "u1", "Meals", None, None);
            ReplaceFirst([a, b], c) == [c, b] && !UpdatedEverywhere([a, b], c, ReplaceFirst([a, b], c))
  {
    var a := Category("c1", "u1", "Food", None, None);
    var b := Category("c1", "u1", "Groceries", None, None);
    var c := Category("c1", "u1", "Meals", None, None);
    assert Seqs.FirstIndex(CategoryId, [a, b], "c1") == Some(0);
    assert ReplaceFirst([a, b], c)[1] == b != c;
  }

  // ---------------------------------------------------------------------------
  // Thunks
  // ---------------------------------------------------------------------------

  /** The requests of `categoryService.ts`. */
  datatype ServiceCall =
    | GetAll(userId: string)
    | Post(data: NewCategory)
    | Put(id: string, changes: CategoryDraft)
    | Remove(id: string)

  datatype Dispatched = Dispatched(call: Option<ServiceCall>, actions: seq<Action>)

  const NotAuthenticated := "User not authenticated"

  /** `fetchCategories()`: `pending` is dispatched before the user is checked. */
  function FetchCategories(user: Option<User>, answer: Result<seq<Category>, Thrown>): (r: Dispatched)
    ensures |r.actions| == 2 && r.actions[0] == Pending(FetchOp)
    ensures r.call.Some? <==> HasUserId(user)
    ensures r.call.Some? ==> r.call.value == GetAll(user.value.id)
  {
    if !HasUserId(user) then Dispatched(None, [Pending(FetchOp), Rejected(FetchOp, NotAuthenticated)])
    else
      Dispatched(Some(GetAll(user.value.id)), [Pending(FetchOp)] +
        match answer {
          case Success(list) => [FetchFulfilled(list)]
          case Failure(e) => [Rejected(FetchOp, MessageOr(e, "Failed to fetch categories"))]
        })
  }

  /** `addCategory(details)`. */
  function AddCategory(user: Option<User>, details: CategoryDraft, answer: Result<Category, Thrown>): (r: Dispatched)
    ensures |r.actions| == 2 && r.actions[0] == Pending(AddOp)
    ensures r.call.Some? <==> HasUserId(user)
    ensures r.call.Some? ==> r.call.value == Post(CategoryWithOwner(details, user.value.id))
  {
    if !HasUserId(user) then Dispatched(None, [Pending(AddOp), Rejected(AddOp, NotAuthenticated)])
    else
      var data := CategoryWithOwner(details, user.value.id);
      Dispatched(Some(Post(data)), [Pending(AddOp)] +
        match answer {
          case Success(c) => [AddFulfilled(c)]
          case Failure(e) => [Rejected(AddOp, MessageOr(e, "Failed to add category"))]
        })
  }

  /** `editCategory({ id, categoryData })`: no user check. */
  function EditCategory(id: string, changes: CategoryDraft, answer: Result<Category, Thrown>): (r: Dispatched)
    ensures r.call == Some(Put(id, changes))
    ensures |r.actions| == 2 && r.actions[0] == Pending(EditOp)
  {
    Dispatched(Some(Put(id, changes)), [Pending(EditOp)] +
      match answer {
        case Success(c) => [EditFulfilled(c)]
        case Failure(e) => [Rejected(EditOp, MessageOr(e, "Failed to edit category"))]
      })
  }

  /** `deleteCategory(id)`: no user check; fulfils with the id it was given. */
  function DeleteCategory(id: string, answer: Result<(), Thrown>): (r: Dispatched)
    ensures r.call == Some(Remove(id))
    ensures |r.actions| == 2 && r.actions[0] == Pending(DeleteOp)
  {
    Dispatched(Some(Remove(id)), [Pending(DeleteOp)] +
      match answer {
        case Success(_) => [DeleteFulfilled(id)]
        case Failure(e) => [Rejected(DeleteOp, MessageOr(e, "Failed to delete category"))]
      })
  }

  // ---------------------------------------------------------------------------
  // What each thunk does to the slice
  // ---------------------------------------------------------------------------

  lemma FetchOutcome(s: State, user: Option<User>, answer: Result<seq<Category>, Thrown>)
    ensures var r := Run(s, FetchCategories(user, answer).actions);
      (HasUserId(user) && answer.Success? ==> r == State(answer.value, false, None)) &&
      (HasUserId(user) && answer.Failure? ==>
         r == State(s.items, false, Some(MessageOr(answer.error, "Failed to fetch categories")))) &&
      (!HasUserId(user) ==> r == State(s.items, false, Some(NotAuthenticated)))
  {
    var d := FetchCategories(user, answer);
    Seqs.RunPair(Reduce, s, d.actions[0], d.actions[1]);
    assert d.actions == [d.actions[0], d.actions[1]];
  }

  lemma AddOutcome(s: State, user: Option<User>, details: CategoryDraft, answer: Result<Category, Thrown>)
    ensures var r := Run(s, AddCategory(user, details, answer).actions);
      (HasUserId(user) && answer.Success? ==> r == State(s.items + [answer.value], false, None)) &&
      (HasUserId(user) && answer.Failure? ==>
         r == State(s.items, false, Some(MessageOr(answer.error, "Failed to add category")))) &&
      (!HasUserId(user) ==> r == State(s.items, false, Some(NotAuthenticated)))
  {
    var d := AddCategory(user, details, answer);
    Seqs.RunPair(Reduce, s, d.actions[0], d.actions[1]);
    assert d.actions == [d.actions[0], d.actions[1]];
  }

  /** A successful edit of a list with distinct ids updates every category
      with the returned id. */
  lemma EditOutcome(s: State, id: string, changes: CategoryDraft, answer: Result<Category, Thrown>)
    ensures var r := Run(s, EditCategory(id, changes, answer).actions);
      !r.loading &&
      (answer.Success? ==> r.error.None? && r.items == ReplaceFirst(s.items, answer.value)) &&
      (answer.Success? && IdsDistinct(s.items) ==> UpdatedEverywhere(s.items, answer.value, r.items)) &&
      (answer.Failure? ==>
         r == State(s.items, false, Some(MessageOr(answer.error, "Failed to edit category"))))
  {
    var d := EditCategory(id, changes, answer);
    assert d.actions == [Pending(EditOp), d.actions[1]];
    Seqs.RunPair(Reduce, s, Pending(EditOp), d.actions[1]);
    if answer.Success? && IdsDistinct(s.items) {
      ReplaceFirstUpdatesEverywhere(s.items, answer.value);
    }
  }

  lemma DeleteOutcome(s: State, id: string, answer: Result<(), Thrown>)
    ensures var r := Run(s, DeleteCategory(id, answer).actions);
      !r.loading &&
      (answer.Success? ==>
         r.error.None? && forall c :: c in r.items <==> c in s.items && c.id != id) &&
      (answer.Failure? ==>
         r == State(s.items, false, Some(MessageOr(answer.error, "Failed to delete category"))))
  {
    var d := DeleteCategory(id, answer);
    Seqs.RunPair(Reduce, s, d.actions[0], d.actions[1]);
    assert d.actions == [d.actions[0], d.actions[1]];
  }
}

=== FILE: category_form.dfy ===
/** The categories page (`CategoriesPage.tsx`): the `CategoryForm`
    component, used both to add a category and to edit one, and the page's
    edit and delete handlers. Alerts become a missing result; the
    confirmation dialog is a boolean parameter. */
module CategoryForm {
  import opened Wrappers
  import opened Text
  import opened Entities
  import CategoriesSlice

  /** `initialData: Partial<Category>`. */
  datatype InitialData = InitialData(id: Option<string>, name: Option<string>, icon: Option<string>, color: Option<string>)

  /** The form's three `useState` fields. */
  datatype Fields = Fields(name: string, icon: string, color: string)

  const DefaultColor := "#cccccc"

  /** `newCategoryInitialData`: the add form's initial data, without an id. */
  const NewCategoryData := InitialData(None, Some(""), Some(""), Some(DefaultColor))

  /** The edit form is given the category being edited. */
  function EditData(c: Category): (d: InitialData)
    ensures d.id == Some(c.id) && d.name == Some(c.name) && d.icon == c.icon && d.color == c.color
  {
    InitialData(Some(c.id), Some(c.name), c.icon, c.color)
  }

  /** The `useState` initialisers, and the effect that repeats them whenever
      `initialData` changes: each field from the data, or its default. */
  function InitFields(d: InitialData): (r: Fields)
    ensures Truthy(d.name) ==> r.name == d.name.value
    ensures !Truthy(d.name) ==> r.name == ""
    ensures Truthy(d.icon) ==> r.icon == d.icon.value
    ensures !Truthy(d.icon) ==> r.icon == ""
    ensures Truthy(d.color) ==> r.color == d.color.value
    ensures !Truthy(d.color) ==> r.color == DefaultColor
  {
    Fields(OrElse(d.name.GetOr(""), ""), OrElse(d.icon.GetOr(""), ""), OrElse(d.color.GetOr(""), DefaultColor))
  }

  /** `handleSubmit(e)`: a name that is blank after trimming is refused with
      nothing sent; otherwise the trimmed name and icon and the colour as it
      is are sent, and a form without an id (the add form) is cleared. */
  function Submit(f: Fields, d: InitialData): (r: (Fields, Option<CategoryDraft>))
    ensures r.1.None? <==> IsBlank(f.name)
    ensures r.1.None? ==> r.0 == f
    ensures r.1.Some? ==>
      r.1.value == CategoryDraft(Trim(f.name), Some(Trim(f.icon)), Some(f.color)) && !IsBlank(r.1.value.name)
    ensures r.1.Some? && Truthy(d.id) ==> r.0 == f
    ensures r.1.Some? && !Truthy(d.id) ==> r.0 == Fields("", "", DefaultColor)
  {
    if IsBlank(f.name) then (f, None)
    else
      TrimNotBlank(f.name);
      var sent := CategoryDraft(Trim(f.name), Some(Trim(f.icon)), Some(f.color));
      if !Truthy(d.id) then (Fields("", "", DefaultColor), Some(sent)) else (f, Some(sent))
  }

  /** After a successful add the form is back to what a fresh add form shows,
      so the next category starts from the defaults. */
  lemma AddFormResets(f: Fields)
    requires !IsBlank(f.name)
    ensures Submit(f, NewCategoryData).0 == InitFields(NewCategoryData)
  {
  }

  /** Opening the edit form on a category with an id and a trimmed, non-blank
      name and submitting it untouched sends back that name, its icon trimmed
      (or an empty icon), and its colour (or the default), and the form keeps
      its values. */
  lemma UnchangedEditResubmits(c: Category)
    requires c.id != "" && !IsBlank(c.name) && Trim(c.name) == c.name
    ensures var f := InitFields(EditData(c));
      var r := Submit(f, EditData(c));
      r.0 == f &&
      r.1 == Some(CategoryDraft(c.name, Some(Trim(c.icon.GetOr(""))),
                                Some(if Truthy(c.color) then c.color.value else DefaultColor)))
  {
    TrimNotBlank(c.name);
  }

  // ---------------------------------------------------------------------------
  // The page's handlers
  // ---------------------------------------------------------------------------

  /** `handleEditCategory(data)`: with a category being edited, dispatch the
      edit for its id and stop editing; with none, do nothing. */
  function HandleEdit(editing: Option<Category>, data: CategoryDraft, answer: Result<Category, Thrown>)
    : (r: (Option<Category>, Option<CategoriesSlice.Dispatched>))
    ensures r.0.None?
    ensures r.1.Some? <==> editing.Some?
    ensures r.1.Some? ==> r.1.value.call == Some(CategoriesSlice.Put(editing.value.id, data))
  {
    match editing
    case None => (None, None)
    case Some(c) => (None, Some(CategoriesSlice.EditCategory(c.id, data, answer)))
  }

  /** `handleDeleteCategory(id)`: the thunk runs only if the user confirms. */
  function HandleDelete(id: string, confirmed: bool, answer: Result<(), Thrown>)
    : (r: Option<CategoriesSlice.Dispatched>)
    ensures r.Some? <==> confirmed
    ensures r.Some? ==> r.value.call == Some(CategoriesSlice.Remove(id))
  {
    if confirmed then Some(CategoriesSlice.DeleteCategory(id, answer)) else None
  }

  /** What the two handlers do to the store: an edit with nothing being edited
      and a declined delete leave it alone; a successful edit of a list with
      distinct ids updates every copy of the edited category; a confirmed,
      successful delete removes exactly the categories with that id. */
  lemma HandlersOutcome(s: CategoriesSlice.State, editing: Option<Category>, data: CategoryDraft,
                        editAnswer: Result<Category, Thrown>, id: string, confirmed: bool,
                        deleteAnswer: Result<(), Thrown>)
    ensures var e := HandleEdit(editing, data, editAnswer).1;
      var se := if e.Some? then CategoriesSlice.Run(s, e.value.actions) else s;
      (editing.None? ==> se == s) &&
      (editing.Some? && editAnswer.Success? && CategoriesSlice.IdsDistinct(s.items) ==>
         CategoriesSlice.UpdatedEverywhere(s.items, editAnswer.value, se.items))
    ensures var d := HandleDelete(id, confirmed, deleteAnswer);
      var sd := if d.Some? then CategoriesSlice.Run(s, d.value.actions) else s;
      (!confirmed ==> sd == s) &&
      (confirmed && deleteAnswer.Success? ==> forall c :: c in sd.items <==> c in s.items && c.id != id)
  {
    if editing.Some? {
      CategoriesSlice.EditOutcome(s, editing.value.id, data, editAnswer);
    }
    if confirmed {
      CategoriesSlice.DeleteOutcome(s, id, deleteAnswer);
    }
  }

  /** Submitting the add form dispatches `addCategory` with the trimmed fields:
      for a signed-in user and a successful answer the store gains the
      returned category at the end. */
  lemma AddFormOutcome(s: CategoriesSlice.State, f: Fields, user: Option<User>, answer: Result<Category, Thrown>)
    requires !IsBlank(f.name) && HasUserId(user) && answer.Success?
    ensures var sent := Submit(f, NewCategoryData).1.value;
      var d := CategoriesSlice.AddCategory(user, sent, answer);
      d.call == Some(CategoriesSlice.Post(NewCategory(user.value.id, Trim(f.name), Some(Trim(f.icon)), Some(f.color)))) &&
      CategoriesSlice.Run(s, d.actions).items == s.items + [answer.value]
  {
    var sent := Submit(f, NewCategoryData).1.value;
    CategoriesSlice.AddOutcome(s, user, sent, answer);
  }
}

=== FILE: daily_series.dfy ===
/** The income/expense bars and the income total of the statistics page
    (`dailyChartData` and `totalIncome` in `StatisticsPage.tsx`): the
    filtered transactions with a non-blank date are grouped by the part of
    the date before `'T'`, each day holds its income and its expense sums,
    and the days are sorted by date. */
module DailySeries {
  import opened Wrappers
  import opened Text
  import opened Calendar
  import opened Entities
  import Seqs
  import Grouping
  import PeriodFilter

  datatype DayTotals = DayTotals(date: string, income: real, expense: real)

  /** `t.date.split('T')[0]`: the date up to its first `'T'`. */
  function DayKey(t: Transaction): (r: string)
    ensures |r| <= |t.date| && r == t.date[..|r|] && 'T' !in r
    ensures r == t.date || t.date[|r|] == 'T'
  {
    BeforeFirst(t.date, 'T')
  }

  predicate HasDate(t: Transaction) {
    !IsBlank(t.date)
  }

  predicate IsIncome(t: Transaction) {
    t.kind == Income
  }

  predicate IsExpense(t: Transaction) {
    t.kind == Expense
  }

  function Amount(t: Transaction): real {
    t.amount
  }

  /** What a transaction adds to its day's income. */
  function IncomeAmount(t: Transaction): real {
    if t.kind == Income then t.amount else 0.0
  }

  /** What a transaction adds to its day's expense. */
  function ExpenseAmount(t: Transaction): real {
    if t.kind == Expense then t.amount else 0.0
  }

  function DayOf(b: Grouping.Bucket<Transaction>): DayTotals {
    DayTotals(b.key, Seqs.SumOf(IncomeAmount, b.members), Seqs.SumOf(ExpenseAmount, b.members))
  }

  function Days(g: seq<Grouping.Bucket<Transaction>>): (r: seq<DayTotals>)
    ensures |r| == |g|
    ensures forall i :: 0 <= i < |g| ==> r[i] == DayOf(g[i])
  {
    if |g| == 0 then [] else Days(Seqs.Init(g)) + [DayOf(Seqs.Last(g))]
  }

  function DayDate(d: DayTotals): string {
    d.date
  }

  function DayIncome(d: DayTotals): real {
    d.income
  }

  function DayExpense(d: DayTotals): real {
    d.expense
  }

  /** The order of `new Date(a.date).getTime() - new Date(b.date).getTime()`;
      a key that is not a date is placed first. */
  predicate DayLe(a: DayTotals, b: DayTotals) {
    match ParseDate(a.date)
    case None => true
    case Some(x) =>
      match ParseDate(b.date)
      case None => false
      case Some(y) => Le(x, y)
  }

  lemma DayLeTotal()
    ensures Seqs.Total(DayLe)
  {
    forall a: DayTotals, b: DayTotals ensures DayLe(a, b) || DayLe(b, a) {
      if ParseDate(a.date).Some? && ParseDate(b.date).Some? {
        LeTotal(ParseDate(a.date).value, ParseDate(b.date).value);
      }
    }
  }

  function DayBuckets(filtered: seq<Transaction>): seq<Grouping.Bucket<Transaction>> {
    Grouping.Group(DayKey, HasDate, filtered)
  }

  /** `dailyChartData`. */
  function DailyChartData(filtered: seq<Transaction>): (r: seq<DayTotals>)
    ensures |filtered| == 0 ==> r == []
    ensures Seqs.SortedBy(DayLe, r)
  {
    if |filtered| == 0 then []
    else
      DayLeTotal();
      Seqs.Sort(DayLe, Days(DayBuckets(filtered)))
  }

  /** The transactions of one day. */
  function OnDay(filtered: seq<Transaction>, day: string): seq<Transaction> {
    Seqs.Filter(Grouping.InBucket(DayKey, HasDate, day), filtered)
  }

  /** `totalIncome`: what every transaction adds to the income, summed. */
  function TotalIncome(filtered: seq<Transaction>): (r: real)
    ensures r == Seqs.SumOf(IncomeAmount, filtered)
  {
    IncomeSum(filtered);
    if |filtered| == 0 then 0.0 else Seqs.SumOf(Amount, Seqs.Filter(IsIncome, filtered))
  }

  // ---------------------------------------------------------------------------
  // Properties
  // ---------------------------------------------------------------------------

  lemma DayFromBucket(filtered: seq<Transaction>, i: nat) returns (j: nat)
    requires i < |DailyChartData(filtered)|
    ensures j < |DayBuckets(filtered)|
    ensures DailyChartData(filtered)[i] == DayOf(DayBuckets(filtered)[j])
  {
    var s := Days(DayBuckets(filtered));
    assert |filtered| > 0;
    DayLeTotal();
    var r := Seqs.Sort(DayLe, s);
    assert r == DailyChartData(filtered);
    j := Seqs.PlaceInPermutation(r, s, i);
  }

  lemma BucketToDay(filtered: seq<Transaction>, j: nat) returns (i: nat)
    requires j < |DayBuckets(filtered)|
    ensures i < |DailyChartData(filtered)|
    ensures DailyChartData(filtered)[i] == DayOf(DayBuckets(filtered)[j])
  {
    var s := Days(DayBuckets(filtered));
    assert |filtered| > 0;
    DayLeTotal();
    var r := Seqs.Sort(DayLe, s);
    assert r == DailyChartData(filtered);
    i := Seqs.PlaceInPermutation(s, r, j);
  }

  /** No date appears twice. */
  lemma DatesDistinct(filtered: seq<Transaction>)
    ensures Seqs.KeysDistinct(DayDate, DailyChartData(filtered))
  {
    if |filtered| > 0 {
      var s := Days(DayBuckets(filtered));
      assert Seqs.KeysDistinct(DayDate, s);
      DayLeTotal();
      Seqs.SortKeepsKeysDistinct(DayDate, DayLe, s);
    }
  }

  /** Summing `IncomeAmount` is summing the amounts of the income transactions. */
  lemma IncomeSum(s: seq<Transaction>)
    ensures Seqs.SumOf(IncomeAmount, s) == Seqs.SumOf(Amount, Seqs.Filter(IsIncome, s))
  {
    Seqs.SumOfFilter(Amount, IsIncome, IncomeAmount, s);
  }

  /** Summing `ExpenseAmount` is summing the amounts of the expense transactions. */
  lemma ExpenseSum(s: seq<Transaction>)
    ensures Seqs.SumOf(ExpenseAmount, s) == Seqs.SumOf(Amount, Seqs.Filter(IsExpense, s))
  {
    Seqs.SumOfFilter(Amount, IsExpense, ExpenseAmount, s);
  }

  /** Each day holds the income and the expense amounts of its transactions,
      separately. */
  lemma DayTotalsAreSums(filtered: seq<Transaction>)
    ensures var r := DailyChartData(filtered);
      forall i :: 0 <= i < |r| ==>
        r[i].income == Seqs.SumOf(Amount, Seqs.Filter(IsIncome, OnDay(filtered, r[i].date))) &&
        r[i].expense == Seqs.SumOf(Amount, Seqs.Filter(IsExpense, OnDay(filtered, r[i].date)))
  {
    var r := DailyChartData(filtered);
    forall i | 0 <= i < |r|
      ensures r[i].income == Seqs.SumOf(Amount, Seqs.Filter(IsIncome, OnDay(filtered, r[i].date)))
      ensures r[i].expense == Seqs.SumOf(Amount, Seqs.Filter(IsExpense, OnDay(filtered, r[i].date)))
    {
      var j := DayFromBucket(filtered, i);
      IncomeSum(OnDay(filtered, r[i].date));
      ExpenseSum(OnDay(filtered, r[i].date));
    }
  }

  /** A key has a bar exactly when some dated transaction falls on it. */
  lemma DatesAreDayKeys(filtered: seq<Transaction>, day: string)
    ensures var r := DailyChartData(filtered);
      (exists i :: 0 <= i < |r| && r[i].date == day) <==> OnDay(filtered, day) != []
  {
    var r := DailyChartData(filtered);
    var g := DayBuckets(filtered);
    if i :| 0 <= i < |r| && r[i].date == day {
      var j := DayFromBucket(filtered, i);
    }
    var on := OnDay(filtered, day);
    if on != [] {
      var t := on[0];
      assert t in filtered && HasDate(t) && DayKey(t) == day;
      assert Grouping.HasKey(g, day);
      var j :| 0 <= j < |g| && g[j].key == day;
      var i := BucketToDay(filtered, j);
    }
  }

  lemma DaysSum(g: seq<Grouping.Bucket<Transaction>>)
    ensures Seqs.SumOf(DayIncome, Days(g)) == Seqs.SumOf(BucketIncome, g)
    ensures Seqs.SumOf(DayExpense, Days(g)) == Seqs.SumOf(BucketExpense, g)
  {
    if |g| > 0 {
      DaysSum(Seqs.Init(g));
      assert Seqs.Init(Days(g)) == Days(Seqs.Init(g));
    }
  }

  function BucketIncome(b: Grouping.Bucket<Transaction>): real {
    Seqs.SumOf(IncomeAmount, b.members)
  }

  function BucketExpense(b: Grouping.Bucket<Transaction>): real {
    Seqs.SumOf(ExpenseAmount, b.members)
  }

  /** The income bars add up to the income of the dated transactions and
      the expense bars to their expenses; when every transaction is dated,
      the income bars add up to `totalIncome`. */
  lemma BarsAddUpToTotals(filtered: seq<Transaction>)
    ensures Seqs.SumOf(DayIncome, DailyChartData(filtered)) ==
      Seqs.SumOf(Amount, Seqs.Filter(IsIncome, Seqs.Filter(HasDate, filtered)))
    ensures Seqs.SumOf(DayExpense, DailyChartData(filtered)) ==
      Seqs.SumOf(Amount, Seqs.Filter(IsExpense, Seqs.Filter(HasDate, filtered)))
    ensures (forall i :: 0 <= i < |filtered| ==> HasDate(filtered[i])) ==>
      Seqs.SumOf(DayIncome, DailyChartData(filtered)) == TotalIncome(filtered)
  {
    var dated := Seqs.Filter(HasDate, filtered);
    if |filtered| > 0 {
      var g := DayBuckets(filtered);
      DayLeTotal();
      Seqs.SumOfSort(DayIncome, DayLe, Days(g));
      Seqs.SumOfSort(DayExpense, DayLe, Days(g));
      DaysSum(g);
      Grouping.GroupSum(DayKey, HasDate, filtered, IncomeAmount, BucketIncome);
      Grouping.GroupSum(DayKey, HasDate, filtered, ExpenseAmount, BucketExpense);
    } else {
      assert dated == [];
    }
    IncomeSum(dated);
    ExpenseSum(dated);
    if forall i :: 0 <= i < |filtered| ==> HasDate(filtered[i]) {
      Seqs.FilterKeepsAll(HasDate, filtered);
    }
  }

  /** The key of a date the filter accepts reads as the same date. */
  lemma DayKeyKeepsDate(s: string)
    requires ParseDate(s).Some?
    ensures ParseDate(BeforeFirst(s, 'T')) == ParseDate(s)
  {
    var k := BeforeFirst(s, 'T');
    forall i | 0 <= i < 10 ensures s[i] != 'T' {
      if i < 4 {
        assert s[..4][i] == s[i];
      } else if 5 <= i < 7 {
        assert s[5..7][i - 5] == s[i];
      } else if 8 <= i {
        assert s[8..10][i - 8] == s[i];
      }
    }
    assert s[..10] == k[..10];
    assert k == s[..10] || k == s;
    assert k[..4] == s[..4] && k[5..7] == s[5..7] && k[8..10] == s[8..10];
  }

  /** For every period except "all" the bars are real dates, so the order
      is chronological. */
  lemma RangedBarsAreDates(ts: seq<Transaction>, period: string, monthYear: string, now: DateTime)
    requires !PeriodFilter.PeriodWindow(period, monthYear, now).AllTime?
    ensures var r := DailyChartData(PeriodFilter.FilterByPeriod(ts, period, monthYear, now));
      forall i :: 0 <= i < |r| ==> ParseDate(r[i].date).Some?
  {
    var filtered := PeriodFilter.FilterByPeriod(ts, period, monthYear, now);
    var r := DailyChartData(filtered);
    forall i | 0 <= i < |r| ensures ParseDate(r[i].date).Some? {
      var j := DayFromBucket(filtered, i);
      var g := DayBuckets(filtered);
      Grouping.BucketsHaveWitnesses(DayKey, HasDate, filtered);
      var t := g[j].first;
      assert t in filtered;
      var k :| 0 <= k < |filtered| && filtered[k] == t;
      assert PeriodFilter.InWindow(PeriodFilter.PeriodWindow(period, monthYear, now), t);
      DayKeyKeepsDate(t.date);
    }
  }

  // ---------------------------------------------------------------------------
  // The code as written: a plain object as the map
  // ---------------------------------------------------------------------------

  /** The transactions the written code actually records: `dataMap` is a
      plain object, so a day key that names a member of `Object.prototype`
      never gets an own entry and `Object.values` does not list it. */
  predicate RecordedAsWritten(t: Transaction) {
    HasDate(t) && DayKey(t) !in Grouping.PrototypeKeys
  }

  /** `dailyChartData` as written. */
  function DailyAsWritten(filtered: seq<Transaction>): (r: seq<DayTotals>)
    ensures |filtered| == 0 ==> r == []
    ensures Seqs.SortedBy(DayLe, r)
  {
    if |filtered| == 0 then []
    else
      DayLeTotal();
      Seqs.Sort(DayLe, Days(Grouping.Group(DayKey, RecordedAsWritten, filtered)))
  }

  /** One income of 10 dated `"toString"` under the period "all": the written
      code shows no bar at all, where the intended series shows one bar of 10. */
  lemma PrototypeNamedDateIsLost()
    ensures var ts := [Transaction("t1", "u1", Income, 10.0, "", "toString", None)];
            DailyAsWritten(ts) == [] &&
            DailyChartData(ts) == [DayTotals("toString", 10.0, 0.0)]
  {
    var t := Transaction("t1", "u1", Income, 10.0, "", "toString", None);
    ToStringKey(t);
    OneDayGroups(t, RecordedAsWritten);
    OneDayGroups(t, HasDate);
    var b := Grouping.Bucket("toString", t, [t]);
    Seqs.SumSingleton(IncomeAmount, t);
    Seqs.SumSingleton(ExpenseAmount, t);
    assert Days([b]) == [DayTotals("toString", 10.0, 0.0)] by {
      assert Seqs.Init([b]) == [];
    }
    DayLeTotal();
    SortSingleton(DayTotals("toString", 10.0, 0.0));
  }

  lemma ToStringKey(t: Transaction)
    requires t.date == "toString"
    ensures DayKey(t) == "toString" && HasDate(t) && !RecordedAsWritten(t)
  {
    var r := DayKey(t);
    assert 'T' !in t.date;
    assert r == t.date;
    ToStringIsDated(t);
  }

  lemma ToStringIsDated(t: Transaction)
    requires t.date == "toString"
    ensures HasDate(t)
  {
    assert !IsSpace(t.date[0]);
    BlankIffAllSpace(t.date);
  }

  /** Grouping one transaction: one day if it is kept, none otherwise. */
  lemma OneDayGroups(t: Transaction, keep: Transaction -> bool)
    ensures Grouping.Group(DayKey, keep, [t]) ==
      if keep(t) then [Grouping.Bucket(DayKey(t), t, [t])] else []
  {
    assert Seqs.Init([t]) == [];
    assert Grouping.Group(DayKey, keep, []) == [];
  }

  lemma SortSingleton(d: DayTotals)
    ensures Seqs.Total(DayLe) && Seqs.Sort(DayLe, [d]) == [d]
  {
    DayLeTotal();
    assert Seqs.Init([d]) == [];
  }

  /** When no dated transaction's key names a member of `Object.prototype`,
      the written code and the intended series agree. */
  lemma AsWrittenAgreesOffPrototypeKeys(filtered: seq<Transaction>)
    requires forall i :: 0 <= i < |filtered| && HasDate(filtered[i]) ==>
      DayKey(filtered[i]) !in Grouping.PrototypeKeys
    ensures DailyAsWritten(filtered) == DailyChartData(filtered)
  {
    Grouping.GroupCongruent(DayKey, RecordedAsWritten, HasDate, filtered);
  }

  /** A string that reads as a date starts with a digit, so it is never the
      name of a member of `Object.prototype`. */
  lemma DatesAreNotPrototypeKeys(k: string)
    requires ParseDate(k).Some?
    ensures k !in Grouping.PrototypeKeys
  {
    assert IsDigit(k[..4][0]);
    assert k[..4][0] == k[0];
  }

  /** For every period except "all" (and unknown ones) only real dates pass
      the filter, so the written code's series is the intended one. */
  lemma RangedPeriodsAgree(ts: seq<Transaction>, period: string, monthYear: string, now: DateTime)
    requires !PeriodFilter.PeriodWindow(period, monthYear, now).AllTime?
    ensures var f := PeriodFilter.FilterByPeriod(ts, period, monthYear, now);
      DailyAsWritten(f) == DailyChartData(f)
  {
    var f := PeriodFilter.FilterByPeriod(ts, period, monthYear, now);
    forall i | 0 <= i < |f| && HasDate(f[i])
      ensures DayKey(f[i]) !in Grouping.PrototypeKeys
    {
      assert PeriodFilter.InWindow(PeriodFilter.PeriodWindow(period, monthYear, now), f[i]);
      DayKeyKeepsDate(f[i].date);
      DatesAreNotPrototypeKeys(DayKey(f[i]));
    }
    AsWrittenAgreesOffPrototypeKeys(f);
  }
}

=== FILE: dashboard.dfy ===
/** The derived values and handlers of `DashboardPage.tsx`: the balance and
    the two totals over the whole list, the list sorted newest first, the
    add/edit modal, and the routing of a submitted form to the add or the
    edit thunk. */
module Dashboard {
  import opened Wrappers
  import opened Calendar
  import opened Entities
  import Seqs
  import TransactionsReducer
  import TransactionsActions

  predicate IsIncome(t: Transaction) {
    t.kind == Income
  }

  predicate IsExpense(t: Transaction) {
    t.kind == Expense
  }

  function Amount(t: Transaction): real {
    t.amount
  }

  // ---------------------------------------------------------------------------
  // Balance and totals
  // ---------------------------------------------------------------------------

  /** What one transaction does to the balance: income adds, any other type subtracts. */
  function Signed(t: Transaction): real {
    if t.kind == Income then t.amount else -t.amount
  }

  /** `currentBalance`: the `reduce` from 0 over the whole list. It is the
      income total minus the expense total. */
  function Balance(ts: seq<Transaction>): (r: real)
    ensures r == IncomeTotal(ts) - ExpenseTotal(ts)
  {
    if |ts| == 0 then 0.0
    else
      Seqs.FilterSumSnoc(Amount, IsIncome, ts);
      Seqs.FilterSumSnoc(Amount, IsExpense, ts);
      Balance(Seqs.Init(ts)) + Signed(Seqs.Last(ts))
  }

  /** `totalIncomeForPeriod`: every amount that is not an expense's. */
  function IncomeTotal(ts: seq<Transaction>): (r: real)
    ensures r == Seqs.SumOf(Amount, ts) - Seqs.SumOf(Amount, Seqs.Filter(IsExpense, ts))
  {
    TotalsCoverEveryAmount(ts);
    Seqs.SumOf(Amount, Seqs.Filter(IsIncome, ts))
  }

  /** `totalExpensesForPeriod`: every amount that is not an income's. */
  function ExpenseTotal(ts: seq<Transaction>): (r: real)
    ensures r == Seqs.SumOf(Amount, ts) - Seqs.SumOf(Amount, Seqs.Filter(IsIncome, ts))
  {
    TotalsCoverEveryAmount(ts);
    Seqs.SumOf(Amount, Seqs.Filter(IsExpense, ts))
  }

  /** Every transaction is either income or expense, so the two totals
      together account for every amount once. */
  lemma {:induction false} TotalsCoverEveryAmount(ts: seq<Transaction>)
    ensures Seqs.SumOf(Amount, Seqs.Filter(IsIncome, ts)) + Seqs.SumOf(Amount, Seqs.Filter(IsExpense, ts))
         == Seqs.SumOf(Amount, ts)
  {
    if |ts| > 0 {
      TotalsCoverEveryAmount(Seqs.Init(ts));
      Seqs.FilterSumSnoc(Amount, IsIncome, ts);
      Seqs.FilterSumSnoc(Amount, IsExpense, ts);
    }
  }

  /** Appending one transaction moves the balance by its signed amount: the
      balance after an `ADD_SUCCESS` is the old one plus the new record's effect. */
  lemma BalanceAfterAdd(ts: seq<Transaction>, t: Transaction)
    ensures Balance(ts + [t]) == Balance(ts) + (if t.kind == Income then t.amount else -t.amount)
  {
    assert Seqs.Init(ts + [t]) == ts;
  }

  // ---------------------------------------------------------------------------
  // Newest first
  // ---------------------------------------------------------------------------

  /** The order of `new Date(b.date).getTime() - new Date(a.date).getTime()`:
      `a` may stay before `b` when it is not older; a date that does not read
      as a date is placed last. */
  predicate NewerOrSame(a: Transaction, b: Transaction) {
    match ParseDate(a.date)
    case None => ParseDate(b.date).None?
    case Some(x) =>
      match ParseDate(b.date)
      case None => true
      case Some(y) => Le(y, x)
  }

  lemma NewerOrSameTotal()
    ensures Seqs.Total(NewerOrSame)
  {
    forall a: Transaction, b: Transaction ensures NewerOrSame(a, b) || NewerOrSame(b, a) {
      if ParseDate(a.date).Some? && ParseDate(b.date).Some? {
        LeTotal(ParseDate(a.date).value, ParseDate(b.date).value);
      }
    }
  }

  lemma NewerOrSameTransitive()
    ensures Seqs.Transitive(NewerOrSame)
  {
  }

  /** `sortedTransactions`: a sorted copy, the store's list itself is untouched. */
  function SortedTransactions(ts: seq<Transaction>): (r: seq<Transaction>)
    ensures multiset(r) == multiset(ts)
    ensures forall i, j :: 0 <= i < j < |r| ==> NewerOrSame(r[i], r[j])
  {
    NewerOrSameTotal();
    NewerOrSameTransitive();
    var r := Seqs.Sort(NewerOrSame, ts);
    Seqs.SortedAllPairs(NewerOrSame, r);
    r
  }

  /** In the sorted list every dated transaction comes before every undated
      one, and dated ones run from the latest date to the earliest. */
  lemma SortedNewestFirst(ts: seq<Transaction>, i: nat, j: nat)
    requires i < j < |SortedTransactions(ts)|
    ensures var r := SortedTransactions(ts);
      ParseDate(r[j].date).Some? ==>
        ParseDate(r[i].date).Some? && Le(ParseDate(r[j].date).value, ParseDate(r[i].date).value)
  {
  }

  /** Sorting changes neither the balance shown above the list nor its totals. */
  lemma SortingKeepsTotals(ts: seq<Transaction>)
    ensures Seqs.SumOf(Amount, SortedTransactions(ts)) == Seqs.SumOf(Amount, ts)
  {
    NewerOrSameTotal();
    Seqs.SumOfSort(Amount, NewerOrSame, ts);
  }

  // ---------------------------------------------------------------------------
  // The modal and the submit routing
  // ---------------------------------------------------------------------------

  /** `isModalOpen` and `transactionToEdit`. */
  datatype Modal = Modal(isOpen: bool, toEdit: Option<Transaction>)

  const Closed := Modal(false, None)

  /** `handleOpenModal(transaction?)`: no argument opens the form for a new transaction. */
  function OpenModal(tx: Option<Transaction>): (m: Modal)
    ensures m.isOpen
    ensures m.toEdit == tx
  {
    Modal(true, tx)
  }

  /** `handleCloseModal()`. */
  function CloseModal(m: Modal): (r: Modal)
    ensures r == Closed
  {
    Modal(false, None)
  }

  /** Whatever was opened, closing returns to the page's initial modal state,
      and closing twice is closing once. */
  lemma CloseUndoesOpen(tx: Option<Transaction>, m: Modal)
    ensures CloseModal(OpenModal(tx)) == Closed
    ensures CloseModal(CloseModal(m)) == CloseModal(m)
  {
  }

  /** Which thunk a submitted form goes to. */
  datatype Route = ToEdit(id: string, data: TransactionInput) | ToAdd(draft: TransactionDraft)

  /** The `if ('id' in data && data.id)` of `handleSubmitTransaction`. */
  function RouteOf(data: TransactionInput): (r: Route)
    ensures r.ToEdit? <==> Truthy(data.id)
    ensures r.ToEdit? ==> r.id == data.id.value && r.data == data
    ensures r.ToAdd? ==> r.draft == data.draft
  {
    match data.id
    case Some(id) => if id != "" then ToEdit(id, data) else ToAdd(data.draft)
    case None => ToAdd(data.draft)
  }

  /** `handleSubmitTransaction(data)`: the thunk it dispatches, and the modal
      afterwards (closed in both branches). */
  function SubmitTransaction(m: Modal, data: TransactionInput, user: Option<User>,
                             answer: Result<Transaction, Thrown>): (r: (Modal, TransactionsActions.Dispatched))
    ensures r.0 == Closed
    ensures Truthy(data.id) ==> r.1 == TransactionsActions.EditTransaction(data.id.value, data, answer)
    ensures !Truthy(data.id) ==> r.1 == TransactionsActions.AddTransaction(user, data.draft, answer)
  {
    var d := match RouteOf(data) {
      case ToEdit(id, input) => TransactionsActions.EditTransaction(id, input, answer)
      case ToAdd(draft) => TransactionsActions.AddTransaction(user, draft, answer)
    };
    (CloseModal(m), d)
  }

  /** What submitting does to the list: an edit with an id replaces the
      records carrying the returned id, an add by a signed-in user appends the
      returned record, and a failure leaves the list alone. */
  lemma SubmitOutcome(s: TransactionsReducer.State, m: Modal, data: TransactionInput, user: Option<User>,
                      answer: Result<Transaction, Thrown>)
    ensures var r := TransactionsReducer.Run(s, SubmitTransaction(m, data, user, answer).1.actions);
      !r.loading &&
      (Truthy(data.id) && answer.Success? ==> r.items == TransactionsReducer.ReplaceById(s.items, answer.value)) &&
      (!Truthy(data.id) && HasUserId(user) && answer.Success? ==> r.items == s.items + [answer.value]) &&
      (answer.Failure? || (!Truthy(data.id) && !HasUserId(user)) ==> r.items == s.items && r.error.Some?)
  {
    if Truthy(data.id) {
      TransactionsActions.EditOutcome(s, data.id.value, data, answer);
    } else {
      TransactionsActions.AddOutcome(s, user, data.draft, answer);
    }
  }

  /** `handleDeleteTransaction(id)`: the thunk runs only if the user confirms. */
  function DeleteTransaction(id: string, confirmed: bool, answer: Result<(), Thrown>): (r: Option<TransactionsActions.Dispatched>)
    ensures r.Some? <==> confirmed
    ensures r.Some? ==> r.value.call == Some(TransactionsActions.Remove(id))
  {
    if confirmed then Some(TransactionsActions.DeleteTransaction(id, answer)) else None
  }

  /** Declining the confirmation changes nothing; a confirmed, successful
      delete removes exactly the transactions with that id. */
  lemma DeleteOutcome(s: TransactionsReducer.State, id: string, confirmed: bool, answer: Result<(), Thrown>)
    ensures var d := DeleteTransaction(id, confirmed, answer);
      var r := if d.Some? then TransactionsReducer.Run(s, d.value.actions) else s;
      (!confirmed ==> r == s) &&
      (confirmed && answer.Success? ==> forall t :: t in r.items <==> t in s.items && t.id != id)
  {
    if confirmed {
      TransactionsActions.DeleteOutcome(s, id, answer);
    }
  }
}

=== FILE: entities.dfy ===
/** The records of `transactions.types.ts`, `categories.types.ts` and
    `auth.types.ts`, and the error values the services throw. */
module Entities {
  import opened Wrappers

  // ---------------------------------------------------------------------------
  // Transactions
  // ---------------------------------------------------------------------------

  datatype TxType = Income | Expense

  /** `Transaction`; `kind` is the `type` field. */
  datatype Transaction = Transaction(
    id: string,
    userId: string,
    kind: TxType,
    amount: real,
    category: string,
    date: string,
    comment: Option<string>)

  /** `TransactionForCreation`: what the form produces, before an owner is attached. */
  datatype TransactionDraft = TransactionDraft(
    kind: TxType,
    amount: real,
    category: string,
    date: string,
    comment: Option<string>)

  /** `NewTransactionData` (`Omit<Transaction, 'id'>`): a draft plus its owner. */
  datatype NewTransaction = NewTransaction(
    userId: string,
    kind: TxType,
    amount: real,
    category: string,
    date: string,
    comment: Option<string>)

  /** `{ ...draft, userId }`. */
  function WithOwner(draft: TransactionDraft, userId: string): (r: NewTransaction)
    ensures r.userId == userId && r.kind == draft.kind && r.amount == draft.amount
    ensures r.category == draft.category && r.date == draft.date && r.comment == draft.comment
  {
    NewTransaction(userId, draft.kind, draft.amount, draft.category, draft.date, draft.comment)
  }

  /** What the transaction form submits (`Partial<Transaction> | TransactionForCreation`):
      the draft fields and, in edit mode, the id of the edited transaction. */
  datatype TransactionInput = TransactionInput(id: Option<string>, draft: TransactionDraft)

  // ---------------------------------------------------------------------------
  // Categories
  // ---------------------------------------------------------------------------

  /** `Category`. */
  datatype Category = Category(
    id: string,
    userId: string,
    name: string,
    icon: Option<string>,
    color: Option<string>)

  /** A category's id, as a function value for lookups. */
  function CategoryId(c: Category): string {
    c.id
  }

  /** `CategoryForCreation` (`Pick<Category, 'name' | 'icon' | 'color'>`); it is
      also the `Partial<Category>` the categories page sends on edit. */
  datatype CategoryDraft = CategoryDraft(name: string, icon: Option<string>, color: Option<string>)

  /** `NewCategoryData` (`Omit<Category, 'id'>`). */
  datatype NewCategory = NewCategory(userId: string, name: string, icon: Option<string>, color: Option<string>)

  function CategoryWithOwner(draft: CategoryDraft, userId: string): (r: NewCategory)
    ensures r.userId == userId && r.name == draft.name && r.icon == draft.icon && r.color == draft.color
  {
    NewCategory(userId, draft.name, draft.icon, draft.color)
  }

  /** `categories.find(cat => cat.name === name)`: the first category with that name. */
  function FindByName(cats: seq<Category>, name: string): (r: Option<Category>)
    ensures r.None? <==> forall i :: 0 <= i < |cats| ==> cats[i].name != name
    ensures r.Some? ==> r.value in cats && r.value.name == name
    ensures r.Some? ==> exists k :: 0 <= k < |cats| && cats[k] == r.value &&
                                    forall i :: 0 <= i < k ==> cats[i].name != name
  {
    if |cats| == 0 then None
    else if cats[0].name == name then Some(cats[0])
    else
      var r := FindByName(cats[1..], name);
      assert forall i :: 1 <= i < |cats| ==> cats[i] == cats[1..][i - 1];
      r
  }

  // ---------------------------------------------------------------------------
  // Users
  // ---------------------------------------------------------------------------

  /** `User` as the client keeps it, without a password. */
  datatype User = User(id: string, email: string)

  /** A row of the backend's `users` table (`User` with its optional password). */
  datatype UserRecord = UserRecord(id: string, email: string, password: Option<string>)

  /** A row's id, as a function value for lookups. */
  function RecordId(u: UserRecord): string {
    u.id
  }

  /** `{ password, ...userWithoutPassword } = record`. */
  function WithoutPassword(u: UserRecord): (r: User)
    ensures r.id == u.id && r.email == u.email
  {
    User(u.id, u.email)
  }

  /** `AuthResponse`: the signed-in user and their token. */
  datatype Session = Session(user: User, token: string)

  // ---------------------------------------------------------------------------
  // Errors
  // ---------------------------------------------------------------------------

  /** A thrown error as the catch blocks see it: the HTTP status if there was a
      response, `error.response.data.message` and `error.message`. An absent
      message is the empty string: both are falsy for `||`. */
  datatype Thrown = Thrown(status: Option<int>, responseMessage: string, message: string)

  /** `new Error(message)`. */
  function Raise(message: string): (e: Thrown)
    ensures e.status.None? && e.responseMessage == "" && e.message == message
  {
    Thrown(None, "", message)
  }

  /** `error.message || fallback`. */
  function MessageOr(e: Thrown, fallback: string): (r: string)
    ensures e.message != "" ==> r == e.message
    ensures e.message == "" ==> r == fallback
  {
    OrElse(e.message, fallback)
  }

  /** `error.response?.data?.message || error.message || fallback`. */
  function ResponseMessageOr(e: Thrown, fallback: string): (r: string)
    ensures e.responseMessage != "" ==> r == e.responseMessage
    ensures e.responseMessage == "" ==> r == MessageOr(e, fallback)
  {
    OrElse(e.responseMessage, MessageOr(e, fallback))
  }

  /** `getState().auth.user?.id`, read as a condition: a user with a non-empty id. */
  predicate HasUserId(user: Option<User>) {
    user.Some? && user.value.id != ""
  }
}

=== FILE: grouping.dfy ===
/** Grouping by a string key, as the statistics page does with a plain
    object used as a map (`map[key] ??= {...}; map[key].x += ...`) followed
    by `Object.entries` / `Object.values`: one bucket per key, in order of
    first appearance, each holding the elements that went into it. */
module Grouping {
  import opened Wrappers
  import Seqs

  /** A bucket: its key, the element that created it, and every element
      added to it, in input order. */
  datatype Bucket<T> = Bucket(key: string, first: T, members: seq<T>)

  /** The reference meaning of a bucket's contents: the kept elements with key `k`. */
  function Members<T>(key: T -> string, keep: T -> bool, s: seq<T>, k: string): seq<T> {
    Seqs.Filter(InBucket(key, keep, k), s)
  }

  /** Whether an element belongs in the bucket with key `k`. */
  function InBucket<T>(key: T -> string, keep: T -> bool, k: string): T -> bool {
    x => keep(x) && key(x) == k
  }

  predicate HasKey<T>(g: seq<Bucket<T>>, k: string) {
    exists i :: 0 <= i < |g| && g[i].key == k
  }

  /** The position of the bucket with key `k`, if there is one. */
  function IndexOfKey<T>(g: seq<Bucket<T>>, k: string): (r: Option<nat>)
    ensures r.None? <==> !HasKey(g, k)
    ensures r.Some? ==> r.value < |g| && g[r.value].key == k
  {
    if |g| == 0 then None
    else if g[0].key == k then Some(0)
    else match IndexOfKey(g[1..], k) {
      case None =>
        assert forall i :: 1 <= i < |g| ==> g[i] == g[1..][i - 1];
        None
      case Some(j) => Some(j + 1)
    }
  }

  predicate DistinctKeys<T>(g: seq<Bucket<T>>) {
    forall i, j :: 0 <= i < j < |g| ==> g[i].key != g[j].key
  }

  ghost predicate NonEmpty<T>(g: seq<Bucket<T>>) {
    forall i :: 0 <= i < |g| ==> |g[i].members| > 0 && g[i].first == g[i].members[0]
  }

  /** Each bucket holds exactly the kept elements of `s` with its key. */
  ghost predicate Holds<T>(key: T -> string, keep: T -> bool, s: seq<T>, g: seq<Bucket<T>>) {
    forall i :: 0 <= i < |g| ==> g[i].members == Members(key, keep, s, g[i].key)
  }

  /** Every kept element of `s` has a bucket. */
  predicate Covers<T>(key: T -> string, keep: T -> bool, s: seq<T>, g: seq<Bucket<T>>) {
    forall j :: 0 <= j < |s| && keep(s[j]) ==> HasKey(g, key(s[j]))
  }

  /** Reading one more element: skip it, open a bucket for a new key, or add
      it to the bucket of its key. */
  function Add<T>(key: T -> string, keep: T -> bool, g: seq<Bucket<T>>, x: T): seq<Bucket<T>> {
    if !keep(x) then g
    else match IndexOfKey(g, key(x)) {
      case None => g + [Bucket(key(x), x, [x])]
      case Some(k) => g[k := g[k].(members := g[k].members + [x])]
    }
  }

  /** One pass over `s`. */
  function Group<T>(key: T -> string, keep: T -> bool, s: seq<T>): (r: seq<Bucket<T>>)
    ensures forall i, j :: 0 <= i < j < |r| ==> r[i].key != r[j].key
    ensures forall i :: 0 <= i < |r| ==> r[i].members == Members(key, keep, s, r[i].key)
    ensures forall i :: 0 <= i < |r| ==> |r[i].members| > 0 && r[i].first == r[i].members[0]
    ensures forall j :: 0 <= j < |s| && keep(s[j]) ==> HasKey(r, key(s[j]))
  {
    if |s| == 0 then []
    else
      var g := Group(key, keep, Seqs.Init(s));
      var x := Seqs.Last(s);
      AddKeepsShape(key, keep, g, x);
      AddHolds(key, keep, s, g);
      AddCovers(key, keep, s, g);
      Add(key, keep, g, x)
  }

  lemma AddKeepsShape<T>(key: T -> string, keep: T -> bool, g: seq<Bucket<T>>, x: T)
    requires DistinctKeys(g) && NonEmpty(g)
    ensures DistinctKeys(Add(key, keep, g, x)) && NonEmpty(Add(key, keep, g, x))
  {
  }

  lemma AddCovers<T>(key: T -> string, keep: T -> bool, s: seq<T>, g: seq<Bucket<T>>)
    requires |s| > 0 && Covers(key, keep, Seqs.Init(s), g)
    ensures Covers(key, keep, s, Add(key, keep, g, Seqs.Last(s)))
  {
    var x := Seqs.Last(s);
    var r := Add(key, keep, g, x);
    forall j | 0 <= j < |s| && keep(s[j]) ensures HasKey(r, key(s[j])) {
      if j < |s| - 1 {
        assert s[j] == Seqs.Init(s)[j];
        var i :| 0 <= i < |g| && g[i].key == key(s[j]);
        assert r[i].key == key(s[j]);
      } else {
        var i := IndexOfKey(r, key(x));
        if !keep(x) {
        } else if IndexOfKey(g, key(x)).None? {
          assert r[|g|].key == key(x);
        } else {
          assert r[IndexOfKey(g, key(x)).value].key == key(x);
        }
      }
    }
  }

  lemma AddHolds<T>(key: T -> string, keep: T -> bool, s: seq<T>, g: seq<Bucket<T>>)
    requires |s| > 0 && Holds(key, keep, Seqs.Init(s), g) && DistinctKeys(g)
    requires Covers(key, keep, Seqs.Init(s), g)
    ensures Holds(key, keep, s, Add(key, keep, g, Seqs.Last(s)))
  {
    var x := Seqs.Last(s);
    var r := Add(key, keep, g, x);
    forall i | 0 <= i < |r| ensures r[i].members == Members(key, keep, s, r[i].key) {
      MembersSnoc(key, keep, s, r[i].key);
      if i == |g| {
        NoBucketNoMembers(key, keep, Seqs.Init(s), g, key(x));
      }
    }
  }

  /** A key without a bucket has no members. */
  lemma NoBucketNoMembers<T>(key: T -> string, keep: T -> bool, s: seq<T>, g: seq<Bucket<T>>, k: string)
    requires forall j :: 0 <= j < |s| && keep(s[j]) ==> HasKey(g, key(s[j]))
    requires !HasKey(g, k)
    ensures Members(key, keep, s, k) == []
  {
    var p := InBucket(key, keep, k);
    assert forall j :: 0 <= j < |s| ==> !p(s[j]);
    Seqs.FilterNone(p, s);
  }

  /** Adding one element at the end adds it to exactly its own key's members. */
  lemma MembersSnoc<T>(key: T -> string, keep: T -> bool, s: seq<T>, k: string)
    requires |s| > 0
    ensures Members(key, keep, s, k) ==
      Members(key, keep, Seqs.Init(s), k) +
        (if keep(Seqs.Last(s)) && key(Seqs.Last(s)) == k then [Seqs.Last(s)] else [])
  {
    var p := InBucket(key, keep, k);
    assert s == Seqs.Init(s) + [Seqs.Last(s)];
    Seqs.FilterAppend(p, Seqs.Init(s), [Seqs.Last(s)]);
    Seqs.FilterSingleton(p, Seqs.Last(s));
  }

  /** Every bucket comes from a kept element carrying its key. */
  lemma BucketsHaveWitnesses<T>(key: T -> string, keep: T -> bool, s: seq<T>)
    ensures forall i :: 0 <= i < |Group(key, keep, s)| ==>
      Group(key, keep, s)[i].first in s && keep(Group(key, keep, s)[i].first) &&
      key(Group(key, keep, s)[i].first) == Group(key, keep, s)[i].key
  {
    var g := Group(key, keep, s);
    forall i | 0 <= i < |g|
      ensures g[i].first in s && keep(g[i].first) && key(g[i].first) == g[i].key
    {
      var p := InBucket(key, keep, g[i].key);
      assert g[i].members == Seqs.Filter(p, s);
      assert g[i].members[0] in s && p(g[i].members[0]);
    }
  }

  /** Adding one element adds its value to the total if it is kept. */
  lemma AddSum<T>(key: T -> string, keep: T -> bool, g: seq<Bucket<T>>, x: T,
                  f: T -> real, total: Bucket<T> -> real)
    requires forall b :: total(b) == Seqs.SumOf(f, b.members)
    ensures Seqs.SumOf(total, Add(key, keep, g, x)) == Seqs.SumOf(total, g) + (if keep(x) then f(x) else 0.0)
  {
    if keep(x) {
      match IndexOfKey(g, key(x)) {
        case None =>
          var b := Bucket(key(x), x, [x]);
          Seqs.SumAppend(total, g, [b]);
          Seqs.SumSingleton(total, b);
          Seqs.SumSingleton(f, x);
        case Some(k) =>
          var b := g[k].(members := g[k].members + [x]);
          Seqs.SumOfUpdate(total, g, k, b);
          Seqs.SumAppend(f, g[k].members, [x]);
          Seqs.SumSingleton(f, x);
      }
    }
  }

  /** Summing per bucket and then over the buckets is summing over the kept
      elements: grouping neither loses nor double-counts anything. */
  lemma {:induction false} GroupSum<T>(key: T -> string, keep: T -> bool, s: seq<T>,
                                       f: T -> real, total: Bucket<T> -> real)
    requires forall b :: total(b) == Seqs.SumOf(f, b.members)
    ensures Seqs.SumOf(total, Group(key, keep, s)) == Seqs.SumOf(f, Seqs.Filter(keep, s))
  {
    if |s| > 0 {
      GroupSum(key, keep, Seqs.Init(s), f, total);
      AddSum(key, keep, Group(key, keep, Seqs.Init(s)), Seqs.Last(s), f, total);
      Seqs.FilterSumSnoc(f, keep, s);
    }
  }

  /** Keep-predicates that agree on every element of `s` group it alike. */
  lemma {:induction false} GroupCongruent<T>(key: T -> string, keep: T -> bool, keep2: T -> bool, s: seq<T>)
    requires forall i :: 0 <= i < |s| ==> keep(s[i]) == keep2(s[i])
    ensures Group(key, keep, s) == Group(key, keep2, s)
  {
    if |s| > 0 {
      GroupCongruent(key, keep, keep2, Seqs.Init(s));
      assert keep(Seqs.Last(s)) == keep2(Seqs.Last(s));
    }
  }

  // ---------------------------------------------------------------------------
  // The plain object as written
  // ---------------------------------------------------------------------------

  /** The properties every plain object inherits from `Object.prototype`.
      For such a key `!map[key]` is false, so no own entry is ever created,
      the update lands on the inherited member instead, and neither
      `Object.entries` nor `Object.values` lists the key. */
  const PrototypeKeys: set<string> := {
    "constructor", "hasOwnProperty", "isPrototypeOf", "propertyIsEnumerable",
    "toLocaleString", "toString", "valueOf", "__proto__",
    "__defineGetter__", "__defineSetter__", "__lookupGetter__", "__lookupSetter__"
  }
}

=== FILE: legacy_auth.dfy ===
/** The older hand-written auth reducer and thunks (`auth/auth.reducer.ts`,
    `auth/auth.actions.ts`). They are not wired into the root reducer, but
    they are part of the code base and differ from the slice in telling
    ways: here the REDUCER writes the saved token, and a failure of any kind
    forgets it. */
module LegacyAuth {
  import opened Wrappers
  import opened Entities
  import AuthService
  import Seqs

  datatype AuthState = AuthState(
    isAuthenticated: bool,
    user: Option<User>,
    loading: bool,
    error: Option<string>,
    token: Option<string>)

  datatype Client = Client(auth: AuthState, saved: Option<string>)

  /** The module-level initial state: the saved token is read once, and
      nobody is signed in yet. */
  function Initial(saved: Option<string>): (c: Client)
    ensures c.auth.token == saved && !c.auth.loading && !c.auth.isAuthenticated
    ensures c.auth.user.None? && c.auth.error.None? && c.saved == saved
  {
    Client(AuthState(false, None, false, None, saved), saved)
  }

  datatype Action =
    | LoginRequest
    | LoginSuccess(session: Session)
    | LoginFailure(message: string)
    | RegisterRequest
    | RegisterSuccess
    | RegisterFailure(message: string)
    | Logout
    | Unrelated(actionType: string)

  /** `authReducer`, including its `localStorage` writes. */
  function Reduce(c: Client, a: Action): (r: Client)
    ensures Consistent(c) ==> Consistent(r)
    ensures a.LoginSuccess? ==>
      r.auth.isAuthenticated && r.auth.user == Some(a.session.user) && r.saved == Some(a.session.token)
    ensures a.LoginFailure? || a.RegisterFailure? || a.Logout? ==>
      r.saved.None? && r.auth.token.None? && !r.auth.isAuthenticated && r.auth.user.None?
    ensures a.LoginFailure? || a.RegisterFailure? ==> r.auth.error == Some(a.message)
    ensures a.LoginRequest? || a.RegisterRequest? || a.RegisterSuccess? || a.Unrelated? ==>
      r.saved == c.saved && r.auth.user == c.auth.user && r.auth.token == c.auth.token
  {
    match a
    case LoginRequest => c.(auth := c.auth.(loading := true, error := None))
    case RegisterRequest => c.(auth := c.auth.(loading := true, error := None))
    case LoginSuccess(s) =>
      Client(c.auth.(isAuthenticated := true, user := Some(s.user), token := Some(s.token),
                     loading := false, error := None), Some(s.token))
    case LoginFailure(m) => Client(AuthState(false, None, false, Some(m), None), None)
    case RegisterFailure(m) => Client(AuthState(false, None, false, Some(m), None), None)
    case RegisterSuccess => c.(auth := c.auth.(loading := false, error := None))
    case Logout => Client(AuthState(false, None, false, None, None), None)
    case Unrelated(_) => c
  }

  function Run(c: Client, acts: seq<Action>): Client {
    Seqs.Run(Reduce, c, acts)
  }

  // ---------------------------------------------------------------------------
  // Thunks
  // ---------------------------------------------------------------------------

  /** `loginUser(credentials)`. */
  function LoginUser(creds: AuthService.Credentials, found: Result<seq<UserRecord>, Thrown>): (acts: seq<Action>)
    ensures |acts| == 2 && acts[0] == LoginRequest
    ensures acts[1].LoginSuccess? <==> AuthService.Login(creds, found).Success?
    ensures var l := AuthService.Login(creds, found);
      (l.Success? ==> acts[1] == LoginSuccess(l.value)) &&
      (l.Failure? ==> acts[1] == LoginFailure(ResponseMessageOr(l.error, "Failed to login")))
  {
    match AuthService.Login(creds, found)
    case Success(s) => [LoginRequest, LoginSuccess(s)]
    case Failure(e) => [LoginRequest, LoginFailure(ResponseMessageOr(e, "Failed to login"))]
  }

  /** `registerUser(userData)`. The service always answers with a user and a
      token, so a success is dispatched as `LOGIN_SUCCESS`; the
      `REGISTER_SUCCESS` branch (kept in the reducer) is never taken. */
  function RegisterUser(data: AuthService.Credentials, found: Result<seq<UserRecord>, Thrown>,
                        created: Result<UserRecord, Thrown>): (acts: seq<Action>)
    ensures |acts| == 2 && acts[0] == RegisterRequest
    ensures !acts[1].RegisterSuccess?
    ensures acts[1].LoginSuccess? <==> AuthService.Register(data, found, created).result.Success?
    ensures var g := AuthService.Register(data, found, created).result;
      (g.Success? ==> acts[1] == LoginSuccess(g.value)) &&
      (g.Failure? ==> acts[1] == RegisterFailure(ResponseMessageOr(g.error, "Failed to register")))
  {
    match AuthService.Register(data, found, created).result
    case Success(s) => [RegisterRequest, LoginSuccess(s)]
    case Failure(e) => [RegisterRequest, RegisterFailure(ResponseMessageOr(e, "Failed to register"))]
  }

  /** What `logoutAction()` did: its actions and whether it notified the server. */
  datatype LogoutRun = LogoutRun(actions: seq<Action>, notifiedServer: bool)

  /** `logoutAction()`: the server is told only when the slice held a token. */
  function LogoutAction(c: Client): (r: LogoutRun)
    ensures r.actions == [Logout]
    ensures r.notifiedServer <==> Truthy(c.auth.token)
  {
    LogoutRun([Logout], Truthy(c.auth.token))
  }

  /** `checkAuthStatus()`: the slice's token, else the saved one. */
  function CheckAuthStatus(c: Client, getById: string -> Result<UserRecord, Thrown>): (acts: seq<Action>)
    ensures var t := OrElse(c.auth.token.GetOr(""), c.saved.GetOr(""));
      (t == "" ==> acts == if c.auth.isAuthenticated then [Logout] else []) &&
      (t != "" ==>
         |acts| == 2 && acts[0] == LoginRequest &&
         (acts[1].LoginSuccess? <==> AuthService.FetchMe(t, getById).Success?) &&
         (acts[1].LoginSuccess? ==> acts[1].session.token == t))
    ensures var t := OrElse(c.auth.token.GetOr(""), c.saved.GetOr(""));
      var m := AuthService.FetchMe(t, getById);
      t != "" ==>
        (m.Success? ==> acts[1] == LoginSuccess(Session(m.value, t))) &&
        (m.Failure? ==> acts[1] == LoginFailure(ResponseMessageOr(m.error, "Session expired or token invalid")))
  {
    var token := OrElse(c.auth.token.GetOr(""), c.saved.GetOr(""));
    if token != "" then
      match AuthService.FetchMe(token, getById)
      case Success(u) => [LoginRequest, LoginSuccess(Session(u, token))]
      case Failure(e) => [LoginRequest, LoginFailure(ResponseMessageOr(e, "Session expired or token invalid"))]
    else if c.auth.isAuthenticated then [Logout]
    else []
  }

  // ---------------------------------------------------------------------------
  // Properties
  // ---------------------------------------------------------------------------

  /** Signed in exactly when there is a user, and then the token is held and saved. */
  ghost predicate Consistent(c: Client) {
    (c.auth.isAuthenticated <==> c.auth.user.Some?) &&
    (c.auth.isAuthenticated ==> c.auth.token.Some? && c.saved == c.auth.token)
  }

  /** Unlike the slice, the legacy reducer keeps storage in sync by itself:
      EVERY action preserves consistency, with no condition on where the
      token came from. */
  lemma {:induction false} RunKeepsConsistent(c: Client, acts: seq<Action>)
    requires Consistent(c)
    ensures Consistent(Run(c, acts))
  {
    if |acts| > 0 {
      RunKeepsConsistent(c, Seqs.Init(acts));
    }
  }

  /** A request only starts the spinner and clears the error; `LOGIN_SUCCESS`
      signs in and saves the token; `REGISTER_SUCCESS` stops the spinner but
      leaves the session and storage as they were; other actions change nothing. */
  lemma OneActionEffects(c: Client, s: Session, name: string)
    ensures Reduce(c, LoginRequest) == c.(auth := c.auth.(loading := true, error := None))
    ensures Reduce(c, RegisterRequest) == Reduce(c, LoginRequest)
    ensures var r := Reduce(c, LoginSuccess(s));
      r.auth.isAuthenticated && r.auth.user == Some(s.user) && r.auth.token == Some(s.token) &&
      !r.auth.loading && r.auth.error.None? && r.saved == Some(s.token)
    ensures var r := Reduce(c, RegisterSuccess);
      r.auth.isAuthenticated == c.auth.isAuthenticated && r.auth.user == c.auth.user &&
      r.auth.token == c.auth.token && r.saved == c.saved && !r.auth.loading
    ensures Reduce(c, Unrelated(name)) == c
  {
  }

  /** A failure forgets the saved token as well as the session. */
  lemma FailureForgetsToken(c: Client, m: string)
    ensures Reduce(c, LoginFailure(m)) == Client(AuthState(false, None, false, Some(m), None), None)
    ensures Reduce(c, RegisterFailure(m)) == Reduce(c, LoginFailure(m))
  {
  }

  /** Logging out is idempotent and equals the initial state with no saved token. */
  lemma LogoutResets(c: Client)
    ensures Reduce(c, Logout) == Initial(None)
    ensures Reduce(Reduce(c, Logout), Logout) == Reduce(c, Logout)
  {
  }
}

=== FILE: month_options.dfy ===
/** The month selector of the statistics page (`monthOptions` in
    `StatisticsPage.tsx`): the `getMonthYear` labels of every transaction
    with a valid date plus the current month, without repeats, sorted as
    strings and reversed. */
module MonthOptions {
  import opened Wrappers
  import opened Text
  import opened Calendar
  import opened Entities
  import Seqs

  /** `t`'s date reads as a date whose month label is `m`. */
  predicate LabelOf(t: Transaction, m: string) {
    ParseDate(t.date).Some? && m == MonthYear(ParseDate(t.date).value)
  }

  /** The labels `forEach` adds to the set, in list order. */
  function MonthLabels(ts: seq<Transaction>): (r: seq<string>)
    ensures forall i :: 0 <= i < |r| ==> exists j :: 0 <= j < |ts| && LabelOf(ts[j], r[i])
    ensures forall j :: 0 <= j < |ts| && ParseDate(ts[j].date).Some? ==> MonthYear(ParseDate(ts[j].date).value) in r
  {
    if |ts| == 0 then []
    else
      var init := MonthLabels(Seqs.Init(ts));
      assert forall j :: 0 <= j < |ts| - 1 ==> Seqs.Init(ts)[j] == ts[j];
      match ParseDate(Seqs.Last(ts).date)
      case None => init
      case Some(d) => init + [MonthYear(d)]
  }

  lemma LexLeIsTotal()
    ensures Seqs.Total(LexLe)
  {
    forall a: string, b: string ensures LexLe(a, b) || LexLe(b, a) {
      LexLeTotal(a, b);
    }
  }

  /** `monthOptions`. */
  function MonthOptions(ts: seq<Transaction>, now: DateTime): (r: seq<string>)
    ensures MonthYear(now) in r
    ensures forall i :: 0 < i < |r| ==> LexLe(r[i], r[i - 1])
  {
    if |ts| == 0 then [MonthYear(now)]
    else
      var d := Seqs.Distinct(MonthLabels(ts) + [MonthYear(now)]);
      LexLeIsTotal();
      var sorted := Seqs.Sort(LexLe, d);
      Seqs.ReverseSorted(LexLe, sorted);
      assert MonthYear(now) in multiset(d);
      Seqs.Reverse(sorted)
  }

  /** The options are the current month and the months of the dated transactions. */
  lemma OptionsAreMonths(ts: seq<Transaction>, now: DateTime, m: string)
    ensures m in MonthOptions(ts, now) <==> m == MonthYear(now) || exists j :: 0 <= j < |ts| && LabelOf(ts[j], m)
  {
    if |ts| > 0 {
      var labels := MonthLabels(ts) + [MonthYear(now)];
      var d := Seqs.Distinct(labels);
      LexLeIsTotal();
      var sorted := Seqs.Sort(LexLe, d);
      assert m in MonthOptions(ts, now) <==> m in multiset(d);
      if j :| 0 <= j < |ts| && LabelOf(ts[j], m) {
        assert m in MonthLabels(ts);
        assert m in labels;
      }
      if m in MonthLabels(ts) {
        var i :| 0 <= i < |MonthLabels(ts)| && MonthLabels(ts)[i] == m;
      }
      assert m in labels ==> m == MonthYear(now) || m in MonthLabels(ts);
    }
  }

  /** No month is offered twice. */
  lemma OptionsDistinct(ts: seq<Transaction>, now: DateTime)
    ensures var r := MonthOptions(ts, now);
      forall i, j :: 0 <= i < j < |r| ==> r[i] != r[j]
  {
    if |ts| > 0 {
      var asKey := (s: string) => s;
      var d := Seqs.Distinct(MonthLabels(ts) + [MonthYear(now)]);
      LexLeIsTotal();
      assert Seqs.KeysDistinct(asKey, d);
      Seqs.SortKeepsKeysDistinct(asKey, LexLe, d);
      Seqs.ReverseKeysDistinct(asKey, Seqs.Sort(LexLe, d));
    }
  }

  /** A `(year, month)` pair as a count of months. */
  function MonthNumber(p: (int, int)): int {
    p.0 * 12 + p.1
  }

  /** Both labels read as `<year>-<month>` and `a` is the later month. */
  predicate Later(a: string, b: string) {
    ParseMonthYear(a).Some? && ParseMonthYear(b).Some? &&
    MonthNumber(ParseMonthYear(b).value) < MonthNumber(ParseMonthYear(a).value)
  }

  /** With four-digit years the string order is the calendar order, so the
      selector lists months strictly newest first. */
  lemma OptionsNewestFirst(ts: seq<Transaction>, now: DateTime)
    requires 1000 <= now.year <= 9999 && 0 <= now.month < 12
    requires forall j :: 0 <= j < |ts| && ParseDate(ts[j].date).Some? ==> ParseDate(ts[j].date).value.year >= 1000
    ensures var r := MonthOptions(ts, now);
      forall i :: 0 < i < |r| ==> Later(r[i - 1], r[i])
  {
    var r := MonthOptions(ts, now);
    OptionsDistinct(ts, now);
    forall i | 0 < i < |r| ensures Later(r[i - 1], r[i]) {
      var a := OptionMonth(ts, now, r[i]);
      var b := OptionMonth(ts, now, r[i - 1]);
      assert r[i - 1] != r[i];
      LaterLabel(a, b);
    }
  }

  /** Of two different labels of four-digit years, the one that is larger as
      a string is the later month. */
  lemma LaterLabel(a: DateTime, b: DateTime)
    requires 1000 <= a.year <= 9999 && 1000 <= b.year <= 9999
    requires 0 <= a.month < 12 && 0 <= b.month < 12
    requires LexLe(MonthYear(a), MonthYear(b)) && MonthYear(a) != MonthYear(b)
    ensures Later(MonthYear(b), MonthYear(a))
  {
    MonthYearChronological(a, b);
    LaterMonth(a, b);
  }

  /** A strictly later month's label reads as the later month. */
  lemma LaterMonth(a: DateTime, b: DateTime)
    requires 0 <= a.year && 0 <= b.year && 0 <= a.month < 12 && 0 <= b.month < 12
    requires a.year < b.year || (a.year == b.year && a.month < b.month)
    ensures Later(MonthYear(b), MonthYear(a))
  {
    assert ParseMonthYear(MonthYear(a)) == Some((a.year, a.month + 1));
    assert ParseMonthYear(MonthYear(b)) == Some((b.year, b.month + 1));
    MonthNumberOrder(a.year, a.month + 1, b.year, b.month + 1);
  }

  lemma MonthNumberOrder(ya: int, ma: int, yb: int, mb: int)
    requires 1 <= ma <= 12 && 1 <= mb <= 12
    requires ya < yb || (ya == yb && ma < mb)
    ensures MonthNumber((ya, ma)) < MonthNumber((yb, mb))
  {
    if ya < yb {
      assert ya * 12 + 12 <= yb * 12;
    }
  }

  /** Every option is the label of a date with a four-digit year, under the
      assumptions of `OptionsNewestFirst`. */
  lemma OptionMonth(ts: seq<Transaction>, now: DateTime, m: string) returns (d: DateTime)
    requires 1000 <= now.year <= 9999 && 0 <= now.month < 12
    requires forall j :: 0 <= j < |ts| && ParseDate(ts[j].date).Some? ==> ParseDate(ts[j].date).value.year >= 1000
    requires m in MonthOptions(ts, now)
    ensures 1000 <= d.year <= 9999 && 0 <= d.month < 12 && m == MonthYear(d)
  {
    OptionsAreMonths(ts, now, m);
    if m == MonthYear(now) {
      d := now;
    } else {
      var j :| 0 <= j < |ts| && LabelOf(ts[j], m);
      d := ParseDate(ts[j].date).value;
    }
  }
}

=== FILE: period_filter.dfy ===
/** The period filter of the statistics page (`filteredTransactions` in
    `StatisticsPage.tsx`): the selected period becomes a closed range of
    instants, and the transactions whose date falls inside it are kept in
    their original order. "Now" is a parameter. */
module PeriodFilter {
  import opened Wrappers
  import opened Text
  import opened Calendar
  import opened Entities
  import Seqs

  /** What a period selects: everything, a closed range, or (for a month
      string that does not read as numbers) an Invalid Date range that no
      date satisfies. */
  datatype Window = AllTime | Range(start: DateTime, end: DateTime) | InvalidRange

  /** The `switch (selectedPeriod)` of the filter. */
  function PeriodWindow(period: string, monthYear: string, now: DateTime): (w: Window)
    ensures w.AllTime? <==> period != "currentMonth" && period != "lastMonth" && period != "currentYear"
    ensures w.InvalidRange? <==> period == "currentMonth" && ParseMonthYear(monthYear).None?
    ensures w.Range? ==> Valid(w.start) && Valid(w.end) && Le(w.start, w.end)
  {
    if period == "currentMonth" then
      match ParseMonthYear(monthYear)
      case None => InvalidRange
      case Some((year, month)) => Range(StartOfMonth(year, month - 1), EndOfMonth(year, month - 1))
    else if period == "lastMonth" then
      var last := StartOfMonth(now.year, now.month - 1);
      Range(StartOfMonth(last.year, last.month), EndOfMonth(last.year, last.month))
    else if period == "currentYear" then
      Range(StartOfMonth(now.year, 0), EndOfMonth(now.year, 11))
    else AllTime
  }

  /** The filter's test: the date must read as a date and lie in the range. */
  predicate InWindow(w: Window, t: Transaction) {
    match w
    case AllTime => true
    case InvalidRange => false
    case Range(a, b) =>
      match ParseDate(t.date)
      case None => false
      case Some(d) => Le(a, d) && Le(d, b)
  }

  /** `filteredTransactions`. */
  function FilterByPeriod(ts: seq<Transaction>, period: string, monthYear: string, now: DateTime): (r: seq<Transaction>)
    ensures |ts| == 0 ==> r == []
    ensures forall i :: 0 <= i < |r| ==> r[i] in ts && InWindow(PeriodWindow(period, monthYear, now), r[i])
    ensures forall i :: 0 <= i < |ts| && InWindow(PeriodWindow(period, monthYear, now), ts[i]) ==> ts[i] in r
  {
    if |ts| == 0 then []
    else
      var w := PeriodWindow(period, monthYear, now);
      if w.AllTime? then ts
      else Seqs.Filter(t => InWindow(w, t), ts)
  }

  /** Dated in the given year. */
  predicate DatedInYear(t: Transaction, year: int) {
    ParseDate(t.date).Some? && ParseDate(t.date).value.year == year
  }

  /** Dated in the given 0-based month of the given year. */
  predicate DatedInMonth(t: Transaction, year: int, month: int) {
    DatedInYear(t, year) && ParseDate(t.date).value.month == month
  }

  // ---------------------------------------------------------------------------
  // What each period keeps
  // ---------------------------------------------------------------------------

  /** `'all'` and any period the switch does not know return the list as it is. */
  lemma OtherPeriodsKeepAll(ts: seq<Transaction>, period: string, monthYear: string, now: DateTime)
    requires period != "currentMonth" && period != "lastMonth" && period != "currentYear"
    ensures FilterByPeriod(ts, period, monthYear, now) == ts
  {
  }

  /** A month string that does not read as `<year>-<month>` selects nothing. */
  lemma UnreadableMonthKeepsNothing(ts: seq<Transaction>, monthYear: string, now: DateTime)
    requires ParseMonthYear(monthYear).None?
    ensures FilterByPeriod(ts, "currentMonth", monthYear, now) == []
  {
    if |ts| > 0 {
      Seqs.FilterNone(t => InWindow(InvalidRange, t), ts);
    }
  }

  /** Choosing a month from the selector keeps exactly the transactions dated
      in that month, in their original order. Years below 100 are excluded:
      `new Date(year, ...)` reads them as 1900 + year. */
  lemma SelectedMonthKeepsThatMonth(ts: seq<Transaction>, d: DateTime, now: DateTime)
    requires 0 <= d.month < 12 && d.year >= 100
    ensures FilterByPeriod(ts, "currentMonth", MonthYear(d), now)
         == Seqs.Filter(t => DatedInMonth(t, d.year, d.month), ts)
  {
    var w := PeriodWindow("currentMonth", MonthYear(d), now);
    assert w == Range(StartOfMonth(d.year, d.month), EndOfMonth(d.year, d.month));
    MonthRangeMeansMonth(ts, d.year, d.month);
  }

  /** The range of a month, applied to a list, is the test "dated in that month". */
  lemma MonthRangeMeansMonth(ts: seq<Transaction>, year: int, month: int)
    requires 0 <= month < 12 && year >= 100
    ensures Seqs.Filter(t => InWindow(Range(StartOfMonth(year, month), EndOfMonth(year, month)), t), ts)
         == Seqs.Filter(t => DatedInMonth(t, year, month), ts)
  {
    var w := Range(StartOfMonth(year, month), EndOfMonth(year, month));
    assert StartOfMonth(year, month).year == year && StartOfMonth(year, month).month == month;
    forall i | 0 <= i < |ts| ensures InWindow(w, ts[i]) == DatedInMonth(ts[i], year, month) {
      if ParseDate(ts[i].date).Some? {
        InMonthRange(year, month, ParseDate(ts[i].date).value);
      }
    }
    Seqs.FilterCongruent(t => InWindow(w, t), t => DatedInMonth(t, year, month), ts);
  }

  /** "Last month" keeps exactly the transactions dated in the month before
      `now`'s, across a year boundary in January. */
  lemma LastMonthKeepsPreviousMonth(ts: seq<Transaction>, monthYear: string, now: DateTime)
    requires 0 <= now.month < 12 && now.year >= 101
    ensures var year := if now.month == 0 then now.year - 1 else now.year;
            var month := if now.month == 0 then 11 else now.month - 1;
            FilterByPeriod(ts, "lastMonth", monthYear, now) == Seqs.Filter(t => DatedInMonth(t, year, month), ts)
  {
    var year := if now.month == 0 then now.year - 1 else now.year;
    var month := if now.month == 0 then 11 else now.month - 1;
    var last := StartOfMonth(now.year, now.month - 1);
    assert last.year == year && last.month == month;
    assert StartOfMonth(last.year, last.month) == StartOfMonth(year, month);
    if |ts| > 0 {
      MonthRangeMeansMonth(ts, year, month);
    }
  }

  /** "Current year" keeps exactly the transactions dated in `now`'s year. */
  lemma CurrentYearKeepsThisYear(ts: seq<Transaction>, monthYear: string, now: DateTime)
    requires now.year >= 100
    ensures FilterByPeriod(ts, "currentYear", monthYear, now) == Seqs.Filter(t => DatedInYear(t, now.year), ts)
  {
    var w := PeriodWindow("currentYear", monthYear, now);
    DecemberEnd(now.year);
    assert w == Range(DateTime(now.year, 0, 1, 0), DateTime(now.year, 11, 31, LastMs));
    forall i | 0 <= i < |ts| ensures InWindow(w, ts[i]) == DatedInYear(ts[i], now.year) {
    }
    if |ts| > 0 {
      Seqs.FilterCongruent(t => InWindow(w, t), t => DatedInYear(t, now.year), ts);
    }
  }
}

=== FILE: scenarios.dfy ===
/** End-to-end runs across the modules: a session that survives a page
    reload, a concrete login, and what the dashboard shows after adding a
    transaction. */
module Scenarios {
  import opened Wrappers
  import opened Text
  import opened Entities
  import AuthService
  import MockServer
  import AuthSlice
  import TransactionsReducer
  import Seqs
  import TransactionsActions
  import Dashboard

  /** Logging in against the user table saves the token; reloading the page
      starts from that saved token, and the session check it triggers ends in
      the same signed-in state, provided ids are distinct, non-empty and do
      not contain the token prefix. */
  lemma SessionSurvivesReload(db: seq<UserRecord>, creds: AuthService.Credentials)
    requires MockServer.IdsDistinct(db)
    requires AuthService.Login(creds, Success(MockServer.UsersWithEmail(db, creds.email))).Success?
    requires var id := AuthService.Login(creds, Success(MockServer.UsersWithEmail(db, creds.email))).value.user.id;
      id != "" && !Contains(id, AuthService.TokenPrefix)
    ensures var found := Success(MockServer.UsersWithEmail(db, creds.email));
      var before := AuthSlice.Apply(AuthSlice.Initial(None), AuthSlice.LoginUser(None, creds, found));
      var reloaded := AuthSlice.Initial(before.saved);
      var after := AuthSlice.Apply(reloaded, AuthSlice.CheckAuthStatus(reloaded.saved, id => MockServer.UserById(db, id)));
      before.auth.isAuthenticated && reloaded.auth.isLoading && after == before
  {
    var found := Success(MockServer.UsersWithEmail(db, creds.email));
    var s := AuthService.Login(creds, found).value;
    MockServer.LoginTokenFindsUser(db, creds);
    var e1 := AuthSlice.LoginUser(None, creds, found);
    Seqs.RunPair(AuthSlice.Reduce, AuthSlice.Initial(None), e1.actions[0], e1.actions[1]);
    assert e1.actions == [e1.actions[0], e1.actions[1]];
    var before := AuthSlice.Apply(AuthSlice.Initial(None), e1);
    var reloaded := AuthSlice.Initial(before.saved);
    var e2 := AuthSlice.CheckAuthStatus(reloaded.saved, id => MockServer.UserById(db, id));
    Seqs.RunPair(AuthSlice.Reduce, reloaded, e2.actions[0], e2.actions[1]);
    assert e2.actions == [e2.actions[0], e2.actions[1]];
  }

  /** One user `u1` with password `pw`: the right password yields the token
      `mock-jwt-token-u1`, a wrong one the "Invalid password" error. */
  lemma ConcreteLogin()
    ensures var db := [UserRecord("u1", "a@example.kz", Some("pw"))];
      var found := Success(MockServer.UsersWithEmail(db, "a@example.kz"));
      AuthService.Login(AuthService.Credentials("a@example.kz", "pw"), found)
        == Success(Session(User("u1", "a@example.kz"), "mock-jwt-token-u1")) &&
      AuthService.Login(AuthService.Credentials("a@example.kz", "PW"), found)
        == Failure(Raise("Invalid password"))
  {
    var db := [UserRecord("u1", "a@example.kz", Some("pw"))];
    var creds := AuthService.Credentials("a@example.kz", "pw");
    MockServer.LookupAfterCreate([], creds, "u1");
    assert MockServer.Create([], creds, "u1") == db;
    assert AuthService.MakeToken("u1") == "mock-jwt-token-u1";
  }

  /** Submitting the new-transaction form as a signed-in user with a
      successful answer adds the server's record to the list, and the balance
      moves by its signed amount. */
  lemma AddMovesBalance(s: TransactionsReducer.State, data: TransactionInput, user: User, t: Transaction)
    requires !Truthy(data.id) && user.id != ""
    ensures var d := Dashboard.SubmitTransaction(Dashboard.Closed, data, Some(user), Success(t)).1;
      var r := TransactionsReducer.Run(s, d.actions);
      Dashboard.Balance(r.items) == Dashboard.Balance(s.items) + (if t.kind == Income then t.amount else -t.amount)
  {
    Dashboard.SubmitOutcome(s, Dashboard.Closed, data, Some(user), Success(t));
    Dashboard.BalanceAfterAdd(s.items, t);
  }
}

=== FILE: seqs.dfy ===
/** Generic sequence operations behind `Array.prototype.filter`, `reduce`,
    `sort`, `reverse` and `Array.from(new Set(...))`. Every recursion peels
    the LAST element, so a fold visits the elements in array order. */
module Seqs {
  import opened Wrappers

  function Init<T>(s: seq<T>): seq<T>
    requires |s| > 0
  {
    s[..|s| - 1]
  }

  function Last<T>(s: seq<T>): T
    requires |s| > 0
  {
    s[|s| - 1]
  }

  // ---------------------------------------------------------------------------
  // filter
  // ---------------------------------------------------------------------------

  /** `s.filter(p)`. */
  function Filter<T>(p: T -> bool, s: seq<T>): (r: seq<T>)
    ensures |r| <= |s|
    ensures forall i :: 0 <= i < |r| ==> r[i] in s && p(r[i])
    ensures forall i :: 0 <= i < |s| && p(s[i]) ==> s[i] in r
  {
    if |s| == 0 then []
    else Filter(p, Init(s)) + (if p(Last(s)) then [Last(s)] else [])
  }

  /** Filtering commutes with concatenation: together with the one-element
      case this pins the result down as the order-preserving subsequence of
      the elements satisfying `p`. */
  lemma {:induction false} FilterAppend<T>(p: T -> bool, a: seq<T>, b: seq<T>)
    ensures Filter(p, a + b) == Filter(p, a) + Filter(p, b)
  {
    if |b| > 0 {
      assert Init(a + b) == a + Init(b);
      FilterAppend(p, a, Init(b));
    } else {
      assert a + b == a;
    }
  }

  lemma FilterSingleton<T>(p: T -> bool, x: T)
    ensures Filter(p, [x]) == if p(x) then [x] else []
  {
    assert Init([x]) == [];
  }

  lemma {:induction false} FilterKeepsAll<T>(p: T -> bool, s: seq<T>)
    requires forall i :: 0 <= i < |s| ==> p(s[i])
    ensures Filter(p, s) == s
  {
    if |s| > 0 {
      FilterKeepsAll(p, Init(s));
    }
  }

  lemma {:induction false} FilterNone<T>(p: T -> bool, s: seq<T>)
    requires forall i :: 0 <= i < |s| ==> !p(s[i])
    ensures Filter(p, s) == []
  {
    if |s| > 0 {
      FilterNone(p, Init(s));
    }
  }

  /** Predicates that agree on every element filter alike. */
  lemma {:induction false} FilterCongruent<T>(p: T -> bool, q: T -> bool, s: seq<T>)
    requires forall i :: 0 <= i < |s| ==> p(s[i]) == q(s[i])
    ensures Filter(p, s) == Filter(q, s)
  {
    if |s| > 0 {
      FilterCongruent(p, q, Init(s));
    }
  }

  /** Filtering by `q` and then by `p` is filtering once by a predicate that
      holds exactly where both do. */
  lemma {:induction false} FilterFilter<T>(p: T -> bool, q: T -> bool, both: T -> bool, s: seq<T>)
    requires forall i :: 0 <= i < |s| ==> both(s[i]) == (q(s[i]) && p(s[i]))
    ensures Filter(p, Filter(q, s)) == Filter(both, s)
  {
    if |s| > 0 {
      FilterFilter(p, q, both, Init(s));
      var x := Last(s);
      var tail := if q(x) then [x] else [];
      FilterAppend(p, Filter(q, Init(s)), tail);
      if q(x) {
        FilterSingleton(p, x);
      }
    }
  }

  // ---------------------------------------------------------------------------
  // reduce((acc, x) => acc + f(x), 0)
  // ---------------------------------------------------------------------------

  function SumOf<T>(f: T -> real, s: seq<T>): real
  {
    if |s| == 0 then 0.0 else SumOf(f, Init(s)) + f(Last(s))
  }

  lemma {:induction false} SumAppend<T>(f: T -> real, a: seq<T>, b: seq<T>)
    ensures SumOf(f, a + b) == SumOf(f, a) + SumOf(f, b)
  {
    if |b| > 0 {
      assert Init(a + b) == a + Init(b);
      SumAppend(f, a, Init(b));
    } else {
      assert a + b == a;
    }
  }

  lemma SumSingleton<T>(f: T -> real, x: T)
    ensures SumOf(f, [x]) == f(x)
  {
    assert Init([x]) == [];
  }

  /** The sum over the kept elements grows by the last element if it is kept. */
  lemma FilterSumSnoc<T>(f: T -> real, keep: T -> bool, s: seq<T>)
    requires |s| > 0
    ensures SumOf(f, Filter(keep, s)) ==
      SumOf(f, Filter(keep, Init(s))) + (if keep(Last(s)) then f(Last(s)) else 0.0)
  {
    var x := Last(s);
    var tail := if keep(x) then [x] else [];
    SumAppend(f, Filter(keep, Init(s)), tail);
    if keep(x) {
      SumSingleton(f, x);
    }
  }

  /** Replacing one element changes the sum by the difference. */
  lemma {:induction false} SumOfUpdate<T>(f: T -> real, s: seq<T>, k: nat, y: T)
    requires k < |s|
    ensures SumOf(f, s[k := y]) == SumOf(f, s) - f(s[k]) + f(y)
  {
    if k < |s| - 1 {
      assert Init(s[k := y]) == Init(s)[k := y];
      SumOfUpdate(f, Init(s), k, y);
    } else {
      assert Init(s[k := y]) == Init(s);
    }
  }

  /** Summing over the elements that satisfy `p` is summing a function that
      agrees with `f` on them and is zero elsewhere. */
  lemma {:induction false} SumOfFilter<T>(f: T -> real, p: T -> bool, g: T -> real, s: seq<T>)
    requires forall i :: 0 <= i < |s| ==> g(s[i]) == if p(s[i]) then f(s[i]) else 0.0
    ensures SumOf(f, Filter(p, s)) == SumOf(g, s)
  {
    if |s| > 0 {
      SumOfFilter(f, p, g, Init(s));
      var tail := if p(Last(s)) then [Last(s)] else [];
      SumAppend(f, Filter(p, Init(s)), tail);
      assert SumOf(f, tail) == if p(Last(s)) then f(Last(s)) else 0.0 by {
        if p(Last(s)) {
          assert Init(tail) == [];
        }
      }
    }
  }

  // ---------------------------------------------------------------------------
  // Stable insertion sort by a total preorder
  // ---------------------------------------------------------------------------

  ghost predicate Total<T(!new)>(le: (T, T) -> bool) {
    forall a, b :: le(a, b) || le(b, a)
  }

  /** Every element is `le` its successor. */
  predicate SortedBy<T>(le: (T, T) -> bool, s: seq<T>) {
    forall i :: 0 < i < |s| ==> le(s[i - 1], s[i])
  }

  /** Places `x` after every element of the sorted `s` that is `le` it, as a
      stable sort does with an element that comes later in the input. */
  function Insert<T(!new)>(le: (T, T) -> bool, s: seq<T>, x: T): (r: seq<T>)
    requires Total(le) && SortedBy(le, s)
    ensures |r| == |s| + 1
    ensures SortedBy(le, r)
    ensures multiset(r) == multiset(s) + multiset{x}
    ensures Last(r) == x || (|s| > 0 && Last(r) == Last(s))
  {
    if |s| == 0 then [x]
    else if le(Last(s), x) then s + [x]
    else
      var r := Insert(le, Init(s), x) + [Last(s)];
      assert s == Init(s) + [Last(s)];
      r
  }

  /** `[...s].sort(cmp)` where `le(a, b)` means `cmp(a, b) <= 0`. */
  /** An element of a sequence has a place in every permutation of it. */
  lemma PlaceInPermutation<T>(a: seq<T>, b: seq<T>, i: nat) returns (j: nat)
    requires multiset(a) == multiset(b) && i < |a|
    ensures j < |b| && b[j] == a[i]
  {
    assert a[i] in multiset(a);
    assert a[i] in b;
    j :| 0 <= j < |b| && b[j] == a[i];
  }

  function Sort<T(!new)>(le: (T, T) -> bool, s: seq<T>): (r: seq<T>)
    requires Total(le)
    ensures |r| == |s|
    ensures SortedBy(le, r)
    ensures multiset(r) == multiset(s)
  {
    if |s| == 0 then []
    else
      assert s == Init(s) + [Last(s)];
      Insert(le, Sort(le, Init(s)), Last(s))
  }

  lemma {:induction false} SumOfInsert<T(!new)>(f: T -> real, le: (T, T) -> bool, s: seq<T>, x: T)
    requires Total(le) && SortedBy(le, s)
    ensures SumOf(f, Insert(le, s, x)) == SumOf(f, s) + f(x)
  {
    if |s| > 0 && !le(Last(s), x) {
      SumOfInsert(f, le, Init(s), x);
      assert Init(Insert(le, s, x)) == Insert(le, Init(s), x);
    } else if |s| > 0 {
      assert Init(s + [x]) == s;
    }
  }

  /** Sorting does not change a sum. */
  lemma {:induction false} SumOfSort<T(!new)>(f: T -> real, le: (T, T) -> bool, s: seq<T>)
    requires Total(le)
    ensures SumOf(f, Sort(le, s)) == SumOf(f, s)
  {
    if |s| > 0 {
      SumOfSort(f, le, Init(s));
      SumOfInsert(f, le, Sort(le, Init(s)), Last(s));
    }
  }

  ghost predicate Transitive<T(!new)>(le: (T, T) -> bool) {
    forall a, b, c :: le(a, b) && le(b, c) ==> le(a, c)
  }

  /** In a sequence sorted by a transitive order every element is `le`
      every later one, not only its successor. */
  lemma SortedAllPairs<T(!new)>(le: (T, T) -> bool, s: seq<T>)
    requires Transitive(le) && SortedBy(le, s)
    ensures forall i, j :: 0 <= i < j < |s| ==> le(s[i], s[j])
  {
    forall i, j | 0 <= i < j < |s| ensures le(s[i], s[j]) {
      SortedStep(le, s, i, j);
    }
  }

  lemma {:induction false} SortedStep<T(!new)>(le: (T, T) -> bool, s: seq<T>, i: nat, j: nat)
    requires Transitive(le) && SortedBy(le, s)
    requires i < j < |s|
    ensures le(s[i], s[j])
    decreases j - i
  {
    if i + 1 < j {
      SortedStep(le, s, i, j - 1);
      assert le(s[j - 1], s[j]);
    }
  }

  /** No two elements share a key. */
  predicate KeysDistinct<T, K(==)>(key: T -> K, s: seq<T>) {
    forall i, j :: 0 <= i < j < |s| ==> key(s[i]) != key(s[j])
  }

  lemma {:induction false} InsertKeepsKeysDistinct<T(!new), K>(key: T -> K, le: (T, T) -> bool, s: seq<T>, x: T)
    requires Total(le) && SortedBy(le, s)
    requires KeysDistinct(key, s)
    requires forall y :: y in s ==> key(y) != key(x)
    ensures KeysDistinct(key, Insert(le, s, x))
  {
    if |s| > 0 && !le(Last(s), x) {
      var s' := Init(s);
      assert forall y :: y in s' ==> y in s;
      InsertKeepsKeysDistinct(key, le, s', x);
      var r' := Insert(le, s', x);
      forall y | y in r' ensures key(y) != key(Last(s)) {
        assert y in multiset(r');
        if y != x {
          assert y in s';
          var i :| 0 <= i < |s'| && s'[i] == y;
          assert s[i] == y;
        }
      }
    }
  }

  lemma {:induction false} SortKeepsKeysDistinct<T(!new), K>(key: T -> K, le: (T, T) -> bool, s: seq<T>)
    requires Total(le)
    requires KeysDistinct(key, s)
    ensures KeysDistinct(key, Sort(le, s))
  {
    if |s| > 0 {
      var s' := Init(s);
      SortKeepsKeysDistinct(key, le, s');
      forall y | y in Sort(le, s') ensures key(y) != key(Last(s)) {
        assert y in multiset(Sort(le, s'));
        var i :| 0 <= i < |s'| && s'[i] == y;
        assert s[i] == y;
      }
      InsertKeepsKeysDistinct(key, le, Sort(le, s'), Last(s));
    }
  }

  // ---------------------------------------------------------------------------
  // reverse, and the distinct elements of a Set in insertion order
  // ---------------------------------------------------------------------------

  function Reverse<T>(s: seq<T>): (r: seq<T>)
    ensures |r| == |s|
    ensures forall i :: 0 <= i < |s| ==> r[i] == s[|s| - 1 - i]
    ensures multiset(r) == multiset(s)
  {
    if |s| == 0 then []
    else
      assert s == Init(s) + [Last(s)];
      [Last(s)] + Reverse(Init(s))
  }

  /** Reversing a sorted sequence puts every element `le` its predecessor. */
  lemma ReverseSorted<T>(le: (T, T) -> bool, s: seq<T>)
    requires SortedBy(le, s)
    ensures forall i :: 0 < i < |s| ==> le(Reverse(s)[i], Reverse(s)[i - 1])
  {
    var r := Reverse(s);
    forall i | 0 < i < |s| ensures le(r[i], r[i - 1]) {
      assert r[i] == s[|s| - 1 - i] && r[i - 1] == s[|s| - i];
    }
  }

  lemma ReverseKeysDistinct<T, K>(key: T -> K, s: seq<T>)
    requires KeysDistinct(key, s)
    ensures KeysDistinct(key, Reverse(s))
  {
    var r := Reverse(s);
    forall i, j | 0 <= i < j < |r| ensures key(r[i]) != key(r[j]) {
      assert r[i] == s[|s| - 1 - i] && r[j] == s[|s| - 1 - j];
    }
  }

  /** `Array.from(new Set(s))`: first occurrences, in order. */
  function Distinct<T(==)>(s: seq<T>): (r: seq<T>)
    ensures forall i :: 0 <= i < |r| ==> r[i] in s
    ensures forall i :: 0 <= i < |s| ==> s[i] in r
    ensures forall i, j :: 0 <= i < j < |r| ==> r[i] != r[j]
  {
    if |s| == 0 then []
    else
      var d := Distinct(Init(s));
      if Last(s) in d then d else d + [Last(s)]
  }

  // ---------------------------------------------------------------------------
  // findIndex
  // ---------------------------------------------------------------------------

  /** `s.findIndex(x => key(x) === k)`, with `-1` as `None`. */
  function FirstIndex<T, K(==)>(key: T -> K, s: seq<T>, k: K): (r: Option<nat>)
    ensures r.None? <==> forall i :: 0 <= i < |s| ==> key(s[i]) != k
    ensures r.Some? ==> r.value < |s| && key(s[r.value]) == k &&
                        forall i :: 0 <= i < r.value ==> key(s[i]) != k
  {
    if |s| == 0 then None
    else if key(s[0]) == k then Some(0)
    else match FirstIndex(key, s[1..], k) {
      case None =>
        assert forall i :: 1 <= i < |s| ==> s[i] == s[1..][i - 1];
        None
      case Some(j) =>
        assert forall i :: 1 <= i <= j + 1 ==> s[i] == s[1..][i - 1];
        Some(j + 1)
    }
  }

  // ---------------------------------------------------------------------------
  // dispatch
  // ---------------------------------------------------------------------------

  /** The store after dispatching `acts` in order, one reducer `step` each. */
  function Run<S, A>(step: (S, A) -> S, s: S, acts: seq<A>): S {
    if |acts| == 0 then s else step(Run(step, s, Init(acts)), Last(acts))
  }

  /** Dispatching two sequences one after the other is dispatching their
      concatenation. */
  lemma {:induction false} RunAppend<S, A>(step: (S, A) -> S, s: S, a: seq<A>, b: seq<A>)
    ensures Run(step, s, a + b) == Run(step, Run(step, s, a), b)
  {
    if |b| > 0 {
      assert Init(a + b) == a + Init(b);
      assert Last(a + b) == Last(b);
      RunAppend(step, s, a, Init(b));
    } else {
      assert a + b == a;
    }
  }

  /** Dispatching two actions. */
  lemma RunPair<S, A>(step: (S, A) -> S, s: S, a: A, b: A)
    ensures Run(step, s, [a, b]) == step(step(s, a), b)
  {
    assert Init([a, b]) == [a];
    assert Init([a]) == [];
    assert Run(step, s, [a]) == step(Run(step, s, []), a);
  }
}

=== FILE: spending.dfy ===
/** Spending by category and total expenses on the statistics page
    (`spendingByCategory`, `totalExpenses` in `StatisticsPage.tsx`): the
    expenses of the filtered list with a non-blank category are grouped under
    a display name (the category's own name when a category of that name
    exists, `"Без категории (<name>)"` otherwise), each group becomes a slice
    holding its summed amount and the colour and icon of its category, and
    the slices are sorted by value, largest first.

    `SpendingByCategory` is the intended behaviour, which the rest of the
    model uses. `SpendingAsWritten` is the code as written, whose plain
    object map also drops every display name that is a property of
    `Object.prototype`. */
module Spending {
  import opened Wrappers
  import opened Text
  import opened Entities
  import Seqs
  import Grouping

  /** One pie slice (`ChartSpendingData`). */
  datatype Slice = Slice(name: string, value: real, color: Option<string>, icon: Option<string>)

  const UncategorisedPrefix := "Без категории ("

  /** The name a transaction's spending is shown under. */
  function DisplayName(t: Transaction, cats: seq<Category>): string {
    if FindByName(cats, t.category).Some? then t.category
    else UncategorisedPrefix + t.category + ")"
  }

  /** `DisplayName` as a function value. */
  function Key(cats: seq<Category>): Transaction -> string {
    t => DisplayName(t, cats)
  }

  predicate IsExpense(t: Transaction) {
    t.kind == Expense
  }

  predicate HasCategory(t: Transaction) {
    !IsBlank(t.category)
  }

  /** The transactions that contribute to the breakdown. */
  predicate Counted(t: Transaction) {
    t.kind == Expense && !IsBlank(t.category)
  }

  function Amount(t: Transaction): real {
    t.amount
  }

  /** The reference meaning of a slice: the counted expenses shown under `name`. */
  function Contributors(filtered: seq<Transaction>, cats: seq<Category>, name: string): seq<Transaction> {
    Seqs.Filter(ShownUnder(cats, name), filtered)
  }

  /** A counted expense shown under `name`. */
  function ShownUnder(cats: seq<Category>, name: string): Transaction -> bool {
    t => Counted(t) && DisplayName(t, cats) == name
  }

  function BucketAmount(b: Grouping.Bucket<Transaction>): real {
    Seqs.SumOf(Amount, b.members)
  }

  /** A group as a slice; colour and icon come from the category of the
      transaction that opened the group. */
  function SliceOf(b: Grouping.Bucket<Transaction>, cats: seq<Category>): Slice {
    var c := FindByName(cats, b.first.category);
    Slice(b.key, BucketAmount(b),
          if c.Some? then c.value.color else None,
          if c.Some? then c.value.icon else None)
  }

  function Slices(g: seq<Grouping.Bucket<Transaction>>, cats: seq<Category>): (r: seq<Slice>)
    ensures |r| == |g|
    ensures forall i :: 0 <= i < |g| ==> r[i] == SliceOf(g[i], cats)
  {
    if |g| == 0 then [] else Slices(Seqs.Init(g), cats) + [SliceOf(Seqs.Last(g), cats)]
  }

  function SliceName(s: Slice): string {
    s.name
  }

  function SliceValue(s: Slice): real {
    s.value
  }

  /** The order of `sort((a, b) => b.value - a.value)`. */
  predicate ValueGe(a: Slice, b: Slice) {
    a.value >= b.value
  }

  lemma ValueGeTotal()
    ensures Seqs.Total(ValueGe)
  {
  }

  /** The expense groups, in order of first appearance. */
  function Buckets(filtered: seq<Transaction>, cats: seq<Category>): seq<Grouping.Bucket<Transaction>> {
    Grouping.Group(Key(cats), HasCategory, Seqs.Filter(IsExpense, filtered))
  }

  /** `spendingByCategory`. */
  function SpendingByCategory(filtered: seq<Transaction>, cats: seq<Category>): (r: seq<Slice>)
    ensures |filtered| == 0 || |cats| == 0 ==> r == []
    ensures Seqs.SortedBy(ValueGe, r)
  {
    if |filtered| == 0 || |cats| == 0 then []
    else
      ValueGeTotal();
      Seqs.Sort(ValueGe, Slices(Buckets(filtered, cats), cats))
  }

  /** `totalExpenses`: the sum of the slice values. Grouping loses nothing
      and counts nothing twice, so it adds up the counted expenses; with no
      categories loaded it is 0. */
  function TotalExpenses(filtered: seq<Transaction>, cats: seq<Category>): (r: real)
    ensures r == if |cats| == 0 then 0.0 else Seqs.SumOf(Amount, Seqs.Filter(Counted, filtered))
  {
    SlicesAddUpCountedExpenses(filtered, cats);
    var spending := SpendingByCategory(filtered, cats);
    if |spending| == 0 then 0.0 else Seqs.SumOf(SliceValue, spending)
  }

  // ---------------------------------------------------------------------------
  // Properties
  // ---------------------------------------------------------------------------

  /** A group's members are exactly the contributors to its name. */
  lemma MembersAreContributors(filtered: seq<Transaction>, cats: seq<Category>, name: string)
    ensures Grouping.Members(Key(cats), HasCategory, Seqs.Filter(IsExpense, filtered), name)
         == Contributors(filtered, cats, name)
  {
    Seqs.FilterFilter(Grouping.InBucket(Key(cats), HasCategory, name), IsExpense, ShownUnder(cats, name), filtered);
  }

  /** The groups in terms of the page: each holds the contributors to its
      name, and the transaction that opened it comes first. */
  lemma BucketsHoldContributors(filtered: seq<Transaction>, cats: seq<Category>)
    ensures var g := Buckets(filtered, cats);
      forall j :: 0 <= j < |g| ==>
        g[j].members == Contributors(filtered, cats, g[j].key) &&
        |g[j].members| > 0 && g[j].first == g[j].members[0]
  {
    var g := Buckets(filtered, cats);
    forall j | 0 <= j < |g|
      ensures g[j].members == Contributors(filtered, cats, g[j].key)
    {
      MembersAreContributors(filtered, cats, g[j].key);
    }
  }

  /** Every slice comes from one group of the unsorted breakdown. */
  lemma SliceFromBucket(filtered: seq<Transaction>, cats: seq<Category>, i: nat) returns (j: nat)
    requires i < |SpendingByCategory(filtered, cats)|
    ensures |filtered| > 0 && |cats| > 0
    ensures j < |Buckets(filtered, cats)|
    ensures SpendingByCategory(filtered, cats)[i] == SliceOf(Buckets(filtered, cats)[j], cats)
  {
    var r := SpendingByCategory(filtered, cats);
    var s := Slices(Buckets(filtered, cats), cats);
    ValueGeTotal();
    assert r == Seqs.Sort(ValueGe, s);
    assert r[i] in multiset(r);
    assert r[i] in s;
    var k :| 0 <= k < |s| && s[k] == r[i];
    j := k;
  }

  /** Every group gives a slice of the sorted breakdown. */
  lemma BucketToSlice(filtered: seq<Transaction>, cats: seq<Category>, j: nat) returns (i: nat)
    requires |filtered| > 0 && |cats| > 0
    requires j < |Buckets(filtered, cats)|
    ensures i < |SpendingByCategory(filtered, cats)|
    ensures SpendingByCategory(filtered, cats)[i] == SliceOf(Buckets(filtered, cats)[j], cats)
  {
    var r := SpendingByCategory(filtered, cats);
    var s := Slices(Buckets(filtered, cats), cats);
    ValueGeTotal();
    assert r == Seqs.Sort(ValueGe, s);
    assert s[j] in multiset(s);
    assert s[j] in multiset(r);
    var k :| 0 <= k < |r| && r[k] == s[j];
    i := k;
  }

  /** No two slices share a name. */
  lemma SliceNamesDistinct(filtered: seq<Transaction>, cats: seq<Category>)
    ensures Seqs.KeysDistinct(SliceName, SpendingByCategory(filtered, cats))
  {
    if |filtered| > 0 && |cats| > 0 {
      var s := Slices(Buckets(filtered, cats), cats);
      assert Seqs.KeysDistinct(SliceName, s);
      ValueGeTotal();
      Seqs.SortKeepsKeysDistinct(SliceName, ValueGe, s);
    }
  }

  /** Each slice's value is the sum of the amounts of its contributors. */
  lemma SliceValueIsSum(filtered: seq<Transaction>, cats: seq<Category>)
    ensures var r := SpendingByCategory(filtered, cats);
      forall i :: 0 <= i < |r| ==> r[i].value == Seqs.SumOf(Amount, Contributors(filtered, cats, r[i].name))
  {
    var r := SpendingByCategory(filtered, cats);
    BucketsHoldContributors(filtered, cats);
    forall i | 0 <= i < |r| ensures r[i].value == Seqs.SumOf(Amount, Contributors(filtered, cats, r[i].name)) {
      var j := SliceFromBucket(filtered, cats, i);
    }
  }

  /** A name has a slice exactly when some counted expense is shown under it
      (given at least one category): nothing is lost and nothing invented. */
  lemma SliceNamesAreDisplayNames(filtered: seq<Transaction>, cats: seq<Category>, name: string)
    requires |cats| > 0
    ensures var r := SpendingByCategory(filtered, cats);
      (exists i :: 0 <= i < |r| && r[i].name == name) <==> Contributors(filtered, cats, name) != []
  {
    var r := SpendingByCategory(filtered, cats);
    var g := Buckets(filtered, cats);
    BucketsHoldContributors(filtered, cats);
    if i :| 0 <= i < |r| && r[i].name == name {
      var j := SliceFromBucket(filtered, cats, i);
    }
    var c := Contributors(filtered, cats, name);
    if c != [] {
      var j := ContributorHasBucket(filtered, cats, name);
      var i := BucketToSlice(filtered, cats, j);
      assert r[i].name == name;
    }
  }

  /** A name with contributors has a group. */
  lemma ContributorHasBucket(filtered: seq<Transaction>, cats: seq<Category>, name: string) returns (j: nat)
    requires Contributors(filtered, cats, name) != []
    ensures |filtered| > 0
    ensures j < |Buckets(filtered, cats)| && Buckets(filtered, cats)[j].key == name
  {
    var c := Contributors(filtered, cats, name);
    var ex := Seqs.Filter(IsExpense, filtered);
    var g := Buckets(filtered, cats);
    var t := c[0];
    assert t in filtered && IsExpense(t) && HasCategory(t) && Key(cats)(t) == name;
    var k :| 0 <= k < |ex| && ex[k] == t;
    assert Grouping.HasKey(g, name);
    j :| 0 <= j < |g| && g[j].key == name;
  }

  /** A slice whose name is not a category's carries no colour or icon and is
      named `"Без категории (<category>)"`. */
  lemma UnknownCategorySlice(filtered: seq<Transaction>, cats: seq<Category>)
    ensures var r := SpendingByCategory(filtered, cats);
      forall i :: 0 <= i < |r| && FindByName(cats, r[i].name).None? ==>
        r[i].color.None? && r[i].icon.None? && StartsWith(r[i].name, UncategorisedPrefix)
  {
    var r := SpendingByCategory(filtered, cats);
    forall i | 0 <= i < |r| && FindByName(cats, r[i].name).None?
      ensures r[i].color.None? && r[i].icon.None? && StartsWith(r[i].name, UncategorisedPrefix)
    {
      var j := SliceFromBucket(filtered, cats, i);
      var b := Buckets(filtered, cats)[j];
      FirstIsShownUnderKey(filtered, cats, j);
      UncategorisedIsPrefixed(b.first.category);
    }
  }

  lemma UncategorisedIsPrefixed(category: string)
    ensures StartsWith(UncategorisedPrefix + category + ")", UncategorisedPrefix)
  {
    assert (UncategorisedPrefix + category + ")")[..|UncategorisedPrefix|] == UncategorisedPrefix;
  }

  /** The transaction that opened a group is a counted expense of the list,
      shown under the group's name. */
  lemma FirstIsShownUnderKey(filtered: seq<Transaction>, cats: seq<Category>, j: nat)
    requires j < |Buckets(filtered, cats)|
    ensures var b := Buckets(filtered, cats)[j];
      b.first in filtered && Counted(b.first) && DisplayName(b.first, cats) == b.key
  {
    Grouping.BucketsHaveWitnesses(Key(cats), HasCategory, Seqs.Filter(IsExpense, filtered));
  }

  /** When every counted expense names an existing category, each slice is
      named after a category and carries that category's colour and icon. */
  lemma KnownCategoriesColourSlices(filtered: seq<Transaction>, cats: seq<Category>)
    requires forall i :: 0 <= i < |filtered| && Counted(filtered[i]) ==> FindByName(cats, filtered[i].category).Some?
    ensures var r := SpendingByCategory(filtered, cats);
      forall i :: 0 <= i < |r| ==>
        FindByName(cats, r[i].name).Some? &&
        r[i].color == FindByName(cats, r[i].name).value.color &&
        r[i].icon == FindByName(cats, r[i].name).value.icon
  {
    var r := SpendingByCategory(filtered, cats);
    forall i | 0 <= i < |r|
      ensures FindByName(cats, r[i].name).Some?
      ensures r[i].color == FindByName(cats, r[i].name).value.color
      ensures r[i].icon == FindByName(cats, r[i].name).value.icon
    {
      var j := SliceFromBucket(filtered, cats, i);
      FirstIsShownUnderKey(filtered, cats, j);
      var t := Buckets(filtered, cats)[j].first;
      var k :| 0 <= k < |filtered| && filtered[k] == t;
    }
  }

  lemma SlicesSum(g: seq<Grouping.Bucket<Transaction>>, cats: seq<Category>)
    ensures Seqs.SumOf(SliceValue, Slices(g, cats)) == Seqs.SumOf(BucketAmount, g)
  {
    if |g| > 0 {
      SlicesSum(Seqs.Init(g), cats);
      assert Seqs.Init(Slices(g, cats)) == Slices(Seqs.Init(g), cats);
    }
  }

  /** The slice values add up to the counted expenses, or to 0 with no
      categories loaded. */
  lemma SlicesAddUpCountedExpenses(filtered: seq<Transaction>, cats: seq<Category>)
    ensures Seqs.SumOf(SliceValue, SpendingByCategory(filtered, cats)) ==
      if |cats| == 0 then 0.0 else Seqs.SumOf(Amount, Seqs.Filter(Counted, filtered))
  {
    if |filtered| > 0 && |cats| > 0 {
      var ex := Seqs.Filter(IsExpense, filtered);
      var g := Buckets(filtered, cats);
      ValueGeTotal();
      Seqs.SumOfSort(SliceValue, ValueGe, Slices(g, cats));
      SlicesSum(g, cats);
      Grouping.GroupSum(Key(cats), HasCategory, ex, Amount, BucketAmount);
      Seqs.FilterFilter(HasCategory, IsExpense, Counted, filtered);
    } else if |cats| > 0 {
      assert Seqs.Filter(Counted, filtered) == [];
    }
  }

  // ---------------------------------------------------------------------------
  // The code as written: a plain object as the map
  // ---------------------------------------------------------------------------

  /** The transactions the written code actually records. */
  predicate RecordedAsWritten(cats: seq<Category>, t: Transaction) {
    HasCategory(t) && DisplayName(t, cats) !in Grouping.PrototypeKeys
  }

  /** `spendingByCategory` as written. */
  function SpendingAsWritten(filtered: seq<Transaction>, cats: seq<Category>): (r: seq<Slice>)
    ensures |filtered| == 0 || |cats| == 0 ==> r == []
    ensures Seqs.SortedBy(ValueGe, r)
  {
    if |filtered| == 0 || |cats| == 0 then []
    else
      ValueGeTotal();
      var g := Grouping.Group(Key(cats), t => RecordedAsWritten(cats, t), Seqs.Filter(IsExpense, filtered));
      Seqs.Sort(ValueGe, Slices(g, cats))
  }

  /** When no expense is shown under a name of an `Object.prototype` member,
      the written breakdown is the intended one. */
  lemma AsWrittenAgreesOffPrototypeKeys(filtered: seq<Transaction>, cats: seq<Category>)
    requires forall i :: 0 <= i < |filtered| && filtered[i].kind == Expense ==>
      DisplayName(filtered[i], cats) !in Grouping.PrototypeKeys
    ensures SpendingAsWritten(filtered, cats) == SpendingByCategory(filtered, cats)
  {
    var e := Seqs.Filter(IsExpense, filtered);
    forall i | 0 <= i < |e|
      ensures RecordedAsWritten(cats, e[i]) == HasCategory(e[i])
    {
      assert e[i] in filtered && IsExpense(e[i]);
    }
    Grouping.GroupCongruent(Key(cats), t => RecordedAsWritten(cats, t), HasCategory, e);
  }

  /** A category named `toString` with one expense of 10: the written code
      shows no slice at all (and a total of 0), where the intended breakdown
      shows one slice of 10. */
  lemma PrototypeNamedCategoryIsLost()
    ensures var cats := [Category("c1", "u1", "toString", None, None)];
            var ts := [Transaction("t1", "u1", Expense, 10.0, "toString", "2024-05-01", None)];
            SpendingAsWritten(ts, cats) == [] &&
            SpendingByCategory(ts, cats) == [Slice("toString", 10.0, None, None)]
  {
    var cats := [Category("c1", "u1", "toString", None, None)];
    var t := Transaction("t1", "u1", Expense, 10.0, "toString", "2024-05-01", None);
    var ts := [t];
    assert FindByName(cats, "toString") == Some(cats[0]);
    assert DisplayName(t, cats) == "toString";
    assert !IsBlank("toString") by {
      assert !IsSpace("toString"[0]);
      BlankIffAllSpace("toString");
    }
    Seqs.FilterSingleton(IsExpense, t);
    OneExpenseGroups(cats, t, t => RecordedAsWritten(cats, t));
    OneExpenseGroups(cats, t, HasCategory);
    var b := Grouping.Bucket("toString", t, [t]);
    assert Seqs.SumOf(Amount, [t]) == 10.0 by {
      assert Seqs.Init([t]) == [];
    }
    assert Slices([b], cats) == [Slice("toString", 10.0, None, None)];
    ValueGeTotal();
    SortSingleton(Slice("toString", 10.0, None, None));
  }

  /** Grouping one transaction: one group if it is kept, none otherwise. */
  lemma OneExpenseGroups(cats: seq<Category>, t: Transaction, keep: Transaction -> bool)
    ensures Grouping.Group(Key(cats), keep, [t]) ==
      if keep(t) then [Grouping.Bucket(DisplayName(t, cats), t, [t])] else []
  {
    assert Seqs.Init([t]) == [];
    assert Grouping.Group(Key(cats), keep, []) == [];
  }

  lemma SortSingleton(s: Slice)
    ensures Seqs.Total(ValueGe) && Seqs.Sort(ValueGe, [s]) == [s]
  {
    ValueGeTotal();
    assert Seqs.Init([s]) == [];
  }
}

=== FILE: text.dfy ===
/** The few JavaScript string operations the application relies on:
    `trim`, `startsWith`, `split`, `String(n)`, `padStart(2, '0')`,
    `Number(digits)` and the code-unit order used by `Array.prototype.sort`. */
module Text {
  import opened Wrappers

  // ---------------------------------------------------------------------------
  // Whitespace and trim
  // ---------------------------------------------------------------------------

  /** The whitespace and line terminators that `String.prototype.trim` strips
      (the space separators of Unicode category Zs other than U+0020 and U+00A0
      are not listed). */
  predicate IsSpace(c: char) {
    c == ' ' || c == '\t' || c == '\n' || c == '\r' || c == '\U{000B}' || c == '\U{000C}'
    || c == '\U{00A0}' || c == '\U{FEFF}' || c == '\U{2028}' || c == '\U{2029}'
  }

  /** How many white-space characters `s` starts with. */
  function LeadingSpaces(s: string): (n: nat)
    ensures n <= |s|
    ensures forall i :: 0 <= i < n ==> IsSpace(s[i])
    ensures n == |s| || !IsSpace(s[n])
  {
    if |s| > 0 && IsSpace(s[0]) then 1 + LeadingSpaces(s[1..]) else 0
  }

  /** How many white-space characters `s` ends with. */
  function TrailingSpaces(s: string): (n: nat)
    ensures n <= |s|
    ensures forall i :: |s| - n <= i < |s| ==> IsSpace(s[i])
    ensures n == |s| || !IsSpace(s[|s| - n - 1])
  {
    if |s| > 0 && IsSpace(s[|s| - 1]) then 1 + TrailingSpaces(s[..|s| - 1]) else 0
  }

  /** `s.trim()`: the slice of `s` that starts after its leading white
      space and ends where only white space is left. */
  function Trim(s: string): (r: string)
    ensures |r| <= |s|
    ensures r == "" || (!IsSpace(r[0]) && !IsSpace(r[|r| - 1]))
    ensures LeadingSpaces(s) + |r| <= |s| && r == s[LeadingSpaces(s)..LeadingSpaces(s) + |r|]
    ensures forall i :: LeadingSpaces(s) + |r| <= i < |s| ==> IsSpace(s[i])
  {
    var a := LeadingSpaces(s);
    if a == |s| then "" else s[a..|s| - TrailingSpaces(s)]
  }

  /** `!s.trim()`: the string is empty or all whitespace. */
  predicate IsBlank(s: string) {
    Trim(s) == ""
  }

  lemma BlankIffAllSpace(s: string)
    ensures IsBlank(s) <==> forall i :: 0 <= i < |s| ==> IsSpace(s[i])
  {
  }

  /** A trimmed string that is not blank is itself non-empty and not blank. */
  lemma TrimNotBlank(s: string)
    requires !IsBlank(s)
    ensures Trim(s) != "" && !IsBlank(Trim(s))
  {
    var t := Trim(s);
    assert !IsSpace(t[0]);
    BlankIffAllSpace(t);
  }

  // ---------------------------------------------------------------------------
  // Searching and splitting
  // ---------------------------------------------------------------------------

  /** `s.startsWith(p)`. */
  predicate StartsWith(s: string, p: string) {
    |p| <= |s| && s[..|p|] == p
  }

  /** `p` occurs in `s` at index `j`. */
  predicate OccursAt(s: string, p: string, j: nat) {
    j + |p| <= |s| && s[j..j + |p|] == p
  }

  /** The first index at or after `k` where `p` occurs in `s` (`s.indexOf(p, k)`). */
  function FindFrom(s: string, p: string, k: nat): (r: Option<nat>)
    ensures r.Some? ==> k <= r.value && OccursAt(s, p, r.value)
    ensures r.Some? ==> forall j :: k <= j < r.value ==> !OccursAt(s, p, j)
    ensures r.None? ==> forall j :: k <= j ==> !OccursAt(s, p, j)
    decreases |s| - k
  {
    if k + |p| > |s| then None
    else if s[k..k + |p|] == p then Some(k)
    else FindFrom(s, p, k + 1)
  }

  /** `s.includes(p)`. */
  predicate Contains(s: string, p: string) {
    FindFrom(s, p, 0).Some?
  }

  /** `s.split(sep)[1]`: the text between the first and the second occurrence of
      `sep` (or the end of `s`); `None` (`undefined`) when `sep` does not occur. */
  function SplitSecond(s: string, sep: string): (r: Option<string>)
    requires sep != ""
    ensures r.None? <==> !Contains(s, sep)
    ensures r.Some? ==> Contains(s, sep) && !Contains(r.value, sep)
    ensures r.Some? ==>
      var st := FindFrom(s, sep, 0).value + |sep|;
      st + |r.value| <= |s| && r.value == s[st..st + |r.value|]
    ensures r.Some? ==>
      var st := FindFrom(s, sep, 0).value + |sep|;
      st + |r.value| == |s| || OccursAt(s, sep, st + |r.value|)
    ensures r.Some? ==>
      var st := FindFrom(s, sep, 0).value + |sep|;
      forall j :: st <= j < st + |r.value| ==> !OccursAt(s, sep, j)
  {
    match FindFrom(s, sep, 0)
    case None => None
    case Some(i) =>
      var st := i + |sep|;
      match FindFrom(s, sep, st)
      case None =>
        NoOccurrenceInSuffix(s, sep, st);
        Some(s[st..])
      case Some(j) =>
        NoOccurrenceInSlice(s, sep, st, j);
        Some(s[st..j])
  }

  lemma NoOccurrenceInSuffix(s: string, p: string, st: nat)
    requires st <= |s|
    requires forall j :: st <= j ==> !OccursAt(s, p, j)
    ensures !Contains(s[st..], p)
  {
    var t := s[st..];
    if FindFrom(t, p, 0).Some? {
      var j := FindFrom(t, p, 0).value;
      assert s[st + j..st + j + |p|] == t[j..j + |p|];
      assert OccursAt(s, p, st + j);
    }
  }

  lemma NoOccurrenceInSlice(s: string, p: string, st: nat, e: nat)
    requires p != ""
    requires st <= e <= |s|
    requires forall j :: st <= j < e ==> !OccursAt(s, p, j)
    ensures !Contains(s[st..e], p)
  {
    OccursInSlice(s, p, st, e, FindFrom(s[st..e], p, 0).GetOr(0));
  }

  /** An occurrence in a slice is an occurrence in the whole string. */
  lemma OccursInSlice(s: string, p: string, st: nat, e: nat, j: nat)
    requires st <= e <= |s|
    ensures OccursAt(s[st..e], p, j) ==> st + j + |p| <= e && OccursAt(s, p, st + j)
  {
    var t := s[st..e];
    if OccursAt(t, p, j) {
      var u := s[st + j..st + j + |p|];
      forall k | 0 <= k < |p| ensures u[k] == p[k] {
        assert u[k] == t[j + k] == t[j..j + |p|][k];
      }
      assert u == p;
    }
  }

  /** `s.split(c)[0]`: everything before the first `c`, or all of `s`. */
  function BeforeFirst(s: string, c: char): (r: string)
    ensures |r| <= |s| && r == s[..|r|]
    ensures c !in r
    ensures r == s || s[|r|] == c
  {
    if |s| == 0 || s[0] == c then "" else [s[0]] + BeforeFirst(s[1..], c)
  }

  // ---------------------------------------------------------------------------
  // Decimal numbers
  // ---------------------------------------------------------------------------

  predicate IsDigit(c: char) {
    '0' <= c <= '9'
  }

  predicate IsDigits(s: string) {
    forall i :: 0 <= i < |s| ==> IsDigit(s[i])
  }

  function DigitValue(c: char): nat
    requires IsDigit(c)
  {
    c as int - '0' as int
  }

  function DigitChar(d: nat): (c: char)
    requires d < 10
    ensures IsDigit(c) && DigitValue(c) == d
  {
    ('0' as int + d) as char
  }

  /** `Number(s)` for a string of decimal digits (`Number('') == 0`). */
  function ValueOf(s: string): nat
    requires IsDigits(s)
  {
    if |s| == 0 then 0 else ValueOf(s[..|s| - 1]) * 10 + DigitValue(s[|s| - 1])
  }

  /** `String(n)` for a non-negative integer: its shortest decimal spelling. */
  function NatToString(n: nat): (r: string)
    ensures |r| > 0 && IsDigits(r)
    ensures ValueOf(r) == n
    ensures r[0] == '0' ==> n == 0
  {
    if n < 10 then [DigitChar(n)]
    else
      var r := NatToString(n / 10) + [DigitChar(n % 10)];
      assert r[..|r| - 1] == NatToString(n / 10);
      r
  }

  /** `String(i)` for any integer. */
  function IntToString(i: int): (r: string)
    ensures |r| > 0
    ensures i >= 0 ==> r == NatToString(i)
    ensures i < 0 ==> r[0] == '-'
  {
    if i < 0 then "-" + NatToString(-i) else NatToString(i)
  }

  /** `String(n).padStart(2, '0')`. */
  function Pad2(n: int): (r: string)
    ensures 0 <= n < 100 ==> |r| == 2 && IsDigits(r) && ValueOf(r) == n
  {
    var s := IntToString(n);
    assert 10 <= n < 100 ==> s == NatToString(n / 10) + [DigitChar(n % 10)];
    if |s| < 2 then
      var r := "0" + s;
      assert r[..1] == "0";
      r
    else s
  }

  /** Four-digit numbers are spelled with exactly four digits. */
  lemma FourDigits(n: nat)
    requires 1000 <= n <= 9999
    ensures |NatToString(n)| == 4
  {
    assert NatToString(n) == NatToString(n / 10) + [DigitChar(n % 10)];
    assert NatToString(n / 10) == NatToString(n / 100) + [DigitChar(n / 10 % 10)];
    assert NatToString(n / 100) == NatToString(n / 1000) + [DigitChar(n / 100 % 10)];
  }

  // ---------------------------------------------------------------------------
  // Code-unit (lexicographic) order, as used by the default `Array.prototype.sort`
  // ---------------------------------------------------------------------------

  predicate LexLe(a: string, b: string) {
    |a| == 0 || (|b| > 0 && (a[0] < b[0] || (a[0] == b[0] && LexLe(a[1..], b[1..]))))
  }

  lemma {:induction false} LexLeTotal(a: string, b: string)
    ensures LexLe(a, b) || LexLe(b, a)
  {
    if |a| > 0 && |b| > 0 && a[0] == b[0] {
      LexLeTotal(a[1..], b[1..]);
    }
  }

  lemma {:induction false} LexLeAntisymmetric(a: string, b: string)
    requires LexLe(a, b) && LexLe(b, a)
    ensures a == b
  {
    if |a| > 0 && |b| > 0 {
      LexLeAntisymmetric(a[1..], b[1..]);
      assert a == [a[0]] + a[1..];
      assert b == [b[0]] + b[1..];
    }
  }

  function Pow10(k: nat): (r: nat)
    ensures r > 0
  {
    if k == 0 then 1 else 10 * Pow10(k - 1)
  }

  lemma {:induction false} ValueBelowPow10(s: string)
    requires IsDigits(s)
    ensures ValueOf(s) < Pow10(|s|)
  {
    if |s| > 0 {
      ValueBelowPow10(s[..|s| - 1]);
    }
  }

  /** `Number(x + y)` shifts `x` by the length of `y`. */
  lemma {:induction false} ValueOfAppend(x: string, y: string)
    requires IsDigits(x) && IsDigits(y)
    ensures IsDigits(x + y)
    ensures ValueOf(x + y) == ValueOf(x) * Pow10(|y|) + ValueOf(y)
  {
    var xy := x + y;
    if |y| > 0 {
      var y0 := y[..|y| - 1];
      assert xy[..|xy| - 1] == x + y0;
      assert xy[|xy| - 1] == y[|y| - 1];
      ValueOfAppend(x, y0);
      var d := DigitValue(y[|y| - 1]);
      assert ValueOf(xy) == ValueOf(x + y0) * 10 + d;
      assert ValueOf(y) == ValueOf(y0) * 10 + d;
      ShiftDigit(ValueOf(x), Pow10(|y0|), ValueOf(y0), d);
    } else {
      assert xy == x;
    }
  }

  lemma ShiftDigit(a: int, p: int, v: int, d: int)
    ensures (a * p + v) * 10 + d == a * (10 * p) + (v * 10 + d)
  {
  }

  /** `Number(s)` splits into the leading digit, scaled, and the rest. */
  lemma ValueOfHead(s: string)
    requires IsDigits(s) && |s| > 0
    ensures ValueOf(s) == DigitValue(s[0]) * Pow10(|s| - 1) + ValueOf(s[1..])
    ensures ValueOf(s[1..]) < Pow10(|s| - 1)
  {
    assert s == s[..1] + s[1..];
    ValueOfAppend(s[..1], s[1..]);
    assert s[..1][..0] == [];
    assert ValueOf(s[..1]) == DigitValue(s[0]);
    ValueBelowPow10(s[1..]);
  }

  lemma LeadingDigitDecides(da: nat, db: nat, va: nat, vb: nat, p: nat)
    requires da < db && va < p
    ensures da * p + va < db * p + vb
  {
    var k := db - da - 1;
    assert db * p == da * p + k * p + p;
    assert k * p >= 0;
  }

  /** For digit strings of equal length, code-unit order is numeric order. */
  lemma {:induction false} LexLeIsNumeric(a: string, b: string)
    requires IsDigits(a) && IsDigits(b) && |a| == |b|
    ensures LexLe(a, b) <==> ValueOf(a) <= ValueOf(b)
  {
    if |a| > 0 {
      var p := Pow10(|a| - 1);
      ValueOfHead(a);
      ValueOfHead(b);
      LexLeIsNumeric(a[1..], b[1..]);
      var da, db := DigitValue(a[0]), DigitValue(b[0]);
      if da < db {
        LeadingDigitDecides(da, db, ValueOf(a[1..]), ValueOf(b[1..]), p);
      } else if db < da {
        LeadingDigitDecides(db, da, ValueOf(b[1..]), ValueOf(a[1..]), p);
      }
    }
  }
}

=== FILE: transaction_form.dfy ===
/** The add/edit form of `TransactionFormModal.tsx`: its fields, the two
    effects that initialise them when the modal opens, the inline "new
    category" button and the submit validation. Alerts are the `Failure`
    values; "now" is a parameter. */
module TransactionForm {
  import opened Wrappers
  import opened Text
  import opened Calendar
  import opened Entities
  import CategoriesSlice
  import Seqs
  import Dashboard

  /** The form's `useState` fields; an `amount` of `''` is `None`. */
  datatype Form = Form(
    kind: TxType,
    amount: Option<real>,
    selectedCategoryId: string,
    date: string,
    comment: string,
    showNewCategoryInput: bool,
    newCategoryName: string)

  /** The initial `useState` values. */
  const Initial := Form(Expense, None, "", "", "", false, "")

  /** Some category has this id (`categories.some(cat => cat.id === id)`). */
  predicate IsCategoryId(cats: seq<Category>, id: string) {
    exists k :: 0 <= k < |cats| && cats[k].id == id
  }

  // ---------------------------------------------------------------------------
  // Effects run when the modal opens
  // ---------------------------------------------------------------------------

  /** Effect 1: an open modal hides the new-category input and clears its text. */
  function ResetNewCategory(f: Form, isOpen: bool): (r: Form)
    ensures !isOpen ==> r == f
    ensures isOpen ==> !r.showNewCategoryInput && r.newCategoryName == ""
    ensures r.(showNewCategoryInput := f.showNewCategoryInput, newCategoryName := f.newCategoryName) == f
  {
    if isOpen then f.(showNewCategoryInput := false, newCategoryName := "") else f
  }

  /** The category an edited transaction starts with: the id of the first
      category with its name, or `''`. */
  function CategoryIdFor(cats: seq<Category>, name: string): (r: string)
    ensures FindByName(cats, name).None? ==> r == ""
    ensures r != "" ==> exists k :: 0 <= k < |cats| && cats[k].id == r && cats[k].name == name
    ensures forall k ::
      (0 <= k < |cats| && cats[k].name == name && forall j :: 0 <= j < k ==> cats[j].name != name)
      ==> r == cats[k].id
  {
    match FindByName(cats, name)
    case Some(c) => c.id
    case None => ""
  }

  /** The selection a new transaction keeps or falls back to: a selection that
      is a category id stays, otherwise the first category, otherwise `''`. */
  function DefaultSelection(cats: seq<Category>, selected: string): (r: string)
    ensures IsCategoryId(cats, selected) ==> r == selected
    ensures |cats| > 0 ==> IsCategoryId(cats, r)
    ensures |cats| == 0 ==> r == ""
  {
    if IsCategoryId(cats, selected) then selected
    else if |cats| > 0 then cats[0].id
    else ""
  }

  /** Effect 2: on open, copy the edited transaction into the fields (its date
      cut at `'T'`, a missing comment as `''`, the category by name), or reset
      the fields for a new one, dated today. */
  function InitFields(f: Form, isOpen: bool, toEdit: Option<Transaction>, cats: seq<Category>, now: DateTime): (r: Form)
    ensures !isOpen ==> r == f
    ensures r.showNewCategoryInput == f.showNewCategoryInput && r.newCategoryName == f.newCategoryName
    ensures isOpen && toEdit.Some? ==>
      r.kind == toEdit.value.kind && r.amount == Some(toEdit.value.amount) &&
      StartsWith(toEdit.value.date, r.date) && 'T' !in r.date &&
      r.comment == toEdit.value.comment.GetOr("")
    ensures isOpen && toEdit.Some? && r.selectedCategoryId != "" ==>
      exists k :: 0 <= k < |cats| && cats[k].id == r.selectedCategoryId && cats[k].name == toEdit.value.category
    ensures isOpen && toEdit.None? ==>
      r.kind == Expense && r.amount.None? && r.date == IsoDate(now) && r.comment == ""
    ensures isOpen && toEdit.None? && f.showNewCategoryInput ==> r.selectedCategoryId == f.selectedCategoryId
    ensures isOpen && toEdit.None? && !f.showNewCategoryInput && |cats| > 0 ==> IsCategoryId(cats, r.selectedCategoryId)
  {
    if !isOpen then f
    else match toEdit {
      case Some(t) =>
        f.(kind := t.kind, amount := Some(t.amount), date := BeforeFirst(t.date, 'T'),
           comment := OrElse(t.comment.GetOr(""), ""), selectedCategoryId := CategoryIdFor(cats, t.category))
      case None =>
        var selected := if f.showNewCategoryInput then f.selectedCategoryId
                        else DefaultSelection(cats, f.selectedCategoryId);
        f.(kind := Expense, amount := None, date := IsoDate(now), comment := "", selectedCategoryId := selected)
    }
  }

  /** The form once both effects have run on opening the modal. */
  function Opened(f: Form, toEdit: Option<Transaction>, cats: seq<Category>, now: DateTime): Form {
    InitFields(ResetNewCategory(f, true), true, toEdit, cats, now)
  }

  /** Effect 2 re-runs whenever the selection it sets changes; once it has
      run, a second run changes nothing, so the re-render loop stops. */
  lemma InitFieldsSettles(f: Form, isOpen: bool, toEdit: Option<Transaction>, cats: seq<Category>, now: DateTime)
    ensures var g := InitFields(f, isOpen, toEdit, cats, now);
      InitFields(g, isOpen, toEdit, cats, now) == g
  {
  }

  /** The two effects of the opening render see the stale `showNewCategoryInput`;
      the re-run that its reset triggers ends in the same form as running
      Effect 1 first, and that form is stable under both effects. */
  lemma OpenedIsStable(f: Form, toEdit: Option<Transaction>, cats: seq<Category>, now: DateTime)
    ensures var o := Opened(f, toEdit, cats, now);
      InitFields(ResetNewCategory(InitFields(f, true, toEdit, cats, now), true), true, toEdit, cats, now) == o &&
      ResetNewCategory(o, true) == o &&
      InitFields(o, true, toEdit, cats, now) == o
  {
  }

  /** A new transaction's proposed date reads back as today, so the period
      filter and the newest-first order place it on the day it was entered. */
  lemma NewFormDatedToday(f: Form, cats: seq<Category>, now: DateTime)
    requires Valid(now) && 0 <= now.year <= 9999
    ensures ParseDate(Opened(f, None, cats, now).date) == Some(now.(ms := 0))
  {
    ParseIsoDate(now);
  }

  // ---------------------------------------------------------------------------
  // The inline "new category" button
  // ---------------------------------------------------------------------------

  /** `handleAddNewCategory()`: a blank name is refused before anything is
      dispatched; otherwise `addCategory({ name: name.trim() })` runs, and when
      it is fulfilled the new category is selected and the input closes. A
      rejected add leaves the form as it was. */
  function AddNewCategory(f: Form, user: Option<User>, answer: Result<Category, Thrown>)
    : (r: (Form, Option<CategoriesSlice.Dispatched>))
    ensures r.1.None? <==> IsBlank(f.newCategoryName)
    ensures r.1.None? ==> r.0 == f
    ensures r.1.Some? && r.1.value.call.Some? ==>
      r.1.value.call.value.Post? && r.1.value.call.value.data.name == Trim(f.newCategoryName) &&
      !IsBlank(r.1.value.call.value.data.name)
    ensures r.0 != f ==>
      HasUserId(user) && answer.Success? &&
      r.0.selectedCategoryId == answer.value.id && !r.0.showNewCategoryInput && r.0.newCategoryName == ""
  {
    if IsBlank(f.newCategoryName) then (f, None)
    else
      var name := Trim(f.newCategoryName);
      TrimNotBlank(f.newCategoryName);
      var d := CategoriesSlice.AddCategory(user, CategoryDraft(name, None, None), answer);
      if HasUserId(user) && answer.Success? then
        (f.(selectedCategoryId := answer.value.id, showNewCategoryInput := false, newCategoryName := ""), Some(d))
      else (f, Some(d))
  }

  /** A fulfilled add puts the new category at the end of the store's list and
      selects it; the next run of Effect 2 for a new transaction keeps that
      selection because it is now a category id. */
  lemma AddedCategoryStaysSelected(f: Form, user: Option<User>, answer: Result<Category, Thrown>,
                                   s: CategoriesSlice.State, now: DateTime)
    requires !IsBlank(f.newCategoryName) && HasUserId(user) && answer.Success?
    ensures var (g, d) := AddNewCategory(f, user, answer);
      var s2 := CategoriesSlice.Run(s, d.value.actions);
      s2.items == s.items + [answer.value] &&
      g.selectedCategoryId == answer.value.id &&
      InitFields(g, true, None, s2.items, now).selectedCategoryId == answer.value.id
  {
    var (g, d) := AddNewCategory(f, user, answer);
    CategoriesSlice.AddOutcome(s, user, CategoryDraft(Trim(f.newCategoryName), None, None), answer);
    var s2 := CategoriesSlice.Run(s, d.value.actions);
    assert s2.items[|s.items|] == answer.value;
    assert IsCategoryId(s2.items, answer.value.id);
  }

  // ---------------------------------------------------------------------------
  // Submit
  // ---------------------------------------------------------------------------

  /** The three alerts of `handleSubmit`, in the order they are checked. */
  datatype FormError = AmountNotPositive | NoCategory | NoDate

  /** `categories.find(cat => cat.id === id)?.name || ''`. */
  function CategoryName(cats: seq<Category>, id: string): (r: string)
    ensures !IsCategoryId(cats, id) ==> r == ""
    ensures r != "" ==> exists k :: 0 <= k < |cats| && cats[k].id == id && cats[k].name == r
    ensures forall k ::
      (0 <= k < |cats| && cats[k].id == id && forall j :: 0 <= j < k ==> cats[j].id != id)
      ==> r == cats[k].name
  {
    match Seqs.FirstIndex(CategoryId, cats, id)
    case None => ""
    case Some(k) => OrElse(cats[k].name, "")
  }

  /** `handleSubmit(e)`: the alert it shows, or what it passes to `onSubmit`. */
  function HandleSubmit(f: Form, toEdit: Option<Transaction>, cats: seq<Category>): (r: Result<TransactionInput, FormError>)
    ensures r.Success? <==>
      f.amount.Some? && f.amount.value > 0.0 &&
      (f.selectedCategoryId != "" || f.showNewCategoryInput) && f.date != ""
    ensures r.Failure? ==>
      (r.error == AmountNotPositive <==> f.amount.None? || f.amount.value <= 0.0)
    ensures r.Failure? && r.error == NoDate ==> f.date == "" && (f.selectedCategoryId != "" || f.showNewCategoryInput)
    ensures r.Failure? && r.error == NoCategory ==> f.selectedCategoryId == "" && !f.showNewCategoryInput
    ensures f.amount.Some? && f.amount.value > 0.0 && f.selectedCategoryId == "" && !f.showNewCategoryInput ==>
      r == Failure(NoCategory)
    ensures f.amount.Some? && f.amount.value > 0.0 && (f.selectedCategoryId != "" || f.showNewCategoryInput) && f.date == "" ==>
      r == Failure(NoDate)
    ensures r.Success? ==> r.value.id == (if toEdit.Some? then Some(toEdit.value.id) else None)
    ensures r.Success? ==>
      r.value.draft.kind == f.kind && r.value.draft.amount == f.amount.value &&
      r.value.draft.date == f.date && r.value.draft.comment == Some(f.comment)
    ensures r.Success? && r.value.draft.category != "" ==>
      exists k :: 0 <= k < |cats| && cats[k].id == f.selectedCategoryId && cats[k].name == r.value.draft.category
  {
    if f.amount.None? || f.amount.value <= 0.0 then Failure(AmountNotPositive)
    else if f.selectedCategoryId == "" && !f.showNewCategoryInput then Failure(NoCategory)
    else if f.date == "" then Failure(NoDate)
    else
      var draft := TransactionDraft(f.kind, f.amount.value, CategoryName(cats, f.selectedCategoryId), f.date, Some(f.comment));
      Success(TransactionInput(if toEdit.Some? then Some(toEdit.value.id) else None, draft))
  }

  /** With the new-category input open and nothing selected the form submits
      an empty category name (no category has the empty id). */
  lemma OpenInputSubmitsNoCategory(f: Form, toEdit: Option<Transaction>, cats: seq<Category>)
    requires f.amount.Some? && f.amount.value > 0.0 && f.date != ""
    requires f.showNewCategoryInput && f.selectedCategoryId == ""
    requires !IsCategoryId(cats, "")
    ensures HandleSubmit(f, toEdit, cats).Success?
    ensures HandleSubmit(f, toEdit, cats).value.draft.category == ""
  {
  }

  /** With distinct category ids, the submitted category is the name of the
      selected category. */
  lemma SubmittedCategoryIsSelected(f: Form, toEdit: Option<Transaction>, cats: seq<Category>, k: nat)
    requires CategoriesSlice.IdsDistinct(cats)
    requires k < |cats| && cats[k].id == f.selectedCategoryId
    requires HandleSubmit(f, toEdit, cats).Success?
    ensures HandleSubmit(f, toEdit, cats).value.draft.category == cats[k].name
  {
    var j := Seqs.FirstIndex(CategoryId, cats, f.selectedCategoryId).value;
    assert cats[j].id == cats[k].id;
  }

  // ---------------------------------------------------------------------------
  // From the form to the dashboard
  // ---------------------------------------------------------------------------

  /** Opening the form on a transaction and submitting it untouched sends the
      transaction's own fields back (the date cut at `'T'`, the comment made a
      string), and the dashboard dispatches an edit of that transaction. This
      needs its category to exist under distinct, non-empty ids, a positive
      amount, and a non-empty date. */
  lemma UnchangedEditResubmits(f: Form, t: Transaction, cats: seq<Category>, now: DateTime)
    requires CategoriesSlice.IdsDistinct(cats)
    requires forall k :: 0 <= k < |cats| ==> cats[k].id != ""
    requires FindByName(cats, t.category).Some?
    requires t.amount > 0.0 && t.id != ""
    requires BeforeFirst(t.date, 'T') != ""
    ensures var r := HandleSubmit(Opened(f, Some(t), cats, now), Some(t), cats);
      r.Success? &&
      r.value == TransactionInput(Some(t.id), TransactionDraft(
        t.kind, t.amount, t.category, BeforeFirst(t.date, 'T'), Some(t.comment.GetOr("")))) &&
      Dashboard.RouteOf(r.value) == Dashboard.ToEdit(t.id, r.value)
  {
    var o := Opened(f, Some(t), cats, now);
    var c := FindByName(cats, t.category).value;
    var k :| 0 <= k < |cats| && cats[k] == c;
    assert o.selectedCategoryId == c.id;
    SubmittedCategoryIsSelected(o, Some(t), cats, k);
  }

  /** Editing a transaction whose category no longer exists starts with no
      selection, so submitting it unchanged is refused until one is chosen. */
  lemma OrphanEditNeedsCategory(f: Form, t: Transaction, cats: seq<Category>, now: DateTime)
    requires FindByName(cats, t.category).None?
    requires t.amount > 0.0
    ensures HandleSubmit(Opened(f, Some(t), cats, now), Some(t), cats) == Failure(NoCategory)
  {
  }

  /** A new transaction is always routed to the add thunk. */
  lemma NewTransactionIsAdded(f: Form, cats: seq<Category>)
    requires HandleSubmit(f, None, cats).Success?
    ensures Dashboard.RouteOf(HandleSubmit(f, None, cats).value) == Dashboard.ToAdd(HandleSubmit(f, None, cats).value.draft)
  {
  }
}

=== FILE: transactions_actions.dfy ===
/** The transaction thunks of `transactions.actions.ts`. A thunk is modelled
    as the service call it makes (if any) and the actions it dispatches, in
    order; the service's answer is a parameter, a `Failure` standing for the
    error it throws. */
module TransactionsActions {
  import opened Wrappers
  import opened Entities
  import opened TransactionsReducer
  import Seqs

  /** The requests of `transactionService.ts`. */
  datatype ServiceCall =
    | GetAll(userId: string)
    | Post(data: NewTransaction)
    | Put(id: string, changes: TransactionInput)
    | Remove(id: string)

  datatype Dispatched = Dispatched(call: Option<ServiceCall>, actions: seq<Action>)

  const NotAuthenticated := "User not authenticated"

  /** `fetchTransactions()`: the request goes out first, even without a user. */
  function FetchTransactions(user: Option<User>, answer: Result<seq<Transaction>, Thrown>): (r: Dispatched)
    ensures |r.actions| == 2 && r.actions[0] == FetchRequest
    ensures r.call.Some? <==> HasUserId(user)
    ensures r.call.Some? ==> r.call.value == GetAll(user.value.id)
  {
    if !HasUserId(user) then
      Dispatched(None, [FetchRequest, FetchFailure(MessageOr(Raise(NotAuthenticated), "Failed to fetch transactions"))])
    else
      Dispatched(Some(GetAll(user.value.id)), [FetchRequest] +
        match answer {
          case Success(list) => [FetchSuccess(list)]
          case Failure(e) => [FetchFailure(MessageOr(e, "Failed to fetch transactions"))]
        })
  }

  /** `addTransaction(details)`: the user is checked BEFORE the request is
      dispatched, so an anonymous add dispatches only the failure. */
  function AddTransaction(user: Option<User>, details: TransactionDraft, answer: Result<Transaction, Thrown>): (r: Dispatched)
    ensures r.call.Some? <==> HasUserId(user)
    ensures r.call.Some? ==> r.call.value == Post(WithOwner(details, user.value.id))
    ensures !HasUserId(user) ==> r.actions == [AddFailure(NotAuthenticated)]
    ensures HasUserId(user) ==> |r.actions| == 2 && r.actions[0] == AddRequest(WithOwner(details, user.value.id))
    ensures HasUserId(user) && answer.Success? ==> r.actions[1] == AddSuccess(answer.value)
    ensures HasUserId(user) && answer.Failure? ==> r.actions[1].AddFailure?
  {
    if !HasUserId(user) then
      Dispatched(None, [AddFailure(MessageOr(Raise(NotAuthenticated), "Failed to add transaction"))])
    else
      var data := WithOwner(details, user.value.id);
      Dispatched(Some(Post(data)), [AddRequest(data)] +
        match answer {
          case Success(t) => [AddSuccess(t)]
          case Failure(e) => [AddFailure(MessageOr(e, "Failed to add transaction"))]
        })
  }

  /** `editTransaction(id, data)`: no user check. */
  function EditTransaction(id: string, data: TransactionInput, answer: Result<Transaction, Thrown>): (r: Dispatched)
    ensures r.call == Some(Put(id, data))
    ensures |r.actions| == 2 && r.actions[0] == EditRequest(id, data)
  {
    Dispatched(Some(Put(id, data)), [EditRequest(id, data)] +
      match answer {
        case Success(t) => [EditSuccess(t)]
        case Failure(e) => [EditFailure(MessageOr(e, "Failed to edit transaction"))]
      })
  }

  /** `deleteTransaction(id)`: no user check; success echoes the id back. */
  function DeleteTransaction(id: string, answer: Result<(), Thrown>): (r: Dispatched)
    ensures r.call == Some(Remove(id))
    ensures |r.actions| == 2 && r.actions[0] == DeleteRequest(id)
  {
    Dispatched(Some(Remove(id)), [DeleteRequest(id)] +
      match answer {
        case Success(_) => [DeleteSuccess(id)]
        case Failure(e) => [DeleteFailure(MessageOr(e, "Failed to delete transaction"))]
      })
  }

  // ---------------------------------------------------------------------------
  // What each thunk does to the store
  // ---------------------------------------------------------------------------

  /** A fetch either installs the server's list with no error, or keeps the
      list and records why it failed; either way the spinner ends off. */
  lemma FetchOutcome(s: State, user: Option<User>, answer: Result<seq<Transaction>, Thrown>)
    ensures var r := Run(s, FetchTransactions(user, answer).actions);
      !r.loading &&
      (HasUserId(user) && answer.Success? ==> r == State(answer.value, false, None)) &&
      (HasUserId(user) && answer.Failure? ==>
         r == State(s.items, false, Some(MessageOr(answer.error, "Failed to fetch transactions")))) &&
      (!HasUserId(user) ==> r == State(s.items, false, Some(NotAuthenticated)))
  {
    var d := FetchTransactions(user, answer);
    Seqs.RunPair(Reduce, s, d.actions[0], d.actions[1]);
    assert d.actions == [d.actions[0], d.actions[1]];
  }

  /** A successful add appends the server's record and clears the error; a
      failed one keeps the list and records the message. */
  lemma AddOutcome(s: State, user: Option<User>, details: TransactionDraft, answer: Result<Transaction, Thrown>)
    ensures var r := Run(s, AddTransaction(user, details, answer).actions);
      !r.loading &&
      (HasUserId(user) && answer.Success? ==> r == State(s.items + [answer.value], false, None)) &&
      (HasUserId(user) && answer.Failure? ==>
         r == State(s.items, false, Some(MessageOr(answer.error, "Failed to add transaction")))) &&
      (!HasUserId(user) ==> r == State(s.items, false, Some(NotAuthenticated)))
  {
    var d := AddTransaction(user, details, answer);
    if HasUserId(user) {
      Seqs.RunPair(Reduce, s, d.actions[0], d.actions[1]);
      assert d.actions == [d.actions[0], d.actions[1]];
    } else {
      assert Seqs.Init(d.actions) == [];
      assert Run(s, d.actions) == Reduce(Run(s, []), d.actions[0]);
    }
  }

  /** A successful edit replaces every transaction with the returned id. */
  lemma EditOutcome(s: State, id: string, data: TransactionInput, answer: Result<Transaction, Thrown>)
    ensures var r := Run(s, EditTransaction(id, data, answer).actions);
      !r.loading &&
      (answer.Success? ==> r == State(ReplaceById(s.items, answer.value), false, None)) &&
      (answer.Failure? ==>
         r == State(s.items, false, Some(MessageOr(answer.error, "Failed to edit transaction"))))
  {
    var d := EditTransaction(id, data, answer);
    var s1 := Reduce(s, EditRequest(id, data));
    assert d.actions == [EditRequest(id, data), d.actions[1]];
    Seqs.RunPair(Reduce, s, EditRequest(id, data), d.actions[1]);
    match answer {
      case Success(t) =>
        assert Reduce(s1, EditSuccess(t)) == State(ReplaceById(s.items, t), false, None);
      case Failure(e) =>
    }
  }

  /** A successful delete removes exactly the transactions with that id. */
  lemma DeleteOutcome(s: State, id: string, answer: Result<(), Thrown>)
    ensures var r := Run(s, DeleteTransaction(id, answer).actions);
      !r.loading &&
      (answer.Success? ==>
         r.error.None? && forall t :: t in r.items <==> t in s.items && t.id != id) &&
      (answer.Failure? ==>
         r == State(s.items, false, Some(MessageOr(answer.error, "Failed to delete transaction"))))
  {
    var d := DeleteTransaction(id, answer);
    Seqs.RunPair(Reduce, s, d.actions[0], d.actions[1]);
    assert d.actions == [d.actions[0], d.actions[1]];
    DeleteRemovesExactly(s.items, id);
  }
}

=== FILE: transactions_reducer.dfy ===
/** The transactions slice of the store (`transactions.reducer.ts`): the
    list of the user's transactions plus a loading flag and the last error. */
module TransactionsReducer {
  import opened Wrappers
  import opened Entities
  import Seqs

  datatype State = State(items: seq<Transaction>, loading: bool, error: Option<string>)

  const Initial := State([], false, None)

  /** `TransactionActionTypes`; `Unrelated` is any action of another slice. */
  datatype Action =
    | FetchRequest
    | FetchSuccess(list: seq<Transaction>)
    | FetchFailure(message: string)
    | AddRequest(payload: NewTransaction)
    | AddSuccess(added: Transaction)
    | AddFailure(message: string)
    | EditRequest(id: string, data: TransactionInput)
    | EditSuccess(edited: Transaction)
    | EditFailure(message: string)
    | DeleteRequest(deleteId: string)
    | DeleteSuccess(deletedId: string)
    | DeleteFailure(message: string)
    | Unrelated(actionType: string)

  predicate IsRequest(a: Action) {
    a.FetchRequest? || a.AddRequest? || a.EditRequest? || a.DeleteRequest?
  }

  predicate IsSuccess(a: Action) {
    a.FetchSuccess? || a.AddSuccess? || a.EditSuccess? || a.DeleteSuccess?
  }

  predicate IsFailure(a: Action) {
    a.FetchFailure? || a.AddFailure? || a.EditFailure? || a.DeleteFailure?
  }

  /** `items.map(item => item.id === t.id ? t : item)`. */
  function ReplaceById(items: seq<Transaction>, t: Transaction): (r: seq<Transaction>)
    ensures |r| == |items|
    ensures forall i :: 0 <= i < |items| && items[i].id == t.id ==> r[i] == t
    ensures forall i :: 0 <= i < |items| && items[i].id != t.id ==> r[i] == items[i]
  {
    if |items| == 0 then []
    else
      var last := Seqs.Last(items);
      ReplaceById(Seqs.Init(items), t) + [if last.id == t.id then t else last]
  }

  /** `items.filter(item => item.id !== id)`. */
  function RemoveId(items: seq<Transaction>, id: string): (r: seq<Transaction>)
    ensures |r| <= |items|
    ensures forall t :: t in r <==> t in items && t.id != id
  {
    Seqs.Filter((t: Transaction) => t.id != id, items)
  }

  /** `transactionsReducer(state, action)`. */
  function Reduce(s: State, a: Action): (r: State)
    ensures IsRequest(a) ==> r == State(s.items, true, None)
    ensures IsFailure(a) ==> r == State(s.items, false, Some(a.message))
    ensures IsSuccess(a) ==> !r.loading && r.error == s.error
    ensures !IsSuccess(a) ==> r.items == s.items
    ensures a.Unrelated? ==> r == s
    ensures a.AddSuccess? ==> r.items == s.items + [a.added]
    ensures a.EditSuccess? ==> (|r.items| == |s.items| &&
      forall i :: 0 <= i < |s.items| ==> r.items[i] == if s.items[i].id == a.edited.id then a.edited else s.items[i])
    ensures a.DeleteSuccess? ==> forall t :: t in r.items <==> t in s.items && t.id != a.deletedId
  {
    match a
    case FetchRequest => s.(loading := true, error := None)
    case AddRequest(_) => s.(loading := true, error := None)
    case EditRequest(_, _) => s.(loading := true, error := None)
    case DeleteRequest(_) => s.(loading := true, error := None)
    case FetchSuccess(list) => s.(items := list, loading := false)
    case AddSuccess(t) => s.(items := s.items + [t], loading := false)
    case EditSuccess(t) => s.(items := ReplaceById(s.items, t), loading := false)
    case DeleteSuccess(id) => s.(items := RemoveId(s.items, id), loading := false)
    case FetchFailure(m) => s.(loading := false, error := Some(m))
    case AddFailure(m) => s.(loading := false, error := Some(m))
    case EditFailure(m) => s.(loading := false, error := Some(m))
    case DeleteFailure(m) => s.(loading := false, error := Some(m))
    case Unrelated(_) => s
  }

  /** The store after dispatching `acts` in order: the spinner follows the
      last own action, and only a success can touch the list. */
  function Run(s: State, acts: seq<Action>): (r: State)
    ensures r.loading == match LastOwn(acts) {
      case None => s.loading
      case Some(a) => IsRequest(a)
    }
    ensures (forall i :: 0 <= i < |acts| ==> !IsSuccess(acts[i])) ==> r.items == s.items
  {
    LoadingFollowsLastAction(s, acts);
    ListChangesOnlyOnSuccess(s, acts);
    Seqs.Run(Reduce, s, acts)
  }

  // ---------------------------------------------------------------------------
  // One action
  // ---------------------------------------------------------------------------

  /** Every request starts loading and clears the error, leaving the list alone. */
  lemma RequestStartsLoading(s: State, a: Action)
    requires IsRequest(a)
    ensures Reduce(s, a) == State(s.items, true, None)
  {
  }

  /** Every failure stops loading and records its message, leaving the list alone. */
  lemma FailureRecordsError(s: State, a: Action)
    requires IsFailure(a)
    ensures Reduce(s, a) == State(s.items, false, Some(a.message))
  {
  }

  /** Every success stops loading and keeps whatever error was recorded. */
  lemma SuccessStopsLoading(s: State, a: Action)
    requires IsSuccess(a)
    ensures !Reduce(s, a).loading && Reduce(s, a).error == s.error
  {
  }

  /** Actions of other slices leave this one as it is. */
  lemma UnrelatedIsNoOp(s: State, name: string)
    ensures Reduce(s, Unrelated(name)) == s
  {
  }

  /** A fetch replaces the list wholesale, whatever was there. */
  lemma FetchReplacesList(s: State, list: seq<Transaction>)
    ensures Reduce(s, FetchSuccess(list)).items == list
  {
  }

  /** An added transaction goes to the end; the earlier ones keep their places. */
  lemma AddAppends(s: State, t: Transaction)
    ensures var r := Reduce(s, AddSuccess(t)).items;
      |r| == |s.items| + 1 && r[|s.items|] == t && r[..|s.items|] == s.items
  {
  }

  /** An edit keeps the length and the ids, and applying it twice is applying it once. */
  lemma EditKeepsIds(items: seq<Transaction>, t: Transaction)
    ensures var r := ReplaceById(items, t);
      |r| == |items| && forall i :: 0 <= i < |r| ==> r[i].id == items[i].id
    ensures ReplaceById(ReplaceById(items, t), t) == ReplaceById(items, t)
  {
  }

  /** An edit whose id matches nothing changes nothing. */
  lemma EditOfUnknownIdIsNoOp(items: seq<Transaction>, t: Transaction)
    requires forall i :: 0 <= i < |items| ==> items[i].id != t.id
    ensures ReplaceById(items, t) == items
  {
  }

  /** A delete removes exactly the transactions carrying that id. */
  lemma DeleteRemovesExactly(items: seq<Transaction>, id: string)
    ensures forall t :: t in RemoveId(items, id) <==> t in items && t.id != id
  {
  }

  /** A delete works element by element and keeps the survivors in order,
      duplicates included: deleting from a concatenation deletes from each
      part, and a single record survives exactly when its id differs. */
  lemma RemoveIdAppend(a: seq<Transaction>, b: seq<Transaction>, id: string)
    ensures RemoveId(a + b, id) == RemoveId(a, id) + RemoveId(b, id)
  {
    Seqs.FilterAppend((t: Transaction) => t.id != id, a, b);
  }

  lemma RemoveIdOne(x: Transaction, id: string)
    ensures RemoveId([x], id) == if x.id != id then [x] else []
  {
    Seqs.FilterSingleton((t: Transaction) => t.id != id, x);
  }

  /** Deleting twice is deleting once. */
  lemma {:induction false} DeleteIdempotent(items: seq<Transaction>, id: string)
    ensures RemoveId(RemoveId(items, id), id) == RemoveId(items, id)
  {
    var r := RemoveId(items, id);
    Seqs.FilterKeepsAll((t: Transaction) => t.id != id, r);
  }

  // ---------------------------------------------------------------------------
  // Sequences of actions
  // ---------------------------------------------------------------------------

  /** The last action that is not `Unrelated`, if any. */
  function LastOwn(acts: seq<Action>): Option<Action> {
    if |acts| == 0 then None
    else if !Seqs.Last(acts).Unrelated? then Some(Seqs.Last(acts))
    else LastOwn(Seqs.Init(acts))
  }

  /** The spinner is on exactly when the last own action was a request: a
      success or failure of ANY operation turns it off, even while another
      request is still in flight. */
  lemma {:induction false} LoadingFollowsLastAction(s: State, acts: seq<Action>)
    ensures Seqs.Run(Reduce, s, acts).loading == match LastOwn(acts) {
      case None => s.loading
      case Some(a) => IsRequest(a)
    }
  {
    if |acts| > 0 {
      LoadingFollowsLastAction(s, Seqs.Init(acts));
    }
  }

  /** Without a success, the list is never touched. */
  lemma {:induction false} ListChangesOnlyOnSuccess(s: State, acts: seq<Action>)
    ensures (forall i :: 0 <= i < |acts| ==> !IsSuccess(acts[i])) ==> Seqs.Run(Reduce, s, acts).items == s.items
  {
    if |acts| > 0 {
      ListChangesOnlyOnSuccess(s, Seqs.Init(acts));
    }
  }

  /** Two fetches in flight: whichever answer arrives last wins, whatever the
      order of the requests. */
  lemma FetchRaceLastAnswerWins(s: State, first: seq<Transaction>, second: seq<Transaction>)
    ensures Run(s, [FetchRequest, FetchRequest, FetchSuccess(first), FetchSuccess(second)])
         == State(second, false, None)
  {
    var acts := [FetchRequest, FetchRequest, FetchSuccess(first), FetchSuccess(second)];
    Seqs.RunAppend(Reduce, s, [FetchRequest, FetchRequest], [FetchSuccess(first), FetchSuccess(second)]);
    assert acts == [FetchRequest, FetchRequest] + [FetchSuccess(first), FetchSuccess(second)];
    Seqs.RunPair(Reduce, s, FetchRequest, FetchRequest);
    Seqs.RunPair(Reduce, Run(s, [FetchRequest, FetchRequest]), FetchSuccess(first), FetchSuccess(second));
  }
}

=== FILE: wrappers.dfy ===
/** Optional values and success/failure results, standing in for the
    `T | null` fields and the thrown/rejected errors of the application. */
module Wrappers {

  datatype Option<+T> = None | Some(value: T) {

    /** The value, or `default` when absent (the `??` operator). */
    function GetOr(default: T): T {
      match this
      case Some(v) => v
      case None => default
    }
  }

  datatype Result<+R, +E> = Success(value: R) | Failure(error: E) {

    function ToOption(): Option<R> {
      match this
      case Success(v) => Some(v)
      case Failure(_) => None
    }
  }

  /** JavaScript truthiness of a `string | null | undefined` value: present and non-empty. */
  predicate Truthy(s: Option<string>) {
    s.Some? && s.value != ""
  }

  /** `a || b` on strings: `a` unless it is the (falsy) empty string. */
  function OrElse(a: string, b: string): (r: string)
    ensures r == a || r == b
    ensures r == "" ==> a == "" && b == ""
  {
    if a != "" then a else b
  }
}
